=== FILE: README.md ===
# rasp-cast in Dafny

A model of the core of rasp-cast, a small ICY/SHOUTcast internet-radio server. It covers the following parts:

- **The in-band metadata framer**, in both of its generations. The framer builds the `StreamTitle='…';` block and inserts it after every 8192 audio bytes.
- **The bookkeeping of the broadcast engine**: the catalog and its cursor, the interrupt queue, the all-skipped guard, `skipTo`, `removeTrack`, and the download coordinator. It also covers the playlist load, cache clean-up, pacing, the older engine's burst buffer and its listeners.
- **The schedule store**, which holds the cron programs and their jobs. This includes the migration on load and the `cached` flags.
- **The directory (Yellow Pages) client**: its reply parser and its register/touch/remove state machine.
- **Two request predicates**: the API-key gate and the interrupt route's validation.

The repository ships two generations of the server: `src/` is the older TypeScript and `dist/` is the compiled newer one. They differ in real ways, so each has its own modules (`…Src` and `…Dist`). Code the two share word for word is modelled once. That shared code is the interval walk of the framer (`IcyFraming`), the cursor arithmetic (`Cursor`) and the cron-job registry (`CronJobs`).

Everything is pure: immutable datatypes and functions, one method with a loop (`IcyFraming.Process`, mirrored by `IcySrc.Process`), and lemmas. The outside world is made explicit:

- File-system state is a `CacheDir` map from file name to size.
- The results of requests and fetches arrive as inputs (`Reply`, success flags, sizes).
- Random numbers are `draws` and UUIDs are `supply`/`ids` sequences.
- `cron.validate` is an uninterpreted predicate `valid`.
- Path resolution, the tag reader and the loudness normaliser are function parameters (`Env`).
- Bytes are the `byte` subtype of `int` (0 to 255). Pacing times are exact `real` milliseconds.

Modules: `Wrappers` (Option/Result), `JsText` (the JavaScript string semantics used), `Utf8`, `Sequences` (`findIndex` and subsequence helpers), `IcyFraming`, `IcyDist`, `IcySrc`, `Tracks`, `Cursor`, `Downloads`, `CatalogDist`, `EngineDist`, `PacingDist`, `EngineSrc`, `CronJobs`, `ScheduleDist`, `ScheduleSrc`, `YellowPages`, `Auth`, `InterruptRoute`.

## Model

| member | source | states |
|---|---|---|
| JsText.TrimStart | src/stream/YellowPagesManager.ts:204-205 | the result is the suffix left after dropping the leading ECMAScript white space and line terminators, and it does not start with one |
| JsText.TrimEnd | src/stream/YellowPagesManager.ts:204-205 | the result is the prefix left after dropping the trailing white space, and it does not end with one |
| JsText.Trim | src/stream/YellowPagesManager.ts:204-205 | the trimmed text is never longer and has no white space at either end |
| JsText.TrimSlice | src/stream/YellowPagesManager.ts:204-205 | the trimmed text is a contiguous run of the original, starting right after the leading white space |
| JsText.Lower | src/stream/YellowPagesManager.ts:204 | lower-casing keeps the length and maps each character independently (ASCII letters only) |
| JsText.IndexOf | src/stream/YellowPagesManager.ts:202 | -1 exactly when the character is absent; otherwise the first position holding it |
| JsText.Split | src/stream/YellowPagesManager.ts:201 | splitting always gives at least one piece and no piece contains the separator |
| JsText.SplitJoin | src/stream/YellowPagesManager.ts:201 | joining the pieces of a split with the separator gives the text back |
| JsText.JoinSplit | src/stream/YellowPagesManager.ts:201 | splitting a join of separator-free pieces gives the pieces back |
| JsText.IndexOfAfter | src/stream/YellowPagesManager.ts:202 | in `p + sep + t` with `sep` not in `p`, the first separator is the one right after `p` |
| JsText.TrimNoop | src/stream/YellowPagesManager.ts:204-205 | text without white space at either end is its own trim |
| JsText.TrimAfterSpace | src/stream/YellowPagesManager.ts:205 | the value after `": "` trims back to the value sent |
| JsText.DecimalValue | src/stream/YellowPagesManager.ts:56 | the positional decimal value: the leading digit counts 10^(length-1) times plus the value of the rest, so a run of k digits is below 10^k |
| JsText.NumberOf | src/stream/YellowPagesManager.ts:56 | `Number()` of an absent field is NaN and of blank text is 0 |
| Utf8.EncodeChar | src/stream/IcyMetadata.ts:21 | a code point becomes 1 to 4 bytes whose lead byte announces the length and whose other bytes are continuation bytes; ASCII is one byte, unchanged |
| Utf8.Encode | src/stream/IcyMetadata.ts:21 | UTF-8 text is between 1 and 4 bytes per character, and exactly one per character for ASCII |
| Utf8.EncodeAppend | src/stream/IcyMetadata.ts:20-21 | encoding distributes over concatenation, so the title's bytes sit between the prefix's and the suffix's |
| Utf8.AsciiBytes | dist/stream/IcyMetadata.js:31 | `Buffer.from(s, 'ascii')` has one byte per character, equal to it for code points below 256 |
| Utf8.BytesToChars | dist/stream/IcyMetadata.js:31 | reading bytes as Latin-1 gives one character per byte with the byte's value |
| Utf8.AsciiRoundTrip | dist/stream/IcyMetadata.js:31 | text whose code points fit in a byte survives the ASCII encoding unchanged |
| IcyFraming.Padded | dist/stream/IcyMetadata.js:32 | the padded length is a multiple of 16, at least the text length and less than 16 beyond it |
| IcyFraming.NextPos | dist/stream/IcyMetadata.js:60-68 | the interval position always stays below 8192 |
| IcyFraming.UnframeFrame | dist/stream/IcyMetadata.js:56-71 | a listener that skips one block per interval boundary recovers exactly the audio that was framed |
| IcyFraming.FrameLength | dist/stream/IcyMetadata.js:56-71 | the framed stream is the audio plus one block per interval boundary crossed |
| IcyFraming.FrameAppend | dist/stream/IcyMetadata.js:56-71 | framing `a` then `b` (position carried over) gives the same bytes as framing `a + b` at once |
| IcyFraming.NextPosStep | dist/stream/IcyMetadata.js:63-67 | advancing one byte and then `n` equals advancing `n + 1` |
| IcyFraming.FrameRun | dist/stream/IcyMetadata.js:62-67 | a run that stays within one interval passes through, followed by the block exactly when it completes the interval |
| IcyFraming.FrameNextRun | dist/stream/IcyMetadata.js:59-68 | each loop iteration extends the output by one run (and the block at a boundary), matching the reference framing of the longer prefix |
| IcyFraming.NextPosRun | dist/stream/IcyMetadata.js:63-67 | the counter update of one iteration, including the reset to 0 at 8192 |
| IcyFraming.Process | dist/stream/IcyMetadata.js:56-71 | `process`: the counter ends at (old + chunk length) mod 8192, the output is the reference framing of the chunk, stripping the blocks gives the chunk back, and the length is chunk + one block per boundary |
| IcyFraming.AssembleShape | dist/stream/IcyMetadata.js:33-35 | a block is the length byte, then the text from offset 1, then zero bytes |
| IcyFraming.DropTrailingZeros | dist/stream/IcyMetadata.js:32-33 | the listener's payload is the block text up to its trailing zero padding, which is all zeros |
| IcyFraming.PaddedPayload | dist/stream/IcyMetadata.js:32-35 | zero padding after a text not ending in zero is exactly undone by the listener |
| IcyDist.Keep | dist/stream/IcyMetadata.js:19-21 | a removal pass keeps only characters passing the test, and keeps all that do |
| IcyDist.KeepKeep | dist/stream/IcyMetadata.js:19-21 | two removal passes in a row equal one pass with the conjunction of their tests |
| IcyDist.KeepAppend | dist/stream/IcyMetadata.js:19-21 | a removal pass distributes over concatenation |
| IcyDist.KeepAll | dist/stream/IcyMetadata.js:19-21 | a pass over text that already passes the test changes nothing |
| IcyDist.ThreePasses | dist/stream/IcyMetadata.js:19-21 | the quote, control and non-ASCII passes together keep exactly printable ASCII other than the apostrophe |
| IcyDist.SanitizeTitleSafe | dist/stream/IcyMetadata.js:17-23 | every character of the sanitised title is in 0x20 to 0x7E and is not `'`; it is at most 128 long and is the first 128 safe characters of the title |
| IcyDist.SanitizeTitleIdempotent | dist/stream/IcyMetadata.js:17-23 | sanitising twice equals sanitising once |
| IcyDist.BlockLayout | dist/stream/IcyMetadata.js:24-36 | only the empty title gives the lone zero byte; a title that sanitises to nothing still gives a 16-byte text; otherwise the block is 1 + 16·ceil(text/16) bytes with the length byte times 16 equal to the padded length, text from offset 1, zeros after, length byte at most 9 |
| IcyDist.ParseTextOf | dist/stream/IcyMetadata.js:30 | the title is read back from between `StreamTitle='` and `';` |
| IcyDist.PayloadOfBlock | dist/stream/IcyMetadata.js:29-36 | a listener reading a non-empty title's block by its length byte gets exactly the ASCII text |
| IcyDist.ParseCreate | dist/stream/IcyMetadata.js:24-36 | round trip: a listener reads back exactly the sanitised title, and no title from the empty block |
| IcyDist.StreamTextAscii | dist/stream/IcyMetadata.js:29-31 | every character of the framed text fits in one byte, so the ASCII encoding loses nothing |
| IcyDist.NewInterleaver | dist/stream/IcyMetadata.js:47-49 | a new framer starts at position 0, with the lone zero block for the default empty title, and a listener reads the sanitised initial title from its first block (none for "") |
| IcyDist.UpdateTitle | dist/stream/IcyMetadata.js:50-52 | the block changes so that a listener reads the new sanitised title (none for ""), and the interval position is kept |
| IcySrc.EncodedText | src/stream/IcyMetadata.ts:20-21 | the encoded text is the prefix, the title's own UTF-8 bytes verbatim and the suffix; it is at least 15 bytes and ends in `;` |
| IcySrc.BlockLayout | src/stream/IcyMetadata.ts:14-27 | only the empty title gives the lone zero byte; any other title is embedded verbatim as UTF-8 from offset 1 and zero-padded to a multiple of 16 |
| IcySrc.BlockOfLayout | src/stream/IcyMetadata.ts:22-25 | the block is 1 + padded length bytes: length byte, text, zero padding |
| IcySrc.BlockOfFits | src/stream/IcyMetadata.ts:22-25 | while the padded text is at most 255 units, the length byte describes the block and the listener gets the text back |
| IcySrc.LengthByte | src/stream/IcyMetadata.ts:22-25 | under the 255-unit precondition, the stored length byte times 16 is the padded length and the payload is the UTF-8 text |
| IcySrc.LengthByteWraps | src/stream/IcyMetadata.ts:22-24 | beyond 255 units the stored byte wraps modulo 256, no longer matches the block, and the block cannot be read |
| IcySrc.TitleBlock | src/stream/IcyMetadata.ts:14-27 | the zero block exactly for ""; for any other title that fits the length byte, a listener reads the title's UTF-8 text back |
| IcySrc.NewInterleaver | src/stream/IcyMetadata.ts:39-41 | a new framer starts at position 0; its block is the zero block exactly for "", and otherwise (while it fits) a listener reads the initial title's text from it |
| IcySrc.UpdateTitle | src/stream/IcyMetadata.ts:43-45 | only the block changes, not the byte counter: the zero block exactly for "", and otherwise (while it fits) a block from which a listener reads the new title's text |
| IcySrc.Process | src/stream/IcyMetadata.ts:50-69 | the output is exactly the reference framing: the audio with the current title block written at every 8192-byte boundary crossed; the counter ends at (old + chunk length) mod 8192, and stripping the blocks gives the chunk back |
| Tracks.DeleteCacheFile | dist/stream/StreamManager.js:236-242 | only the track's `${id}.mp3` disappears; every other file keeps its size |
| Tracks.CurrentTitleShape | dist/stream/StreamManager.js:647-652 | the display title is empty with no track, always ends with the title, and starts with "artist - " exactly when the artist is not "Unknown" |
| Tracks.FileName | dist/stream/StreamManager.js:319 | the base name has no `/` in it |
| Tracks.Stem | dist/stream/StreamManager.js:320 | the `.mp3` suffix is removed exactly when present |
| Tracks.FileTitle | dist/stream/StreamManager.js:320-333 | a file track's title is the entry's, else the tag's, else the base name without `.mp3` |
| Tracks.FileArtist | dist/stream/StreamManager.js:321-333 | a file track's artist is the entry's, else the tag's, else "Unknown" |
| Tracks.BuildEach | dist/stream/StreamManager.js:448-453 | building a list succeeds exactly when every entry builds, and then gives each entry's track in order |
| Tracks.AssignIds | dist/stream/StreamManager.js:271-274 | entries with an id are unchanged; each id-less one gets a fresh id from the supply; nothing else changes |
| Tracks.AssignIdsNoop | dist/stream/StreamManager.js:271-274 | a list where every entry has an id is left exactly as it is |
| Sequences.FindFirst | dist/stream/StreamManager.js:484 | `findIndex`: None (for -1) exactly when no element satisfies the test; otherwise the first position whose element does |
| Cursor.FindIndex | dist/stream/StreamManager.js:484 | -1 exactly when no track has the id; otherwise the first position holding it |
| Cursor.Advance | dist/stream/StreamManager.js:440 | the cursor moves to the next track and wraps to 0 after the last |
| Cursor.SkipTarget | dist/stream/StreamManager.js:488 | the cursor set by `skipTo` is in range and the loop's advance lands on the target |
| Cursor.AdjustCurrentIndex | dist/stream/StreamManager.js:639-646 | the cursor ends in range (0 for an empty catalog) and an in-range cursor is untouched |
| Cursor.RemoveAt | dist/stream/StreamManager.js:616-638 | `splice(index, 1)` removes one element and shifts the later ones down |
| Cursor.CursorAfterRemovalAsWritten | dist/stream/StreamManager.js:627-646 | as written: the cursor moves back when the removed track was before it and stays put otherwise, then is clamped; a skip exactly when the current track is removed, so the removed track's successor sits under the cursor |
| Cursor.RemovalAsWrittenSkipsSuccessor | dist/stream/StreamManager.js:627-646 | as written, removing the current track (not the last) with three or more tracks makes the loop's advance land two tracks on, past the successor |
| Cursor.RemovalAsWrittenExample | dist/stream/StreamManager.js:627-646 | removing the current first track of `[1, 2, 3]` makes 3 play next, not 2 |
| Cursor.CursorAfterRemoval | dist/stream/StreamManager.js:616-646 | corrected: a skip exactly when the current track is removed; the cursor moves back when the removed track was before it and stays otherwise; after removing the current track the loop's advance lands on its successor (the first track after the last); the cursor is in range |
| Cursor.RemovalPlaysSuccessor | dist/stream/StreamManager.js:632-635 | after removing the current track, the track the advance lands on is the one that followed it |
| Cursor.RemovalKeepsCurrent | dist/stream/StreamManager.js:627-635 | removing a track other than the current one asks for no skip and leaves the same track under the cursor |
| Cursor.NextToPlay | dist/stream/StreamManager.js:411-419 | a non-empty interrupt queue is played whole before any catalog track; otherwise the track under the cursor |
| Downloads.DrainSpec | dist/stream/StreamManager.js:172-198 | draining keeps at most one download running, stops only when the slot is busy or the queue is empty, takes items in FIFO order, starts only pending uncached items, and drops the others with `onComplete(isCached(id))` |
| Downloads.DroppedHead | dist/stream/StreamManager.js:176-180 | dropping a cached or cancelled head, with its callback first, keeps the drain guarantee |
| Downloads.StartedHead | dist/stream/StreamManager.js:181-182 | starting a pending uncached head keeps the drain guarantee |
| Downloads.DrainKeepsActive | dist/stream/StreamManager.js:172-198 | draining never stops a running download |
| Downloads.DrainKeepsPending | dist/stream/StreamManager.js:172-198 | draining clears no pending mark of an uncached id |
| Downloads.DrainLast | dist/stream/StreamManager.js:172-198 | a freshly queued pending uncached item is running or still last in the queue afterwards |
| Downloads.StartBackgroundDownload | dist/stream/StreamManager.js:161-170 | no-op without callback when the id is cached or pending; otherwise the id becomes pending and one item for it is running or queued last |
| Downloads.StartKeepsPending | dist/stream/StreamManager.js:161-170 | a request for one id never clears another uncached id's pending mark |
| Downloads.StartTwice | dist/stream/StreamManager.js:161-170 | asking twice for the same id changes nothing the second time: one fetch per id |
| Downloads.StartEach | dist/schedule/ScheduleManager.js:206-213 | handing a list of downloads over in order leaves every uncached one pending, keeps the pending uncached ids pending, and changes nothing when every id is cached or pending already |
| Downloads.CompleteDownload | dist/stream/StreamManager.js:183-196 | a finished fetch calls back with its outcome, lands `${id}.mp3` only on success, frees the slot, clears the pending mark, keeps the other running downloads and drains again |
| Downloads.CancelPendingDownload | dist/stream/StreamManager.js:204-207 | every queued item for the id and its pending mark go; the running download and the other items' order stay |
| Downloads.WithoutId | dist/stream/StreamManager.js:206 | the filtered queue is the order-preserving sub-list of items with other ids |
| CatalogDist.BuildTrack | dist/stream/StreamManager.js:314-352 | a file entry builds exactly when its file exists (`normalizeFile`, called at line 334, begins with a `statSync` that throws otherwise) and plays normalised; a URL entry always builds and plays from its cache file exactly when that file exists; anything else fails; the id is the entry's or the fresh one |
| CatalogDist.Reconciled | dist/stream/StreamManager.js:276-287 | after the load an entry has its id and, if a URL entry, `cached` equal to whether its cache file exists; nothing else changes |
| CatalogDist.DownloadsAfter | dist/stream/StreamManager.js:280-283 | an uncached URL entry ends up pending and existing pending uncached ids stay pending |
| CatalogDist.LoadEntries | dist/stream/StreamManager.js:264-294 | the entry loop keeps one rewritten entry per input and a valid coordinator |
| CatalogDist.Walk | dist/stream/StreamManager.js:268-288 | the entry loop without the catalog keeps one entry per input |
| CatalogDist.LoadIsWalk | dist/stream/StreamManager.js:264-294 | the entry loop's entries, downloads and save flag are the walk's, and its catalog is the reference catalog |
| CatalogDist.WalkIds | dist/stream/StreamManager.js:271-287 | every walked entry has a usable id, keeps an existing one, and is the reconciled input |
| CatalogDist.WalkSaves | dist/stream/StreamManager.js:271-287 | the save flag is raised exactly when some entry changed |
| CatalogDist.WalkKeepsPending | dist/stream/StreamManager.js:280-283 | pending downloads of uncached ids stay pending through the walk |
| CatalogDist.WalkDownloads | dist/stream/StreamManager.js:280-283 | every uncached URL entry has a download pending after the walk |
| CatalogDist.LoadIds | dist/stream/StreamManager.js:271-287 | after the load every entry has a usable id, existing ids are kept, URL entries carry the cache state, nothing else changes |
| CatalogDist.LoadSaves | dist/stream/StreamManager.js:296-299 | the playlist is marked for rewriting exactly when some id or `cached` flag changed |
| CatalogDist.LoadCatalog | dist/stream/StreamManager.js:276-293 | the loaded catalog is the reference catalog of the rewritten entries |
| CatalogDist.LoadDownloads | dist/stream/StreamManager.js:280-283 | every uncached URL entry gets a download pending and no pending uncached id is lost |
| CatalogDist.CatalogMembers | dist/stream/StreamManager.js:276-293 | a track is in the catalog exactly when it is the built track of an admitted entry |
| CatalogDist.CatalogPlayable | dist/stream/StreamManager.js:276-287 | a URL track is in the catalog only when its cache file exists and then plays from it; every track has a file |
| CatalogDist.Swap | dist/stream/StreamManager.js:382 | a Fisher-Yates step exchanges two positions, leaves the rest and keeps the multiset |
| CatalogDist.ShuffleDown | dist/stream/StreamManager.js:380-383 | the shuffle loop permutes the positions up to `i` and leaves the rest |
| CatalogDist.Shuffle | dist/stream/StreamManager.js:379-385 | `shuffleTracks` is a permutation of the catalog |
| CatalogDist.LoadFromPlaylistFile | dist/stream/StreamManager.js:264-303 | the load rewrites the playlist only when something changed and a path is set; every entry gets an id; the catalog is the reference catalog, or a permutation when shuffling; no uncached URL track enters it and each gets a download pending |
| CatalogDist.CatalogAllPlayable | dist/stream/StreamManager.js:276-287 | every catalog track has a file to play, and URL tracks only from the cache |
| CatalogDist.ShuffleCatalog | dist/stream/StreamManager.js:301-303 | the shuffled catalog has the same tracks, so it is still all playable |
| CatalogDist.CatalogSize | dist/stream/StreamManager.js:276-293 | the catalog is never longer than the entry list |
| CatalogDist.ValidIds | dist/stream/StreamManager.js:529-534 | the ids kept are the extra ids plus every URL track's non-empty id |
| CatalogDist.Orphans | dist/stream/StreamManager.js:538-560 | the orphans are exactly the listed orphaned files, in listing order |
| CatalogDist.Report | dist/stream/StreamManager.js:562-575 | one report line per catalog URL track with its id, and each line's cache state |
| CatalogDist.StemOfCacheFile | dist/stream/StreamManager.js:551 | an `.mp3` file has stem `id` exactly when it is `${id}.mp3` |
| CatalogDist.CleanupCache | dist/stream/StreamManager.js:527-579 | deletes exactly the `.mp3` files that are not `file_` files and whose stem is not a valid id; the others keep their sizes; deletedCount is the number deleted; freedBytes is their total size; every URL track is reported with its cache state before deletion |
| CatalogDist.CleanupIdempotent | dist/stream/StreamManager.js:527-579 | a second clean-up finds no orphans |
| CatalogDist.CleanupKeeps | dist/stream/StreamManager.js:547-560 | `file_` files, non-`.mp3` files and valid ids' cache files always survive |
| EngineDist.StartStreaming | dist/stream/StreamManager.js:400-409 | a no-op when already streaming or with an empty catalog; otherwise streaming starts with a fresh skip counter |
| EngineDist.PlayInterrupts | dist/stream/StreamManager.js:413-418 | the queued interrupts play in FIFO order until none is left, the cursor is untouched, and the skip counter resets |
| EngineDist.InterruptsBeforeCatalog | dist/stream/StreamManager.js:411-419 | with interrupts queued, the loop plays all of them first and resumes at the very catalog track it was on |
| EngineDist.FinishCatalogTrack | dist/stream/StreamManager.js:426-443 | a short track counts as skipped and a normal one resets the count; the cursor advances modulo n; the catalog changes (a permutation) only when shuffling wraps to 0 |
| EngineDist.ShortRun | dist/stream/StreamManager.js:428-440 | a run of unplayable tracks yields one pause flag per track |
| EngineDist.ShortRunWaits | dist/stream/StreamManager.js:428-434 | counting from the last reset, the loop pauses exactly at the n-th consecutive unplayable track and not before |
| EngineDist.BuildAll | dist/stream/StreamManager.js:448-453 | the batch builds exactly when every input builds, with each input's track in order |
| EngineDist.Interrupt | dist/stream/StreamManager.js:448-456 | a failed build leaves the queue as it was; otherwise the new tracks are appended behind the queued ones |
| EngineDist.ClearInterruptQueue | dist/stream/StreamManager.d.ts:88-89 | the declared `clearInterruptQueue`: the interrupt queue becomes empty and nothing else changes (the track playing is not cut) |
| EngineDist.SkipTo | dist/stream/StreamManager.js:481-491 | false on an empty catalog or unknown id and nothing happens; otherwise only the cursor moves, so that advancing lands on the target, and a skip is signalled |
| EngineDist.SkipToPlaysTarget | dist/stream/StreamManager.js:426-443 | after `skipTo`, the next track played is the target unless the wrap to 0 reshuffles first |
| EngineDist.RemoveTrack | dist/stream/StreamManager.js:616-621 | "Track not found" exactly when no track has the id; otherwise the removal of the first track with it |
| EngineDist.RemoveTrackAt | dist/stream/StreamManager.js:622-638 | corrected cursor: the track is gone (the rest in order without shuffle, a permutation of it with shuffle), a URL track's cache file is deleted and a file track's kept, the queue is untouched, a skip exactly when it was current; the cursor moves back when the removed track was before it, stays when after, and without shuffle the track played after removing the current one is its successor |
| EngineDist.EngineAfterRemoval | dist/stream/StreamManager.js:627-646 | corrected cursor: in range, moved back when the removed track was before it, kept when after, and landing the advance on the removed current track's successor without shuffle |
| EngineDist.ReloadedAfterRemoval | dist/stream/StreamManager.js:636 | the reloaded catalog is the remaining tracks, in order without shuffle and permuted with it |
| EngineDist.RemoveKeepsCurrentTrack | dist/stream/StreamManager.js:616-646 | without shuffle, removing another track keeps the current track under the cursor |
| PacingDist.ExpectedMs | dist/stream/StreamManager.js:685-698 | a byte total is due total·1000/16000 ms after the track started |
| PacingDist.Delay | dist/stream/StreamManager.js:696-709 | no wait for the first chunk; otherwise the lag behind schedule capped at 1000 ms, and none when on or behind schedule; a wait never overshoots the schedule |
| PacingDist.SendNext | dist/stream/StreamManager.js:691-716 | the sender takes the queue head only when idle, not aborted and with work queued, and each wait lies between 0 and 1000 ms |
| PacingDist.StepValid | dist/stream/StreamManager.js:691-737 | every event keeps at most one chunk in flight and the chunks in arrival order; nothing is broadcast after abort |
| PacingDist.DataValid | dist/stream/StreamManager.js:717-723 | a data chunk is queued (ignored after abort) and broadcasts nothing itself |
| PacingDist.DeliveredValid | dist/stream/StreamManager.js:710-715 | a delivery appends the chunk in flight to the broadcast unless aborted meanwhile |
| PacingDist.ErrorValid | dist/stream/StreamManager.js:733-737 | a stream error drops the queue and keeps the sender consistent |
| PacingDist.RunValid | dist/stream/StreamManager.js:682-737 | over any event sequence the broadcast is an order-preserving sub-list of the arrived chunks, and nothing goes out after abort |
| PacingDist.FreshValid | dist/stream/StreamManager.js:686-690 | a new track's sender starts consistent |
| EngineSrc.Last | src/stream/StreamManager.ts:441-444 | the newest min(n, length) bytes, as a suffix |
| EngineSrc.UpdateBurst | src/stream/StreamManager.ts:441-444 | the buffer stays within 65536 bytes unless it was not trimmed |
| EngineSrc.ConcatCons | src/stream/StreamManager.ts:441 | appending a list of chunks is appending the first and then the rest |
| EngineSrc.LastOfLast | src/stream/StreamManager.ts:441-444 | trimming after every chunk or once at the end gives the same bytes |
| EngineSrc.BurstKeepsNewest | src/stream/StreamManager.ts:439-444 | after any series of broadcasts the burst buffer holds exactly the newest min(65536, total) bytes sent |
| EngineSrc.Feed | src/stream/StreamManager.ts:446-461 | a closed connection gets nothing; a metadata listener with an interleaver gets the framed chunk; others get the raw chunk |
| EngineSrc.Broadcast | src/stream/StreamManager.ts:439-463 | the burst buffer keeps the newest bytes and every listener is fed the chunk; nothing else changes |
| EngineSrc.NextPosAdd | src/stream/IcyMetadata.ts:54-66 | the interval position after `a` then `b` bytes is the position after `a + b` |
| EngineSrc.BroadcastKeepsSync | src/stream/StreamManager.ts:446-461 | a metadata listener in step stays in step, and what it holds decodes to all audio sent |
| EngineSrc.FeedKeepsSync | src/stream/StreamManager.ts:453-455 | one framed chunk keeps a listener in step |
| EngineSrc.AddClientAsWritten | src/stream/StreamManager.ts:161-179 | as written: the new listener's interleaver starts at 0 with the current title and the raw burst is written to it unframed (when non-empty; a failed write is ignored) |
| EngineSrc.Silence | src/stream/StreamManager.ts:446-461 | a full 8192-byte interval of zero bytes |
| EngineSrc.FramedLateSilence | src/stream/IcyMetadata.ts:50-69 | the correct framing of one byte then a silent interval puts the block at byte 8192 |
| EngineSrc.LateJoinerReceives | src/stream/StreamManager.ts:172-179 | the as-written late joiner holds the raw burst byte followed by the framed silence |
| EngineSrc.FeedSilence | src/stream/StreamManager.ts:453-455 | a fresh interleaver fed a silent interval emits it followed by the block |
| EngineSrc.LengthByteNonZero | src/stream/IcyMetadata.ts:22-24 | a non-empty title's length byte is non-zero while it fits |
| EngineSrc.LengthByteMisplaced | src/stream/IcyMetadata.ts:50-69 | one raw byte ahead of a silent interval puts an audio byte at position 8192, where correct framing puts the non-zero length byte |
| EngineSrc.AddClientAsWrittenBreaksFraming | src/stream/StreamManager.ts:172-179 | with a one-byte burst, byte 8192 of the as-written stream is audio where the length byte must be |
| EngineSrc.AddClient | src/stream/StreamManager.ts:161-179 | corrected: the burst goes through the new listener's interleaver, so the listener starts in step with the burst |
| EngineSrc.AddClientThenBroadcast | src/stream/StreamManager.ts:161-179 | with the corrected `addClient`, a joiner then fed a chunk decodes exactly the burst followed by the chunk |
| EngineSrc.PlayTrack | src/stream/StreamManager.ts:328-338 | the track becomes current, every interleaver gets its display title with its position kept, and no bytes are sent |
| EngineSrc.StartStreaming | src/stream/StreamManager.ts:187-194 | a no-op when already streaming or with an empty catalog |
| EngineSrc.PlayInterrupts | src/stream/StreamManager.ts:227-236 | the queued interrupts play in order, leaving the queue empty and the cursor alone |
| EngineSrc.FinishCatalogTrack | src/stream/StreamManager.ts:204-213 | after a catalog track the interrupted branch is taken exactly when interrupts are queued; on both the cursor moves to the next track, wrapping to 0 after the last, and nothing else changes |
| EngineSrc.FinishThenSelect | src/stream/StreamManager.ts:197-213 | after a catalog track, queued interrupts play next and then the catalog resumes at the following track; with none queued the following track plays next |
| EngineSrc.BuildTrack | src/stream/StreamManager.ts:102-133 | file and URL entries build and anything else fails; a file plays its resolved path; a URL track streams from the network |
| EngineSrc.BuildAll | src/stream/StreamManager.ts:218-222 | the batch builds exactly when every input builds, with each input's track in order |
| EngineSrc.Interrupt | src/stream/StreamManager.ts:217-225 | when every input builds, the queue is replaced (not extended) by the built tracks and a skip is signalled; a failure changes nothing |
| EngineSrc.InterruptReplaces | src/stream/StreamManager.ts:197-225 | after an interrupt the loop plays exactly the new batch, whatever was queued before |
| EngineSrc.SkipTo | src/stream/StreamManager.ts:244-251 | false and no change for an unknown id; otherwise only the cursor moves so that the advance lands on the target |
| EngineSrc.SkipToPlaysTarget | src/stream/StreamManager.ts:204-213 | after `skipTo` and the end of the skipped track, the next catalog track is the target |
| EngineSrc.RemoveTrack | src/stream/StreamManager.ts:296-301 | "Track not found" exactly when no track has the id; otherwise the removal of the first track with it, with a skip exactly when it was current |
| EngineSrc.RemoveTrackAt | src/stream/StreamManager.ts:302-320 | corrected cursor: the track is spliced out and nothing else changes; the cursor moves back when the removed track was before it, stays when after, and after removing the current track the next track played is its successor |
| EngineSrc.ExpectedMs | src/stream/StreamManager.ts:404-414 | at 16800 bytes/s a byte total is due total/16.8 ms after the start |
| EngineSrc.OnData | src/stream/StreamManager.ts:408-426 | ignored after abort; otherwise counted and broadcast at once, with a pause of the full uncapped lag exactly when running more than 50 ms ahead |
| CronJobs.RegisterEachExpected | src/schedule/ScheduleManager.ts:110-115 | registering programs one by one adds exactly the ids that ought to have jobs |
| CronJobs.RegisterAll | src/schedule/ScheduleManager.ts:110-132 | after `registerAllJobs` the job ids are exactly the enabled programs with valid cron expressions |
| CronJobs.Replace | src/schedule/ScheduleManager.ts:80-85 | replacing a program by one whose id no other program has (its own or a new one) keeps ids unique, and the expected jobs follow from unregistering the old id and registering the new program |
| CronJobs.ReplaceCollides | src/schedule/ScheduleManager.ts:80 | a replacement taking another program's id leaves two programs with that id |
| CronJobs.Append | src/schedule/ScheduleManager.ts:66-68 | appending a program with an unused id keeps ids unique, and the expected jobs follow from registering it |
| CronJobs.Remove | src/schedule/ScheduleManager.ts:93-95 | removing a program keeps ids unique and removes exactly its id from the expected jobs |
| CronJobs.RemoveShifts | src/schedule/ScheduleManager.ts:93 | after `splice(k, 1)` the earlier programs stay and the later ones move down one place |
| ScheduleSrc.Load | src/schedule/ScheduleManager.ts:32-49 | a missing, unparseable or program-less file gives no programs; otherwise the stored programs as they are; jobs exactly as expected |
| ScheduleSrc.AddProgram | src/schedule/ScheduleManager.ts:55-70 | an invalid cron is refused with nothing changed; otherwise one program with the fresh id is appended, enabled by default, and only its job may be added |
| ScheduleSrc.AddKeepsConsistent | src/schedule/ScheduleManager.ts:55-70 | with a fresh id, unique ids and exactly-expected jobs are kept |
| ScheduleSrc.AddSameCronKeepsBoth | src/schedule/ScheduleManager.ts:59-66 | two adds with the same cron keep both programs |
| ScheduleSrc.FindProgram | src/schedule/ScheduleManager.ts:73 | -1 exactly when no program has the id; otherwise the first one |
| ScheduleSrc.UpdateProgram | src/schedule/ScheduleManager.ts:72-88 | unknown id, or a supplied non-empty invalid cron, is refused; otherwise each field (the id included) comes from the patch where present and from the old program otherwise, at the same index; the old id's job goes, the merged program's id gets one when it registers, and every other job stays |
| ScheduleSrc.UpdateKeepsConsistent | src/schedule/ScheduleManager.ts:72-88 | an update that keeps the id or re-keys to an unused one keeps unique ids and exactly-expected jobs |
| ScheduleSrc.UpdateRekeyCollides | src/schedule/ScheduleManager.ts:80-85 | a patch carrying another program's id leaves two programs with that id |
| ScheduleSrc.DeleteProgram | src/schedule/ScheduleManager.ts:90-96 | unknown id refused; otherwise exactly that program and its job go |
| ScheduleSrc.DeleteKeepsConsistent | src/schedule/ScheduleManager.ts:90-96 | a deletion keeps the store consistent and the id is gone |
| ScheduleSrc.StopAll | src/schedule/ScheduleManager.ts:98-103 | every job is stopped; the programs stay |
| ScheduleSrc.UnregisterJob | src/schedule/ScheduleManager.ts:134-140 | only that id loses its job |
| ScheduleSrc.Fire | src/schedule/ScheduleManager.ts:124-129 | firing replaces the interrupt queue with the program's one track and skips; a failed build changes nothing |
| ScheduleDist.CacheUrlTracks | dist/schedule/ScheduleManager.js:204-228 | every fetchable URL track's `cached` becomes whether its cache file exists; other tracks are untouched |
| ScheduleDist.CacheUrlTracksReports | dist/schedule/ScheduleManager.js:204-228 | true exactly when some flag was not already that boolean; the downloads asked for are exactly the uncached tracks, with a callback |
| ScheduleDist.CacheUrlTracksChanged | dist/schedule/ScheduleManager.js:214-223 | the change flag is raised exactly when some flag was stale |
| ScheduleDist.CacheUrlTracksAsked | dist/schedule/ScheduleManager.js:209-213 | every download asked for belongs to an uncached fetchable track |
| ScheduleDist.CacheUrlTracksAskedAll | dist/schedule/ScheduleManager.js:209-213 | every uncached fetchable track has its download asked for |
| ScheduleDist.CheckAsks | dist/schedule/ScheduleManager.js:204-213 | every checked track that still lacks its cache file has its download asked for |
| ScheduleDist.CheckSubmits | dist/schedule/ScheduleManager.js:204-213 | once the asked-for downloads are handed to the coordinator, every checked track lacking its cache file has its id pending |
| ScheduleDist.CacheUrlTracksSettles | dist/schedule/ScheduleManager.js:204-228 | a second check finds nothing to change |
| ScheduleDist.CacheFileNameParts | dist/stream/StreamManager.js:236-242 | a file is `${id}.mp3` exactly when it ends in `.mp3` and the rest is `id` |
| ScheduleDist.DeleteCacheForTracks | dist/schedule/ScheduleManager.js:230-238 | every URL track with an id gets `cached` false, the others are untouched, and the running download stays |
| ScheduleDist.DeletionEffects | dist/schedule/ScheduleManager.js:230-238 | exactly the tracks' cache files go (others keep their sizes), and exactly those ids lose their pending marks and queued downloads |
| ScheduleDist.DeletionUncaches | dist/schedule/ScheduleManager.js:230-238 | after the deletion no track's id is cached or pending |
| ScheduleDist.UrlIdsMember | dist/schedule/ScheduleManager.js:232 | each URL track's id is among the ids cleared |
| ScheduleDist.FindCron | dist/schedule/ScheduleManager.js:94 | -1 exactly when no program has the cron expression; otherwise the first one |
| ScheduleDist.FindProgram | dist/schedule/ScheduleManager.js:130 | -1 exactly when no program has the id; otherwise the first one |
| ScheduleDist.AddProgram | dist/schedule/ScheduleManager.js:84-128 | an invalid cron throws before any change; a same-cron program is overwritten in place with its id and count kept, its old URL caches deleted and queued downloads cancelled, and its job replaced; otherwise a fresh-id program is appended with the cache untouched; `enabled` defaults to true; the stored tracks are the input's, with ids given to id-less ones, after the cache check; the downloads it asks for are handed to the coordinator in order, so every stored track lacking its cache file has its id pending |
| ScheduleDist.AddKeepsConsistent | dist/schedule/ScheduleManager.js:84-128 | with a fresh id, adding keeps ids unique and the jobs exactly the enabled valid programs |
| ScheduleDist.AddSameCronOverwrites | dist/schedule/ScheduleManager.js:94-114 | last write wins: a second add with the same cron leaves one program for it, with the second one's name |
| ScheduleDist.AddedSlot | dist/schedule/ScheduleManager.js:94-127 | the added program is found at the overwritten slot or at the end |
| ScheduleDist.FindCronFirst | dist/schedule/ScheduleManager.js:94 | the first program with a cron expression is the one found |
| ScheduleDist.Merge | dist/schedule/ScheduleManager.js:145 | each field, the id included, comes from the patch where present and from the old program otherwise |
| ScheduleDist.UpdateProgram | dist/schedule/ScheduleManager.js:129-151 | unknown id or a supplied non-empty invalid cron is refused; otherwise the merge replaces the program at its index; with new tracks, the old tracks' caches are deleted and their downloads cancelled, and the new tracks (ids given) are the cache-checked ones, with their downloads handed to the coordinator so every one lacking its cache file is pending; without, tracks, cache and coordinator are untouched; the old id's job goes, the merged id gets one when it registers, and every other job stays; cron uniqueness is not enforced |
| ScheduleDist.UpdateKeepsConsistent | dist/schedule/ScheduleManager.js:129-151 | an update that keeps the id or re-keys to an unused one keeps the store consistent |
| ScheduleDist.UpdateRekeyCollides | dist/schedule/ScheduleManager.js:145-150 | a patch carrying another program's id leaves two programs with that id |
| ScheduleDist.DeleteProgram | dist/schedule/ScheduleManager.js:152-163 | unknown id refused; otherwise exactly that program is removed, its caches cleared and its job unregistered |
| ScheduleDist.DeleteKeepsConsistent | dist/schedule/ScheduleManager.js:152-163 | a deletion keeps the store consistent and the id is gone |
| ScheduleDist.UnregisterJob | dist/schedule/ScheduleManager.js:196-202 | only that id loses its job |
| ScheduleDist.StopAll | dist/schedule/ScheduleManager.js:164-169 | every job is stopped; the programs stay |
| ScheduleDist.FireAsWritten | dist/schedule/ScheduleManager.js:187-193 | as written: the callback throws on calling the undefined `clearInterruptQueue`, so every firing fails and leaves the engine as it was |
| ScheduleDist.FireAsWrittenNeverInterrupts | dist/schedule/ScheduleManager.js:187-193 | whenever the program's tracks build into a queue other than the waiting one, the intended firing changes the engine and the as-written one does not |
| ScheduleDist.Fire | dist/schedule/ScheduleManager.js:187-193 | corrected: the queue is cleared first, so afterwards it holds exactly the program's tracks, or nothing when one fails to build; nothing else changes |
| ScheduleDist.Migrate | dist/schedule/ScheduleManager.js:21-38 | a legacy `track` becomes the only element of `tracks`; id-less tracks get ids; id, name, cron and enabled are kept |
| ScheduleDist.MigrateAll | dist/schedule/ScheduleManager.js:21-38 | the migration handles each program and draws fresh ids in order |
| ScheduleDist.MigrateAllFlag | dist/schedule/ScheduleManager.js:20-38 | the migration flag is raised exactly when some program is legacy or lacks a track id |
| ScheduleDist.Values | dist/schedule/ScheduleManager.js:21-38 | all programs came through the migration, in order |
| ScheduleDist.CacheAll | dist/schedule/ScheduleManager.js:53-57 | the cache check runs over every program |
| ScheduleDist.CacheAllPrograms | dist/schedule/ScheduleManager.js:53-57 | each program leaves the check with its tracks checked and nothing else changed |
| ScheduleDist.CacheAllChanged | dist/schedule/ScheduleManager.js:53-57 | the store-wide flag is raised exactly when some program's check raised it |
| ScheduleDist.CacheAllRequests | dist/schedule/ScheduleManager.js:53-57 | every download a program's check asks for is asked for by the store-wide check |
| ScheduleDist.Load | dist/schedule/ScheduleManager.js:15-63 | a missing or unparseable file gives an empty store; a program with no track list makes the load fail; otherwise every program is kept, the jobs are exactly as expected, and the downloads asked for are handed to the coordinator |
| ScheduleDist.LoadMigrates | dist/schedule/ScheduleManager.js:21-38 | after the load every track has an id, a legacy program has its one track, and the program's id, name, cron and enabled are kept |
| ScheduleDist.MigrateAllIds | dist/schedule/ScheduleManager.js:29-35 | every migrated program's tracks carry ids |
| ScheduleDist.LoadDownloads | dist/schedule/ScheduleManager.js:51-57 | after the load every URL track lacking its cache file has its id pending, and already pending uncached ids stay pending |
| ScheduleDist.LoadSaves | dist/schedule/ScheduleManager.js:39-59 | the file is rewritten exactly when it was not already in normal form |
| YellowPages.ParseLine | src/stream/YellowPagesManager.ts:202-206 | a line sets a key only when it has a colon, and the key is non-empty and free of colons |
| YellowPages.KeyOf | src/stream/YellowPagesManager.ts:204 | the trimmed, lower-cased key has no colon |
| YellowPages.KeyOfNoColon | src/stream/YellowPagesManager.ts:204 | trimming and lower-casing add no colon |
| YellowPages.ParsedLines | src/stream/YellowPagesManager.ts:201-206 | each line is parsed independently, in order |
| YellowPages.ApplyKeys | src/stream/YellowPagesManager.ts:200-208 | a key is in the reply exactly when some line defines it |
| YellowPages.ApplyKeeps | src/stream/YellowPagesManager.ts:200-208 | a key no line defines keeps its value |
| YellowPages.ApplyLastWins | src/stream/YellowPagesManager.ts:206 | the last line defining a key decides its value |
| YellowPages.ParsedKeys | src/stream/YellowPagesManager.ts:199-209 | every parsed key is non-empty and colon-free |
| YellowPages.Lines | src/stream/YellowPagesManager.ts:201 | one reply line per field |
| YellowPages.ParseRenderedLine | src/stream/YellowPagesManager.ts:202-206 | a well-formed `key: value` line parses back to its key and value |
| YellowPages.LowerNoop | src/stream/YellowPagesManager.ts:204 | lower-casing leaves lower-case keys alone |
| YellowPages.ParseLinesRendered | src/stream/YellowPagesManager.ts:201-207 | parsing rendered lines sets the fields in order |
| YellowPages.FirstLineParsed | src/stream/YellowPagesManager.ts:202-206 | the first rendered line parses to the first field |
| YellowPages.LinesTail | src/stream/YellowPagesManager.ts:201 | the parsed lines after the first are those of the other fields |
| YellowPages.ParseRender | src/stream/YellowPagesManager.ts:199-209 | round trip: parsing a well-formed reply gives exactly its fields, later duplicates winning |
| YellowPages.TouchFreq | src/stream/YellowPagesManager.ts:56 | the touch interval is positive, and other than 5 only when advertised as that number |
| YellowPages.StartTouching | src/stream/YellowPagesManager.ts:153-158 | exactly one timer runs afterwards, at the current interval |
| YellowPages.StopTouching | src/stream/YellowPagesManager.ts:160-165 | no timer runs afterwards and nothing else changes |
| YellowPages.Accepted | src/stream/YellowPagesManager.ts:53-59 | an accepting reply registers under its id with its interval and starts the timer |
| YellowPages.FirstAcceptingSpec | src/stream/YellowPagesManager.ts:35-71 | the retry loop finds an accepting reply exactly when there is one, and finds the first |
| YellowPages.Register | src/stream/YellowPagesManager.ts:31-75 | at most 3 attempts and a wait only between attempts; success exactly when a reply acks with a non-empty id, and then the first such reply decides the state; after 3 failures, false and the client unchanged |
| YellowPages.RegisterValid | src/stream/YellowPagesManager.ts:31-75 | registration keeps the client consistent |
| YellowPages.Touch | src/stream/YellowPagesManager.ts:78-115 | a no-op when unregistered or the request fails; an ack changes the interval (restarting the timer) only for a different non-zero number; a rejection unregisters, stops the timer and re-registers |
| YellowPages.TouchValid | src/stream/YellowPagesManager.ts:78-115 | touching keeps the client consistent |
| YellowPages.TouchRejectedThenFails | src/stream/YellowPagesManager.ts:102-111 | a rejected touch whose re-registration fails leaves the client unregistered with no timer |
| YellowPages.Remove | src/stream/YellowPagesManager.ts:118-135 | when registered the client ends unregistered with no id, whatever the request does; otherwise nothing happens |
| YellowPages.Stop | src/stream/YellowPagesManager.ts:138-141 | afterwards the client is unregistered, with no id and no timer |
| Auth.ConfiguredKey | src/middleware/auth.ts:3 | the key is empty exactly when the variable is unset or empty |
| Auth.RequireApiKey | src/middleware/auth.ts:5-19 | with no key every request passes; with a key, a request passes exactly when its header is `Bearer ` + key, and otherwise gets 401 |
| Auth.OneHeaderOneKey | src/middleware/auth.ts:12-16 | one header opens at most one non-empty key |
| Auth.BareKeyRefused | src/middleware/auth.ts:12-18 | with a key set, a missing header and the bare key are both refused |
| InterruptRoute.TracksOf | src/routes/interrupt.routes.ts:18 | a single object is treated as a one-element list |
| InterruptRoute.CheckVersusBuild | src/routes/interrupt.routes.ts:19-23 | the route's check passes every buildable track, and otherwise only tracks of another non-empty type |
| InterruptRoute.Handle | src/routes/interrupt.routes.ts:14-29 | 400 exactly when some track is invalid, with no interrupt at all; otherwise one interrupt with the whole list, answered with its length, or 500 with nothing changed when a track fails to build |
| InterruptRoute.PlayableListStarts | src/routes/interrupt.routes.ts:19-25 | a list of file and URL tracks is started in full |
| InterruptRoute.UnknownTypeIsServerError | src/routes/interrupt.routes.ts:20-27 | a track with an unknown type passes the check but ends in a 500 with nothing queued |
| InterruptRoute.EmptyListStarts | src/routes/interrupt.routes.ts:24-25 | an empty list is accepted: one interrupt with no tracks, and a skip |

## Left out

- File and network I/O are not modelled. This covers ffmpeg transcoding and loudness measurement, `fetch` and the stream pipes, temp files and the content hash, and `fs` directory scans. The cache directory is a map from file name to size. Fetch results arrive as success flags and sizes. The normaliser is `Env.normalize`; it answers `None` for a missing source file, where `normalizeFile`'s `statSync` throws, and a path otherwise (the transcoded cache file, or the source itself when ffmpeg fails).
- ID3 tag reading is the parameter `Env.tags`: `None` when reading fails.
- Timers, `setImmediate`, `setInterval`, sockets and close events are not modelled. An abort is an event or a `skip` flag.
- `Math.random` is the `draws` sequence; `crypto.randomUUID` is the `supply`/`ids` sequences, assumed fresh where a lemma needs it.
- `cron.validate` and cron evaluation (with the Asia/Tokyo timezone) are the predicate `valid`; a job firing is `Fire`.
- The reload through `Promise.allSettled` in `loadFromPlaylistFile`: its placeholders never resolve.
- The download callback of `cacheUrlTracksBackground`, which writes `track.cached` and saves later, is modelled only as the `notify` flag of the queued item.
- Downloads.StartEach and CatalogDist.DownloadsAfter: an `onComplete` call that a drain makes for another queued item while a download is handed over (one cached or cancelled meanwhile) is not returned; the coordinator state is.
- `getStatus`, `getCacheStatus`, `getPlaylist`, `setPlaylist` and `addTrack` are read-only or glue. `removeTrack`'s reload is modelled as the cursor clamp it ends with, plus (in the newer engine) the reshuffle.
- `clearInterruptQueue` exists only in the declaration file (dist/stream/StreamManager.d.ts:88-89, documented there as emptying the queue while the track playing runs to its end); the compiled dist/stream/StreamManager.js defines no such method, and its return value (a count) is not modelled. EngineDist.ClearInterruptQueue is the declared behaviour, which the corrected ScheduleDist.Fire uses; ScheduleDist.FireAsWritten is the compiled behaviour (see Findings).
- The reload at the end of `removeTrack` (and every `setPlaylist`) is not atomic: `loadFromPlaylistFile` empties `this.tracks` (dist/stream/StreamManager.js:267, src/stream/StreamManager.ts:92) and refills it across `await`s, while the playback loop goes on reading `this.tracks[this.currentIndex]` (dist line 419) and advancing modulo `this.tracks.length` (dist line 440, src line 212), which is `NaN` for an empty list. The model applies splice, cursor change and reload as one step. As written, `skip()` lets the loop advance a few microtasks later, on a list the reload has only partly rebuilt, so which track plays after a removal depends on how far the reload has got: with a local-file catalog in the newer engine the rebuilt list holds one track then and the advance lands on it, while a reload that waits on real I/O leaves the list empty, the cursor `NaN` and the loop stopped. The removal finding below is stated over the one-step reload.
- Strings are sequences of Unicode scalar values. JavaScript strings are UTF-16 code units: a lone surrogate cannot be represented here, and `Buffer.from(text, 'utf-8')` would encode it as EF BF BD. Titles with lone surrogates are not modelled.
- ScheduleDist.UpdateProgram: the registry is a set of ids, so when a patch re-keys a program to another program's id, the model shows the collision (ScheduleDist.UpdateRekeyCollides) but not that the other program's task, displaced from the registry by `cronJobs.set`, keeps firing and can no longer be stopped. A JSON `null` field in the patch, which the spread would copy, is not modelled.
- ScheduleSrc.UpdateProgram: the same as ScheduleDist.UpdateProgram for a re-keying patch and for `null` fields.
- Tracks.FileName: a path ending in `/` gives `""`, where Node's `basename` drops the trailing separator first.
- Routes other than the interrupt route and the key gate, the start-up wiring, the declaration files and the web front end.
- Yellow-pages replies arrive already parsed (`Reply`). `http.get` in `ypRequest` and the 15-second timeout are not modelled; a failed or timed-out request is `Failure`. The re-registration started by a rejected touch is run to completion with the replies it gets.
- An interrupt body that is not an object (such as `null`) is not modelled.
- JsText.Lower: lower-cases only the ASCII letters. Keys outside ASCII are taken as they are.
- JsText.NumberOf: covers only absent values, blank text and plain decimal digits. Signs, fractions, exponents and hexadecimal are treated as NaN.
- JsText.Trim: its contract states only the ends and the length. That it is a contiguous slice of the input is proved separately in JsText.TrimSlice.
- EngineSrc.UpdateBurst: its own contract states only the bound. The full property, that the buffer holds the newest bytes, is EngineSrc.BurstKeepsNewest.
- ScheduleDist.Load: a program with neither `track` nor `tracks` makes the cache check throw. The model returns this as an error rather than a rejected promise, and no state is kept.
- Pacing times are exact reals; the source uses floating-point milliseconds from `Date.now()`.
- An unknown `type` passes the interrupt route's check and then fails in the engine's build. This gives a 500 instead of a 400, as InterruptRoute.UnknownTypeIsServerError shows.

## Findings

| source | as written | input that shows it | evidently intended | confidence | as-written member | corrected member |
|---|---|---|---|---|---|---|
| src/stream/StreamManager.ts:172-179 | `addClient` writes the raw burst buffer to a metadata listener. That listener's interleaver starts counting at 0, after the `icy-metaint: 8192` header went out (src/routes/stream.routes.ts:39-46). The burst bytes are never counted, so every later block lands late. | Burst buffer `[0]`, a non-empty title, then one broadcast of 8192 zero bytes. Byte 8192 of the listener's stream is 0 (audio) where the non-zero metadata length byte must be. | Send the burst through the listener's interleaver, so that the listener's stream is correctly framed from its first byte. | not executed | EngineSrc.AddClientAsWritten, EngineSrc.AddClientAsWrittenBreaksFraming | EngineSrc.AddClient, EngineSrc.AddClientThenBroadcast |
| dist/schedule/ScheduleManager.js:187-193 | A job's callback first calls `this.streamManager.clearInterruptQueue()`. dist/stream/StreamManager.js defines no such method; only dist/stream/StreamManager.d.ts:88-89 declares it. The call throws a TypeError before `interrupt` on line 190 is reached. | Any enabled program with a valid cron expression, at its firing time: the interrupt queue and the catalog are left as they were, and the program never plays. | Clear the queue (the declared method), then queue the program's tracks. | not executed | ScheduleDist.FireAsWritten, ScheduleDist.FireAsWrittenNeverInterrupts | ScheduleDist.Fire, EngineDist.ClearInterruptQueue |
| dist/stream/StreamManager.js:627-646 | `removeTrack` on the current track leaves `currentIndex` unchanged, so after the splice it points at the removed track's successor. The playback loop then advances once more (line 440) before playing. The same holds in src/stream/StreamManager.ts:302-312 with the advance at line 212. | With the reload taken as one step: tracks `[A, B, C]`, cursor 0, remove `A`; the catalog becomes `[B, C]`, the cursor stays 0, the loop advances to 1 and plays `C`, so `B` is skipped. With the interleaving as written, a newer-engine catalog of local files has only `B` rebuilt when the loop advances, and `B` plays; URL catalogs and the older engine have two tracks rebuilt by then and skip as above. | What the comment at line 633 announces, a skip to the next track: the track that followed the removed one plays next, so the cursor should sit one before it. | not executed | Cursor.CursorAfterRemovalAsWritten, Cursor.RemovalAsWrittenSkipsSuccessor, Cursor.RemovalAsWrittenExample | Cursor.CursorAfterRemoval, Cursor.RemovalPlaysSuccessor, EngineDist.RemoveTrackAt, EngineSrc.RemoveTrackAt |

=== FILE: auth.dfy ===
/**
 * The bearer-token gate in front of the mutating routes: with no key configured
 * every request is let through; otherwise only a request carrying exactly
 * `Authorization: Bearer <key>`.
 */
module Auth {
  import opened Wrappers
  import opened JsText

  /** The one outcome of the gate: the request goes on to the route, or gets 401. */
  datatype Outcome = Pass | Unauthorized

  /** `process.env.API_KEY || ''`. */
  function ConfiguredKey(env: Option<string>): (k: string)
    ensures k == "" <==> !Truthy(env)
  {
    if Truthy(env) then env.value else ""
  }

  const BearerPrefix: string := "Bearer "

  /** `requireApiKey` for the configured key and the request's `Authorization` header. */
  function RequireApiKey(key: string, authorization: Option<string>): (r: Outcome)
    ensures key == "" ==> r == Pass
    ensures key != "" ==> (r == Pass <==> authorization == Some(BearerPrefix + key))
  {
    if key == "" then Pass
    else if authorization == Some(BearerPrefix + key) then Pass
    else Unauthorized
  }

  /**
   * With keys configured, one header opens at most one key: a request accepted
   * under two non-empty keys was accepted under the same key twice.
   */
  lemma OneHeaderOneKey(k1: string, k2: string, authorization: Option<string>)
    requires k1 != "" && k2 != ""
    requires RequireApiKey(k1, authorization) == Pass && RequireApiKey(k2, authorization) == Pass
    ensures k1 == k2
  {
    assert k1 == (BearerPrefix + k1)[|BearerPrefix|..];
    assert k2 == (BearerPrefix + k2)[|BearerPrefix|..];
  }

  /** With a key configured, a request without the header, or with the bare key, is refused. */
  lemma BareKeyRefused(key: string)
    requires key != ""
    ensures RequireApiKey(key, None) == Unauthorized
    ensures RequireApiKey(key, Some(key)) == Unauthorized
  {
    assert |Some(key).value| < |BearerPrefix + key|;
  }
}

=== FILE: catalog_dist.dfy ===
/**
 * The catalog side of the newer engine: turning playlist entries into playable
 * tracks (`buildTrackInfo`), the playlist load with its id assignment,
 * cached-flag reconciliation and exclusion of uncached URL tracks
 * (`loadFromPlaylistFile`), the Fisher-Yates shuffle, and the cache clean-up.
 */
module CatalogDist {
  import opened Wrappers
  import opened JsText
  import opened Tracks
  import opened Downloads

  /**
   * What the load needs from the outside world: path resolution against the music
   * directory, the tag reader (`None` when reading fails) and the loudness
   * normaliser, which hands back the path to play -- or `None` when the source file
   * is missing, where `normalizeFile`'s first `statSync` throws.
   */
  datatype Env = Env(resolve: string -> string, tags: string -> Option<Tags>, normalize: string -> Option<string>)

  /**
   * `buildTrackInfo(entry)`: a file entry becomes a normalised local track with title
   * and artist from the entry, else the tags, else the file name / "Unknown" -- or
   * fails when its file is missing; a URL entry becomes a URL track that is playable
   * exactly when its cache file exists; anything else is the "Invalid track" error.
   * `newId` is the UUID used when the entry has no id.
   */
  function BuildTrack(e: Entry, newId: string, cache: CacheDir, env: Env): (r: Result<Track>)
    ensures r.Ok? <==>
      || (e.IsFileEntry() && env.normalize(env.resolve(e.path.value)).Some?)
      || (!e.IsFileEntry() && e.IsUrlEntry())
    ensures r.Ok? ==> r.value.id == Or(e.id, newId)
    ensures r.Ok? && Truthy(e.title) ==> r.value.title == e.title.value
    ensures r.Ok? && Truthy(e.artist) ==> r.value.artist == e.artist.value
    ensures e.IsFileEntry() && r.Ok? ==>
      r.value.kind == File && r.value.filePath == env.normalize(env.resolve(e.path.value))
    ensures !e.IsFileEntry() && r.Ok? ==>
      && r.value.kind == Url && r.value.url == e.url.value
      && r.value.filePath == (if IsCached(cache, r.value.id) then Some(CacheFileName(r.value.id)) else None)
      && r.value.title == Or(e.title, UnknownTitle)
      && r.value.artist == Or(e.artist, UnknownArtist)
  {
    if e.IsFileEntry() then
      var filePath := env.resolve(e.path.value);
      var tags := if !Truthy(e.title) || !Truthy(e.artist) then env.tags(filePath) else None;
      match env.normalize(filePath)
      case None => Err("ENOENT: no such file or directory, stat '" + filePath + "'")
      case Some(normalized) =>
        Ok(Track(Or(e.id, newId), File, FileTitle(e, filePath, tags), FileArtist(e, tags), Some(normalized), ""))
    else if e.IsUrlEntry() then
      var id := Or(e.id, newId);
      var cached := IsCached(cache, id);
      Ok(Track(id, Url, Or(e.title, UnknownTitle), Or(e.artist, UnknownArtist),
               if cached then Some(CacheFileName(id)) else None, e.url.value))
    else
      Err("Invalid track: type with path (file) or url (url) required")
  }

  /** A URL entry whose cache file is missing: it is downloaded, not played. */
  predicate Uncached(e: Entry, cache: CacheDir)
    requires Truthy(e.id)
  {
    e.IsUrlEntry() && !IsCached(cache, e.id.value)
  }

  /** The entry makes it into the catalog: it builds, and is not an uncached URL. */
  predicate Admitted(e: Entry, cache: CacheDir, env: Env)
    requires Truthy(e.id)
  {
    BuildTrack(e, "", cache, env).Ok? && !Uncached(e, cache)
  }

  /** Reference definition of the catalog of a list of id-carrying entries, in order. */
  function Catalog(es: seq<Entry>, cache: CacheDir, env: Env): seq<Track>
    requires forall i :: 0 <= i < |es| ==> Truthy(es[i].id)
  {
    if |es| == 0 then []
    else
      (if Admitted(es[0], cache, env) then [BuildTrack(es[0], "", cache, env).value] else [])
      + Catalog(es[1..], cache, env)
  }

  /** The load changed something in an entry that has to be written back. */
  predicate Changed(before: Entry, after: Entry) {
    !Truthy(before.id) || (before.IsUrlEntry() && before.cached != after.cached)
  }

  /** The rewritten entries, the catalog, the download coordinator and the save flag. */
  datatype Loaded = Loaded(entries: seq<Entry>, tracks: seq<Track>, downloads: Coordinator, needsSave: bool)

  /** The UUID supply holds enough non-empty ids for the entries that lack one. */
  predicate Supplies(entries: seq<Entry>, supply: seq<string>) {
    |supply| >= MissingIds(entries) && forall k :: 0 <= k < |supply| ==> supply[k] != ""
  }

  /** The id an entry ends up with. */
  function IdOf(e: Entry, supply: seq<string>): (r: string)
    requires Truthy(e.id) || |supply| > 0
  {
    if Truthy(e.id) then e.id.value else supply[0]
  }

  /** One entry after the load: its id and, for a URL entry, its reconciled `cached` flag. */
  function Reconciled(e: Entry, id: string, cache: CacheDir): (r: Entry)
    ensures r.id == Some(id)
    ensures r == e.(id := r.id, cached := r.cached)
    ensures r.cached == if e.IsUrlEntry() then Some(IsCached(cache, id)) else e.cached
  {
    var withId := e.(id := Some(id));
    if withId.IsUrlEntry() then withId.(cached := Some(IsCached(cache, id))) else withId
  }

  /** The supply left after an entry: one fresh id is used up when the entry had none. */
  function SupplyAfter(e: Entry, supply: seq<string>): seq<string>
    requires Truthy(e.id) || |supply| > 0
  {
    if Truthy(e.id) then supply else supply[1..]
  }

  /** The coordinator after a reconciled entry: a download starts when its cache file is missing. */
  function DownloadsAfter(d: Coordinator, e: Entry, cache: CacheDir): (r: Coordinator)
    requires d.Valid() && Truthy(e.id)
    ensures r.Valid()
    ensures forall x :: x in d.pending && !IsCached(cache, x) ==> x in r.pending
    ensures Uncached(e, cache) ==> e.id.value in r.pending
  {
    if Uncached(e, cache) then
      var r := StartBackgroundDownload(d, cache, e.url.value, e.id.value, false).0;
      forall x | x in d.pending && !IsCached(cache, x)
        ensures x in r.pending
      {
        StartKeepsPending(d, cache, e.url.value, e.id.value, false, x);
      }
      r
    else d
  }

  /** The catalog's share of a reconciled entry: its track when admitted, else nothing. */
  function Admit(e: Entry, cache: CacheDir, env: Env): seq<Track>
    requires Truthy(e.id)
  {
    if Admitted(e, cache, env) then [BuildTrack(e, "", cache, env).value] else []
  }

  /**
   * The entry loop of `loadFromPlaylistFile`: give id-less entries a fresh UUID,
   * reconcile each URL entry's `cached` flag with the cache directory, start a
   * background download (without a callback) for uncached URL entries and leave them
   * out, and build every other entry, skipping the ones that fail to build.
   */
  function LoadEntries(entries: seq<Entry>, supply: seq<string>, cache: CacheDir, d: Coordinator, env: Env): (r: Loaded)
    requires Supplies(entries, supply) && d.Valid()
    ensures |r.entries| == |entries|
    ensures r.downloads.Valid()
    decreases |entries|
  {
    if |entries| == 0 then Loaded([], [], d, false)
    else
      var e := entries[0];
      var e' := Reconciled(e, IdOf(e, supply), cache);
      var rest := LoadEntries(entries[1..], SupplyAfter(e, supply), cache, DownloadsAfter(d, e', cache), env);
      Loaded([e'] + rest.entries, Admit(e', cache, env) + rest.tracks, rest.downloads, Changed(e, e') || rest.needsSave)
  }

  /** The entry loop without the catalog: the rewritten entries, the coordinator and the save flag. */
  datatype Walked = Walked(entries: seq<Entry>, downloads: Coordinator, needsSave: bool)

  function Walk(entries: seq<Entry>, supply: seq<string>, cache: CacheDir, d: Coordinator): (r: Walked)
    requires Supplies(entries, supply) && d.Valid()
    ensures |r.entries| == |entries|
    decreases |entries|
  {
    if |entries| == 0 then Walked([], d, false)
    else
      var e := entries[0];
      var e' := Reconciled(e, IdOf(e, supply), cache);
      var rest := Walk(entries[1..], SupplyAfter(e, supply), cache, DownloadsAfter(d, e', cache));
      Walked([e'] + rest.entries, rest.downloads, Changed(e, e') || rest.needsSave)
  }

  /** The entry loop does what the walk does, and builds the catalog of the rewritten entries on the side. */
  lemma {:induction false} LoadIsWalk(entries: seq<Entry>, supply: seq<string>, cache: CacheDir, d: Coordinator, env: Env)
    requires Supplies(entries, supply) && d.Valid()
    ensures var r := LoadEntries(entries, supply, cache, d, env);
      var w := Walk(entries, supply, cache, d);
      r.entries == w.entries && r.downloads == w.downloads && r.needsSave == w.needsSave
    decreases |entries|
  {
    if |entries| > 0 {
      var e := entries[0];
      var e' := Reconciled(e, IdOf(e, supply), cache);
      LoadIsWalk(entries[1..], SupplyAfter(e, supply), cache, DownloadsAfter(d, e', cache), env);
    }
  }

  lemma {:induction false} WalkIds(entries: seq<Entry>, supply: seq<string>, cache: CacheDir, d: Coordinator)
    requires Supplies(entries, supply) && d.Valid()
    ensures var r := Walk(entries, supply, cache, d);
      forall i :: 0 <= i < |entries| ==>
        && Truthy(r.entries[i].id)
        && (Truthy(entries[i].id) ==> r.entries[i].id == entries[i].id)
        && r.entries[i] == Reconciled(entries[i], r.entries[i].id.value, cache)
    decreases |entries|
  {
    if |entries| > 0 {
      var e := entries[0];
      var e' := Reconciled(e, IdOf(e, supply), cache);
      var supply' := SupplyAfter(e, supply);
      var d' := DownloadsAfter(d, e', cache);
      WalkIds(entries[1..], supply', cache, d');
      var r := Walk(entries, supply, cache, d);
      var rest := Walk(entries[1..], supply', cache, d');
      forall i | 0 <= i < |entries|
        ensures Truthy(r.entries[i].id) && (Truthy(entries[i].id) ==> r.entries[i].id == entries[i].id)
        ensures r.entries[i] == Reconciled(entries[i], r.entries[i].id.value, cache)
      {
        if i > 0 {
          assert r.entries[i] == rest.entries[i - 1] && entries[i] == entries[1..][i - 1];
        }
      }
    }
  }

  lemma {:induction false} WalkSaves(entries: seq<Entry>, supply: seq<string>, cache: CacheDir, d: Coordinator)
    requires Supplies(entries, supply) && d.Valid()
    ensures var r := Walk(entries, supply, cache, d);
      r.needsSave <==> exists i :: 0 <= i < |entries| && Changed(entries[i], r.entries[i])
    decreases |entries|
  {
    if |entries| > 0 {
      var e := entries[0];
      var e' := Reconciled(e, IdOf(e, supply), cache);
      var supply' := SupplyAfter(e, supply);
      var d' := DownloadsAfter(d, e', cache);
      WalkSaves(entries[1..], supply', cache, d');
      var r := Walk(entries, supply, cache, d);
      var rest := Walk(entries[1..], supply', cache, d');
      if Changed(e, e') {
        assert entries[0] == e && r.entries[0] == e';
      } else if rest.needsSave {
        var i :| 0 <= i < |entries| - 1 && Changed(entries[1..][i], rest.entries[i]);
        assert entries[1..][i] == entries[i + 1] && rest.entries[i] == r.entries[i + 1];
      } else {
        forall i | 0 <= i < |entries|
          ensures !Changed(entries[i], r.entries[i])
        {
          if i > 0 {
            assert entries[i] == entries[1..][i - 1] && r.entries[i] == rest.entries[i - 1];
          }
        }
      }
    }
  }

  lemma {:induction false} WalkKeepsPending(entries: seq<Entry>, supply: seq<string>, cache: CacheDir, d: Coordinator)
    requires Supplies(entries, supply) && d.Valid()
    ensures var r := Walk(entries, supply, cache, d);
      forall x :: x in d.pending && !IsCached(cache, x) ==> x in r.downloads.pending
    decreases |entries|
  {
    if |entries| > 0 {
      var e := entries[0];
      var e' := Reconciled(e, IdOf(e, supply), cache);
      WalkKeepsPending(entries[1..], SupplyAfter(e, supply), cache, DownloadsAfter(d, e', cache));
    }
  }

  lemma {:induction false} WalkDownloads(entries: seq<Entry>, supply: seq<string>, cache: CacheDir, d: Coordinator)
    requires Supplies(entries, supply) && d.Valid()
    ensures var r := Walk(entries, supply, cache, d);
      forall i :: 0 <= i < |entries| && Truthy(r.entries[i].id) && Uncached(r.entries[i], cache) ==>
        r.entries[i].id.value in r.downloads.pending
    decreases |entries|
  {
    if |entries| > 0 {
      var e := entries[0];
      var e' := Reconciled(e, IdOf(e, supply), cache);
      var supply' := SupplyAfter(e, supply);
      var d' := DownloadsAfter(d, e', cache);
      WalkDownloads(entries[1..], supply', cache, d');
      WalkKeepsPending(entries[1..], supply', cache, d');
      var r := Walk(entries, supply, cache, d);
      var rest := Walk(entries[1..], supply', cache, d');
      assert forall j :: 0 <= j < |rest.entries| && Truthy(rest.entries[j].id) && Uncached(rest.entries[j], cache) ==>
        rest.entries[j].id.value in rest.downloads.pending;
      assert r.entries == [e'] + rest.entries && r.downloads == rest.downloads;
      forall i | 0 <= i < |entries| && Truthy(r.entries[i].id) && Uncached(r.entries[i], cache)
        ensures r.entries[i].id.value in r.downloads.pending
      {
        if i == 0 {
          assert r.entries[0] == e';
          assert e'.id.value in d'.pending && !IsCached(cache, e'.id.value);
          assert e'.id.value in rest.downloads.pending;
        } else {
          var x := rest.entries[i - 1];
          assert r.entries[i] == x;
          assert i - 1 < |entries[1..]| && Truthy(x.id) && Uncached(x, cache);
          assert x.id.value in rest.downloads.pending;
        }
      }
    }
  }

  /**
   * After the load every entry has a usable id, existing ids are kept, URL entries
   * carry `cached` = whether the cache file exists, and nothing else in an entry changes.
   */
  lemma LoadIds(entries: seq<Entry>, supply: seq<string>, cache: CacheDir, d: Coordinator, env: Env)
    requires Supplies(entries, supply) && d.Valid()
    ensures var r := LoadEntries(entries, supply, cache, d, env);
      forall i :: 0 <= i < |entries| ==>
        && Truthy(r.entries[i].id)
        && (Truthy(entries[i].id) ==> r.entries[i].id == entries[i].id)
        && r.entries[i] == Reconciled(entries[i], r.entries[i].id.value, cache)
  {
    LoadIsWalk(entries, supply, cache, d, env);
    WalkIds(entries, supply, cache, d);
  }

  /** The playlist is marked for saving exactly when some entry got an id or a changed `cached` flag. */
  lemma LoadSaves(entries: seq<Entry>, supply: seq<string>, cache: CacheDir, d: Coordinator, env: Env)
    requires Supplies(entries, supply) && d.Valid()
    ensures var r := LoadEntries(entries, supply, cache, d, env);
      r.needsSave <==> exists i :: 0 <= i < |entries| && Changed(entries[i], r.entries[i])
  {
    LoadIsWalk(entries, supply, cache, d, env);
    WalkSaves(entries, supply, cache, d);
  }

  /** The catalog built by the load is the reference catalog of the rewritten entries. */
  lemma {:induction false} LoadCatalog(entries: seq<Entry>, supply: seq<string>, cache: CacheDir, d: Coordinator, env: Env)
    requires Supplies(entries, supply) && d.Valid()
    ensures var r := LoadEntries(entries, supply, cache, d, env);
      (forall i :: 0 <= i < |r.entries| ==> Truthy(r.entries[i].id)) && r.tracks == Catalog(r.entries, cache, env)
    decreases |entries|
  {
    LoadIds(entries, supply, cache, d, env);
    if |entries| > 0 {
      var e := entries[0];
      var e' := Reconciled(e, IdOf(e, supply), cache);
      var supply' := SupplyAfter(e, supply);
      var d' := DownloadsAfter(d, e', cache);
      LoadCatalog(entries[1..], supply', cache, d', env);
      var r := LoadEntries(entries, supply, cache, d, env);
      var rest := LoadEntries(entries[1..], supply', cache, d', env);
      assert r.entries[1..] == rest.entries;
    }
  }

  /**
   * Every uncached URL entry has a download pending afterwards, and pending downloads
   * of uncached ids stay pending.
   */
  lemma LoadDownloads(entries: seq<Entry>, supply: seq<string>, cache: CacheDir, d: Coordinator, env: Env)
    requires Supplies(entries, supply) && d.Valid()
    ensures var r := LoadEntries(entries, supply, cache, d, env);
      && (forall x :: x in d.pending && !IsCached(cache, x) ==> x in r.downloads.pending)
      && (forall i :: 0 <= i < |entries| && Truthy(r.entries[i].id) && Uncached(r.entries[i], cache) ==>
            r.entries[i].id.value in r.downloads.pending)
  {
    LoadIsWalk(entries, supply, cache, d, env);
    WalkKeepsPending(entries, supply, cache, d);
    WalkDownloads(entries, supply, cache, d);
  }

  /** Every track of a catalog comes from an admitted entry. */
  lemma {:induction false} CatalogMembers(es: seq<Entry>, cache: CacheDir, env: Env, t: Track)
    requires forall i :: 0 <= i < |es| ==> Truthy(es[i].id)
    ensures t in Catalog(es, cache, env) <==>
      exists i :: 0 <= i < |es| && Admitted(es[i], cache, env) && BuildTrack(es[i], "", cache, env) == Ok(t)
    decreases |es|
  {
    if |es| > 0 {
      CatalogMembers(es[1..], cache, env, t);
      if exists i :: 0 <= i < |es| && Admitted(es[i], cache, env) && BuildTrack(es[i], "", cache, env) == Ok(t) {
        var i :| 0 <= i < |es| && Admitted(es[i], cache, env) && BuildTrack(es[i], "", cache, env) == Ok(t);
        if i > 0 {
          assert es[1..][i - 1] == es[i];
        }
      }
      if t in Catalog(es[1..], cache, env) {
        var i :| 0 <= i < |es| - 1 && Admitted(es[1..][i], cache, env) && BuildTrack(es[1..][i], "", cache, env) == Ok(t);
        assert es[i + 1] == es[1..][i];
      }
    }
  }

  /**
   * The load rule: a URL track is in the catalog only when its cache file exists,
   * and it then plays from that file; every catalog track has a file to play.
   */
  lemma CatalogPlayable(es: seq<Entry>, cache: CacheDir, env: Env, t: Track)
    requires forall i :: 0 <= i < |es| ==> Truthy(es[i].id)
    requires t in Catalog(es, cache, env)
    ensures t.kind == Url ==> IsCached(cache, t.id) && t.filePath == Some(CacheFileName(t.id))
    ensures t.filePath.Some?
  {
    CatalogMembers(es, cache, env, t);
    var i :| 0 <= i < |es| && Admitted(es[i], cache, env) && BuildTrack(es[i], "", cache, env) == Ok(t);
  }

  /** One step of Fisher-Yates: swap positions `i` and `j`. */
  function Swap<T>(s: seq<T>, i: nat, j: nat): (r: seq<T>)
    requires i < |s| && j < |s|
    ensures |r| == |s| && r[i] == s[j] && r[j] == s[i]
    ensures forall k :: 0 <= k < |s| && k != i && k != j ==> r[k] == s[k]
    ensures multiset(r) == multiset(s)
  {
    s[i := s[j]][j := s[i]]
  }

  /**
   * `shuffleTracks` from position `i` down to 1: position `i` is swapped with
   * `draws[0] % (i + 1)`, standing in for `Math.floor(Math.random() * (i + 1))`.
   */
  function ShuffleDown<T>(s: seq<T>, i: nat, draws: seq<nat>): (r: seq<T>)
    requires i < |s| && |draws| >= i
    ensures |r| == |s|
    ensures multiset(r) == multiset(s)
    ensures forall k :: i < k < |s| ==> r[k] == s[k]
    decreases i
  {
    if i == 0 then s
    else ShuffleDown(Swap(s, i, draws[0] % (i + 1)), i - 1, draws[1..])
  }

  /** `shuffleTracks`: a permutation of the catalog driven by the random draws. */
  function Shuffle<T>(s: seq<T>, draws: seq<nat>): (r: seq<T>)
    requires |draws| >= |s|
    ensures |r| == |s| && multiset(r) == multiset(s)
  {
    if |s| == 0 then s else ShuffleDown(s, |s| - 1, draws)
  }

  /** A playlist file: the shuffle flag (absent is false) and its entries. */
  datatype Playlist = Playlist(shuffle: Option<bool>, entries: seq<Entry>)

  /** What a load leaves behind. */
  datatype LoadResult = LoadResult(
    playlist: Playlist,
    tracks: seq<Track>,
    shuffle: bool,
    downloads: Coordinator,
    saved: bool)

  /**
   * `loadFromPlaylistFile`: the entry loop, a write-back of the playlist when
   * something changed and a playlist path is set, and a shuffle of the new catalog
   * when shuffling is on and there is more than one track.
   */
  function LoadFromPlaylistFile(
    p: Playlist, hasPath: bool, supply: seq<string>, cache: CacheDir, d: Coordinator, env: Env, draws: seq<nat>)
    : (r: LoadResult)
    requires Supplies(p.entries, supply) && d.Valid() && |draws| >= |p.entries|
    ensures r.shuffle == p.shuffle.GetOr(false)
    ensures r.playlist.shuffle == p.shuffle
    ensures |r.playlist.entries| == |p.entries|
    ensures forall i :: 0 <= i < |p.entries| ==> Truthy(r.playlist.entries[i].id)
    ensures r.saved <==> hasPath && exists i :: 0 <= i < |p.entries| && Changed(p.entries[i], r.playlist.entries[i])
    ensures multiset(r.tracks) == multiset(Catalog(r.playlist.entries, cache, env))
    ensures !r.shuffle ==> r.tracks == Catalog(r.playlist.entries, cache, env)
    ensures forall t :: t in r.tracks ==> t.filePath.Some? && (t.kind == Url ==> IsCached(cache, t.id))
    ensures forall i :: 0 <= i < |p.entries| && Uncached(r.playlist.entries[i], cache) ==>
      r.playlist.entries[i].id.value in r.downloads.pending
    ensures r.downloads.Valid()
  {
    var loaded := LoadEntries(p.entries, supply, cache, d, env);
    LoadIds(p.entries, supply, cache, d, env);
    LoadSaves(p.entries, supply, cache, d, env);
    LoadCatalog(p.entries, supply, cache, d, env);
    LoadDownloads(p.entries, supply, cache, d, env);
    var shuffle := p.shuffle.GetOr(false);
    var tracks := if shuffle && |loaded.tracks| > 1 then ShuffleCatalog(loaded.entries, cache, env, draws) else loaded.tracks;
    CatalogAllPlayable(loaded.entries, cache, env);
    LoadResult(Playlist(p.shuffle, loaded.entries), tracks, shuffle, loaded.downloads, loaded.needsSave && hasPath)
  }

  /** Every track of a catalog has a file to play, and URL tracks only from the cache. */
  lemma CatalogAllPlayable(es: seq<Entry>, cache: CacheDir, env: Env)
    requires forall i :: 0 <= i < |es| ==> Truthy(es[i].id)
    ensures forall t :: t in Catalog(es, cache, env) ==> t.filePath.Some? && (t.kind == Url ==> IsCached(cache, t.id))
  {
    forall t | t in Catalog(es, cache, env)
      ensures t.filePath.Some? && (t.kind == Url ==> IsCached(cache, t.id))
    {
      CatalogPlayable(es, cache, env, t);
    }
  }

  /** The shuffled catalog: the same tracks, so still all playable. */
  function ShuffleCatalog(es: seq<Entry>, cache: CacheDir, env: Env, draws: seq<nat>): (r: seq<Track>)
    requires forall i :: 0 <= i < |es| ==> Truthy(es[i].id)
    requires |draws| >= |es|
    ensures multiset(r) == multiset(Catalog(es, cache, env))
    ensures forall t :: t in r ==> t.filePath.Some? && (t.kind == Url ==> IsCached(cache, t.id))
  {
    CatalogSize(es, cache, env);
    CatalogAllPlayable(es, cache, env);
    var r := Shuffle(Catalog(es, cache, env), draws);
    assert forall t :: t in r ==> t in Catalog(es, cache, env) by {
      forall t | t in r ensures t in Catalog(es, cache, env) {
        assert t in multiset(r);
      }
    }
    r
  }

  /** The catalog never has more tracks than there are entries. */
  lemma {:induction false} CatalogSize(es: seq<Entry>, cache: CacheDir, env: Env)
    requires forall i :: 0 <= i < |es| ==> Truthy(es[i].id)
    ensures |Catalog(es, cache, env)| <= |es|
    decreases |es|
  {
    if |es| > 0 {
      CatalogSize(es[1..], cache, env);
    }
  }

  /** Ids that keep their cache file: the extra ids plus every URL track's non-empty id. */
  function ValidIds(tracks: seq<Track>, extra: set<string>): (r: set<string>)
    ensures forall x :: x in r <==> x in extra || exists t :: t in tracks && t.kind == Url && t.id != "" && t.id == x
  {
    extra + set t | t in tracks && t.kind == Url && t.id != "" :: t.id
  }

  /** A cache file the clean-up deletes: an `.mp3` that is not a `file_` one and whose id is not valid. */
  predicate Orphaned(f: string, valid: set<string>) {
    EndsWith(f, ".mp3") && !StartsWith(f, "file_") && Stem(f) !in valid
  }

  /** The orphaned files of a directory listing, in listing order. */
  function Orphans(listing: seq<string>, valid: set<string>): (r: seq<string>)
    ensures forall f :: f in r <==> f in listing && Orphaned(f, valid)
    ensures |r| <= |listing|
  {
    if |listing| == 0 then []
    else (if Orphaned(listing[0], valid) then [listing[0]] else []) + Orphans(listing[1..], valid)
  }

  /** Total size of the listed files. */
  function SizeOf(files: seq<string>, cache: CacheDir): nat
    requires forall f :: f in files ==> f in cache
  {
    if |files| == 0 then 0 else cache[files[0]] + SizeOf(files[1..], cache)
  }

  /** One line of the clean-up report: a URL track and whether (and how large) its cache file is. */
  datatype ReportLine = ReportLine(id: string, title: string, url: string, cached: bool, size: Option<nat>)

  /** The result of `cleanupCache`. */
  datatype Cleanup = Cleanup(cache: CacheDir, orphaned: seq<string>, deletedCount: nat, freedBytes: nat, report: seq<ReportLine>)

  /** The report over the catalog's URL tracks, against the directory after deletion. */
  function Report(tracks: seq<Track>, before: CacheDir, after: CacheDir): (r: seq<ReportLine>)
    ensures |r| <= |tracks|
    ensures forall k :: 0 <= k < |r| ==>
      && r[k].cached == IsCached(before, r[k].id)
      && r[k].size == (if r[k].cached && CacheFileName(r[k].id) in after then Some(after[CacheFileName(r[k].id)]) else None)
    ensures forall t :: t in tracks && t.kind == Url && t.id != "" ==> exists k :: 0 <= k < |r| && r[k].id == t.id
  {
    if |tracks| == 0 then []
    else
      var t := tracks[0];
      var rest := Report(tracks[1..], before, after);
      assert forall u :: u in tracks ==> u == t || u in tracks[1..];
      if t.kind == Url && t.id != "" then
        var cached := IsCached(before, t.id);
        var file := CacheFileName(t.id);
        var line := ReportLine(t.id, t.title, t.url, cached, if cached && file in after then Some(after[file]) else None);
        ReportConsCovers(tracks, line, rest);
        [line] + rest
      else rest
  }

  /** A line for the first track in front of lines covering the others covers them all. */
  lemma ReportConsCovers(tracks: seq<Track>, line: ReportLine, rest: seq<ReportLine>)
    requires |tracks| > 0 && line.id == tracks[0].id
    requires forall t :: t in tracks[1..] && t.kind == Url && t.id != "" ==> exists k :: 0 <= k < |rest| && rest[k].id == t.id
    ensures forall t :: t in tracks && t.kind == Url && t.id != "" ==> exists k :: 0 <= k < |[line] + rest| && ([line] + rest)[k].id == t.id
  {
    var r := [line] + rest;
    forall u | u in tracks && u.kind == Url && u.id != ""
      ensures exists k :: 0 <= k < |r| && r[k].id == u.id
    {
      if u == tracks[0] {
        assert r[0].id == u.id;
      } else {
        assert u in tracks[1..];
        var k :| 0 <= k < |rest| && rest[k].id == u.id;
        assert r[k + 1].id == u.id;
      }
    }
  }

  /** The cache file of `id` is the only `.mp3` whose stem is `id`. */
  lemma StemOfCacheFile(f: string, id: string)
    ensures EndsWith(f, ".mp3") && Stem(f) == id <==> f == CacheFileName(id)
  {
    if f == CacheFileName(id) {
      assert f[|f| - 4..] == ".mp3";
      assert f[..|f| - 4] == id;
    }
  }

  /**
   * `cleanupCache(extraValidIds)`: `listing` is the directory listing (the same files
   * as `cache`). Deletes exactly the orphaned files, reports their total size, and
   * reports every URL track of the catalog with its cache state.
   */
  function CleanupCache(cache: CacheDir, listing: seq<string>, tracks: seq<Track>, extra: set<string>): (r: Cleanup)
    requires forall f :: f in listing <==> f in cache
    ensures forall f :: f in r.cache <==> f in cache && !Orphaned(f, ValidIds(tracks, extra))
    ensures forall f :: f in r.cache ==> r.cache[f] == cache[f]
    ensures forall f :: f in r.orphaned <==> f in cache && Orphaned(f, ValidIds(tracks, extra))
    ensures r.deletedCount == |r.orphaned|
    ensures forall f :: f in r.orphaned ==> f in cache
    ensures r.freedBytes == SizeOf(r.orphaned, cache)
    ensures forall k :: 0 <= k < |r.report| ==> r.report[k].cached == IsCached(cache, r.report[k].id)
    ensures forall t :: t in tracks && t.kind == Url && t.id != "" ==> exists k :: 0 <= k < |r.report| && r.report[k].id == t.id
  {
    var valid := ValidIds(tracks, extra);
    var orphaned := Orphans(listing, valid);
    var after := map f | f in cache && !Orphaned(f, valid) :: cache[f];
    Cleanup(after, orphaned, |orphaned|, SizeOf(orphaned, cache), Report(tracks, cache, after))
  }

  /** Cleaning up twice deletes nothing the second time: the result has no orphans left. */
  lemma CleanupIdempotent(cache: CacheDir, listing: seq<string>, tracks: seq<Track>, extra: set<string>, listing2: seq<string>)
    requires forall f :: f in listing <==> f in cache
    requires forall f :: f in listing2 <==> f in CleanupCache(cache, listing, tracks, extra).cache
    ensures var r := CleanupCache(cache, listing, tracks, extra);
      var r2 := CleanupCache(r.cache, listing2, tracks, extra);
      r2.orphaned == [] && r2.freedBytes == 0 && r2.cache == r.cache
  {
    var r := CleanupCache(cache, listing, tracks, extra);
    var r2 := CleanupCache(r.cache, listing2, tracks, extra);
    NothingLeftToClean(r.cache, ValidIds(tracks, extra), r2);
  }

  /** A clean-up of a directory without orphans deletes nothing and frees nothing. */
  lemma NothingLeftToClean(c: CacheDir, valid: set<string>, r: Cleanup)
    requires forall f :: f in c ==> !Orphaned(f, valid)
    requires forall f :: f in r.cache <==> f in c && !Orphaned(f, valid)
    requires forall f :: f in r.cache ==> r.cache[f] == c[f]
    requires forall f :: f in r.orphaned <==> f in c && Orphaned(f, valid)
    requires forall f :: f in r.orphaned ==> f in c
    requires r.freedBytes == SizeOf(r.orphaned, c)
    ensures r.orphaned == [] && r.freedBytes == 0 && r.cache == c
  {
    if |r.orphaned| > 0 {
      assert r.orphaned[0] in r.orphaned;
    }
    assert r.cache.Keys == c.Keys;
  }

  /** A valid id's cache file, a `file_` file and a non-`.mp3` file all survive the clean-up. */
  lemma CleanupKeeps(cache: CacheDir, listing: seq<string>, tracks: seq<Track>, extra: set<string>, f: string)
    requires forall g :: g in listing <==> g in cache
    requires f in cache
    requires StartsWith(f, "file_") || !EndsWith(f, ".mp3") || exists t :: t in tracks && t.kind == Url && t.id != "" && f == CacheFileName(t.id)
    ensures f in CleanupCache(cache, listing, tracks, extra).cache
  {
    if exists t :: t in tracks && t.kind == Url && t.id != "" && f == CacheFileName(t.id) {
      var t :| t in tracks && t.kind == Url && t.id != "" && f == CacheFileName(t.id);
      StemOfCacheFile(f, t.id);
    }
  }
}

=== FILE: cron_jobs.dfy ===
/**
 * The registry of cron jobs kept by both schedule stores: a map from program id
 * to a scheduled task, of which the model keeps the key set. A program has a job
 * when `on` holds for it (enabled and a valid cron expression).
 */
module CronJobs {
  /** The reference: the ids of the programs that ought to have a job. */
  function Expected<P(==)>(ps: seq<P>, id: P -> string, on: P -> bool): set<string> {
    set p | p in ps && on(p) :: id(p)
  }

  /** `registerJob(program)`: a job is set under the program's id only when `on` holds. */
  function Register<P>(jobs: set<string>, p: P, id: P -> string, on: P -> bool): set<string> {
    if on(p) then jobs + {id(p)} else jobs
  }

  /** The loop of `registerAllJobs`, one `registerJob` per program in order. */
  function RegisterEach<P>(jobs: set<string>, ps: seq<P>, id: P -> string, on: P -> bool): set<string>
    decreases |ps|
  {
    if |ps| == 0 then jobs else RegisterEach(Register(jobs, ps[0], id, on), ps[1..], id, on)
  }

  lemma {:induction false} RegisterEachExpected<P>(jobs: set<string>, ps: seq<P>, id: P -> string, on: P -> bool)
    ensures RegisterEach(jobs, ps, id, on) == jobs + Expected(ps, id, on)
    decreases |ps|
  {
    if |ps| > 0 {
      var p := ps[0];
      RegisterEachExpected(Register(jobs, p, id, on), ps[1..], id, on);
      assert ps == [p] + ps[1..];
      assert Expected(ps, id, on) == (if on(p) then {id(p)} else {}) + Expected(ps[1..], id, on);
    }
  }

  /** `registerAllJobs`: `stopAll`, then the loop -- exactly the expected ids have jobs. */
  function RegisterAll<P(==)>(ps: seq<P>, id: P -> string, on: P -> bool): (r: set<string>)
    ensures r == Expected(ps, id, on)
  {
    RegisterEachExpected({}, ps, id, on);
    RegisterEach({}, ps, id, on)
  }

  /** No two programs share an id. */
  predicate UniqueIds<P>(ps: seq<P>, id: P -> string) {
    forall i, j :: 0 <= i < j < |ps| ==> id(ps[i]) != id(ps[j])
  }

  /**
   * Replacing the program at `k` by one whose id no other program uses (its own id,
   * or a new one): unregister the old id, register the new program.
   */
  lemma Replace<P>(ps: seq<P>, k: nat, p: P, id: P -> string, on: P -> bool)
    requires UniqueIds(ps, id) && k < |ps|
    requires forall j :: 0 <= j < |ps| && j != k ==> id(ps[j]) != id(p)
    ensures UniqueIds(ps[k := p], id)
    ensures Expected(ps[k := p], id, on) == Register(Expected(ps, id, on) - {id(ps[k])}, p, id, on)
  {
    var ps' := ps[k := p];
    forall x | x in Expected(ps', id, on)
      ensures x in Register(Expected(ps, id, on) - {id(ps[k])}, p, id, on)
    {
      var q :| q in ps' && on(q) && id(q) == x;
      var j :| 0 <= j < |ps'| && ps'[j] == q;
      if j != k {
        assert ps[j] == q;
      }
    }
    forall x | x in Register(Expected(ps, id, on) - {id(ps[k])}, p, id, on)
      ensures x in Expected(ps', id, on)
    {
      if x != id(p) {
        var q :| q in ps && on(q) && id(q) == x;
        var j :| 0 <= j < |ps| && ps[j] == q;
        assert j != k && ps'[j] == q;
      } else {
        assert ps'[k] == p;
      }
    }
  }

  /** A replacement that takes another program's id leaves two programs with that id. */
  lemma ReplaceCollides<P>(ps: seq<P>, k: nat, p: P, j: nat, id: P -> string)
    requires k < |ps| && j < |ps| && j != k && id(ps[j]) == id(p)
    ensures !UniqueIds(ps[k := p], id)
  {
    if j < k {
      assert id(ps[k := p][j]) == id(ps[k := p][k]);
    } else {
      assert id(ps[k := p][k]) == id(ps[k := p][j]);
    }
  }

  /** Appending a program whose id is not in use: register it. */
  lemma Append<P>(ps: seq<P>, p: P, id: P -> string, on: P -> bool)
    requires UniqueIds(ps, id) && forall q :: q in ps ==> id(q) != id(p)
    ensures UniqueIds(ps + [p], id)
    ensures Expected(ps + [p], id, on) == Register(Expected(ps, id, on), p, id, on)
  {
    var ps' := ps + [p];
    forall i, j | 0 <= i < j < |ps'|
      ensures id(ps'[i]) != id(ps'[j])
    {
      if j == |ps| {
        assert ps'[i] in ps;
      }
    }
    assert forall q :: q in ps' <==> q in ps || q == p;
  }

  /** Removing the program at `k`: exactly its id loses its job. */
  lemma Remove<P>(ps: seq<P>, k: nat, id: P -> string, on: P -> bool)
    requires UniqueIds(ps, id) && k < |ps|
    ensures UniqueIds(ps[..k] + ps[k + 1..], id)
    ensures forall q :: q in ps[..k] + ps[k + 1..] ==> id(q) != id(ps[k])
    ensures Expected(ps[..k] + ps[k + 1..], id, on) == Expected(ps, id, on) - {id(ps[k])}
  {
    var ps' := ps[..k] + ps[k + 1..];
    RemoveShifts(ps, k);
    forall q | q in ps'
      ensures id(q) != id(ps[k]) && q in ps
    {
      var j :| 0 <= j < |ps'| && ps'[j] == q;
    }
    forall x | x in Expected(ps, id, on) - {id(ps[k])}
      ensures x in Expected(ps', id, on)
    {
      var q :| q in ps && on(q) && id(q) == x;
      var j :| 0 <= j < |ps| && ps[j] == q;
      assert ps'[if j < k then j else j - 1] == q;
    }
  }

  /** After removing slot `k`, the later elements sit one place earlier. */
  lemma RemoveShifts<P>(ps: seq<P>, k: nat)
    requires k < |ps|
    ensures |ps[..k] + ps[k + 1..]| == |ps| - 1
    ensures forall j :: 0 <= j < k ==> (ps[..k] + ps[k + 1..])[j] == ps[j]
    ensures forall j :: k < j < |ps| ==> (ps[..k] + ps[k + 1..])[j - 1] == ps[j]
  {
  }
}

=== FILE: cursor.dfy ===
/**
 * Catalog cursor arithmetic that both engine generations share word for word:
 * finding a track by id, pointing the cursor just before a `skipTo` target,
 * moving it when a track is removed, and clamping it after the catalog changes.
 */
module Cursor {
  import opened Wrappers
  import opened Tracks
  import opened Sequences

  /** `tracks.findIndex(t => t.id === id)`: the first position holding `id`. */
  function FindIndex(tracks: seq<Track>, id: string): (r: Option<nat>)
    ensures r.None? <==> forall k :: 0 <= k < |tracks| ==> tracks[k].id != id
    ensures r.Some? ==>
      (r.value < |tracks| && tracks[r.value].id == id && forall k :: 0 <= k < r.value ==> tracks[k].id != id)
  {
    FindFirst(tracks, (t: Track) => t.id == id)
  }

  /** The loop's advance rule: the cursor moves to the next track, wrapping to 0. */
  function Advance(index: nat, n: nat): (r: nat)
    requires n > 0
    ensures r < n
    ensures index + 1 < n ==> r == index + 1
    ensures index + 1 == n ==> r == 0
  {
    (index + 1) % n
  }

  /** Where `skipTo` leaves the cursor: one before the target, or the last track for target 0. */
  function SkipTarget(index: nat, n: nat): (r: nat)
    requires index < n
    ensures r < n
    ensures Advance(r, n) == index
  {
    if index == 0 then n - 1 else index - 1
  }

  /** `adjustCurrentIndex`: an out-of-range cursor, or any cursor over an empty catalog, goes to 0. */
  function AdjustCurrentIndex(index: nat, n: nat): (r: nat)
    ensures n == 0 ==> r == 0
    ensures n > 0 ==> r < n
    ensures index < n ==> r == index
  {
    if n == 0 then 0 else if index >= n then 0 else index
  }

  /** `splice(index, 1)`. */
  function RemoveAt<T>(s: seq<T>, index: nat): (r: seq<T>)
    requires index < |s|
    ensures |r| == |s| - 1
    ensures forall k :: 0 <= k < index ==> r[k] == s[k]
    ensures forall k :: index <= k < |r| ==> r[k] == s[k + 1]
  {
    s[..index] + s[index + 1..]
  }

  /**
   * `removeTrack`'s cursor rule as written: a track removed before the cursor moves
   * it back one place; removing the current track asks for a skip and leaves the
   * cursor where it is; removal after it changes nothing. The clamp of
   * `adjustCurrentIndex` follows.
   */
  function CursorAfterRemovalAsWritten(cursor: nat, index: nat, n: nat): (r: (nat, bool))
    requires cursor < n && index < n
    ensures r.1 <==> index == cursor
    ensures index < cursor ==> r.0 == cursor - 1
    ensures index > cursor ==> r.0 == cursor
    ensures index == cursor ==> r.0 == if cursor < n - 1 then cursor else 0
  {
    var c := if index < cursor then cursor - 1 else cursor;
    (AdjustCurrentIndex(c, n - 1), index == cursor)
  }

  /**
   * The defect of the rule as written: after the current track is removed, the skipped
   * track's loop iteration advances the cursor once more, so the track that followed
   * the removed one is passed over and the one after it plays.
   */
  lemma RemovalAsWrittenSkipsSuccessor<T>(s: seq<T>, cursor: nat)
    requires |s| >= 3 && cursor + 1 < |s|
    ensures var c := CursorAfterRemovalAsWritten(cursor, cursor, |s|).0;
      var rest := RemoveAt(s, cursor);
      c < |rest| && rest[Advance(c, |rest|)] == s[Advance(Advance(cursor, |s|), |s|)]
  {
    var rest := RemoveAt(s, cursor);
    if cursor + 2 < |s| {
      assert rest[cursor + 1] == s[cursor + 2];
    } else {
      assert rest[0] == s[0];
    }
  }

  /** The smallest case: removing the first of three tracks while it plays makes the third play next. */
  lemma RemovalAsWrittenExample()
    ensures var s := [1, 2, 3];
      var rest := RemoveAt(s, 0);
      rest[Advance(CursorAfterRemovalAsWritten(0, 0, |s|).0, |rest|)] == 3
  {
    RemovalAsWrittenSkipsSuccessor([1, 2, 3], 0);
  }

  /**
   * `removeTrack`'s cursor rule as its comment intends ("skip to the next song"): as
   * written, except that removing the current track puts the cursor one before the
   * track that followed it, so that the loop's advance lands on that track. The
   * clamp of `adjustCurrentIndex` follows.
   */
  function CursorAfterRemoval(cursor: nat, index: nat, n: nat): (r: (nat, bool))
    requires cursor < n && index < n
    ensures r.1 <==> index == cursor
    ensures n - 1 > 0 ==> r.0 < n - 1
    ensures n - 1 == 0 ==> r.0 == 0
    ensures index < cursor ==> r.0 == cursor - 1
    ensures index > cursor ==> r.0 == cursor
    ensures index == cursor && n > 1 ==> Advance(r.0, n - 1) == if index < n - 1 then index else 0
  {
    var c :=
      if index < cursor then cursor - 1
      else if index > cursor || n == 1 then cursor
      else SkipTarget(if index < n - 1 then index else 0, n - 1);
    (AdjustCurrentIndex(c, n - 1), index == cursor)
  }

  /**
   * With the intended rule, removing the current track makes the track that followed
   * it play next (the first track, when the last one was removed).
   */
  lemma RemovalPlaysSuccessor<T>(s: seq<T>, cursor: nat)
    requires |s| >= 2 && cursor < |s|
    ensures var c := CursorAfterRemoval(cursor, cursor, |s|).0;
      var rest := RemoveAt(s, cursor);
      c < |rest| && rest[Advance(c, |rest|)] == s[Advance(cursor, |s|)]
  {
    var rest := RemoveAt(s, cursor);
    if cursor + 1 < |s| {
      assert rest[cursor] == s[cursor + 1];
    } else {
      assert rest[0] == s[0];
    }
  }

  /**
   * Removing a track other than the current one keeps the same track under the
   * cursor: the listener's place in the catalog is not lost.
   */
  lemma RemovalKeepsCurrent<T>(s: seq<T>, cursor: nat, index: nat)
    requires cursor < |s| && index < |s| && index != cursor
    ensures var (c, skip) := CursorAfterRemoval(cursor, index, |s|);
      !skip && c < |RemoveAt(s, index)| && RemoveAt(s, index)[c] == s[cursor]
  {
  }

  /** What the playback loop plays next. */
  datatype Selection = InterruptBatch(queued: seq<Track>) | CatalogTrack(track: Track) | NoTrack

  /**
   * Head of the loop body in both generations: a non-empty interrupt queue is played
   * first and whole; otherwise the track under the cursor. Over an empty catalog there
   * is nothing (the source then reads an undefined track and the loop fails).
   */
  function NextToPlay(interrupts: seq<Track>, tracks: seq<Track>, index: nat): (r: Selection)
    requires index < |tracks| || |tracks| == 0
    ensures r.InterruptBatch? <==> |interrupts| > 0
    ensures r.InterruptBatch? ==> r.queued == interrupts
    ensures r.CatalogTrack? ==> |interrupts| == 0 && |tracks| > 0 && r.track == tracks[index]
    ensures r.NoTrack? <==> |interrupts| == 0 && |tracks| == 0
  {
    if |interrupts| > 0 then InterruptBatch(interrupts)
    else if |tracks| == 0 then NoTrack
    else CatalogTrack(tracks[index])
  }
}

=== FILE: downloads.dfy ===
/**
 * The background download coordinator of the newer engine: a FIFO queue, a set
 * of pending ids (queued or running) used for de-duplication, and at most
 * `MaxConcurrentDownloads` running fetches. The fetch itself is outside the
 * model; its completion is an event carrying success and the resulting file size.
 */
module Downloads {
  import opened Tracks
  import opened Sequences

  const MaxConcurrentDownloads: nat := 1

  /** A queued request; `notify` records whether the caller passed `onComplete`. */
  datatype Item = Item(url: string, id: string, notify: bool)

  /** One `onComplete(success)` call. */
  datatype Notice = Notice(id: string, success: bool)

  datatype Coordinator = Coordinator(queue: seq<Item>, pending: set<string>, active: seq<Item>) {
    /** `activeDownloads <= MAX_CONCURRENT_DOWNLOADS`. */
    predicate Valid() {
      |active| <= MaxConcurrentDownloads
    }
  }

  /** A coordinator with nothing queued, pending or running. */
  const Idle: Coordinator := Coordinator([], {}, [])

  /**
   * `processDownloadQueue`: while a slot is free, dequeue the head; drop it with
   * `onComplete(isCached(id))` when it was cached meanwhile or cancelled, otherwise
   * start it. Returns the new state and the callbacks made, in order.
   */
  function Drain(c: Coordinator, cache: CacheDir): (r: (Coordinator, seq<Notice>))
    decreases |c.queue|
  {
    if |c.active| >= MaxConcurrentDownloads || |c.queue| == 0 then (c, [])
    else
      var item := c.queue[0];
      if IsCached(cache, item.id) || item.id !in c.pending then
        var (c', notices) := Drain(c.(queue := c.queue[1..], pending := c.pending - {item.id}), cache);
        ((c', (if item.notify then [Notice(item.id, IsCached(cache, item.id))] else []) + notices))
      else
        Drain(c.(queue := c.queue[1..], active := c.active + [item]), cache)
  }

  /**
   * What draining from `c` to `c'` with callbacks `notices` guarantees: the bound on
   * running downloads holds, draining stops only when every slot is busy or the queue
   * is empty, the remaining queue is a suffix of the old one, and the newly started
   * items were pending, uncached and taken in queue order.
   */
  predicate Drained(c: Coordinator, cache: CacheDir, c': Coordinator, notices: seq<Notice>) {
    && c'.Valid()
    && (|c'.active| == MaxConcurrentDownloads || c'.queue == [])
    && |c'.queue| <= |c.queue| && c'.queue == c.queue[|c.queue| - |c'.queue|..]
    && |c.active| <= |c'.active| && c'.active[..|c.active|] == c.active
    && Subsequence(c'.active[|c.active|..], c.queue[..|c.queue| - |c'.queue|])
    && (forall x :: x in c'.active[|c.active|..] ==> !IsCached(cache, x.id) && x.id in c.pending)
    && c'.pending <= c.pending
    && (forall n :: n in notices ==> n.success == IsCached(cache, n.id))
  }

  /** `Drain` does what `Drained` says. */
  lemma {:induction false} DrainSpec(c: Coordinator, cache: CacheDir)
    requires c.Valid()
    ensures Drained(c, cache, Drain(c, cache).0, Drain(c, cache).1)
    decreases |c.queue|
  {
    if |c.active| >= MaxConcurrentDownloads || |c.queue| == 0 {
    } else {
      var item := c.queue[0];
      if IsCached(cache, item.id) || item.id !in c.pending {
        var c1 := c.(queue := c.queue[1..], pending := c.pending - {item.id});
        DrainSpec(c1, cache);
        var (c', notices) := Drain(c1, cache);
        DroppedHead(c, cache, c', notices);
      } else {
        var c1 := c.(queue := c.queue[1..], active := c.active + [item]);
        DrainSpec(c1, cache);
        var (c', notices) := Drain(c1, cache);
        StartedHead(c, cache, c', notices);
      }
    }
  }

  /** Dropping the queue head (cached or cancelled) before draining the rest keeps `Drained`. */
  lemma DroppedHead(c: Coordinator, cache: CacheDir, c': Coordinator, notices: seq<Notice>)
    requires |c.queue| > 0
    requires var item := c.queue[0];
      IsCached(cache, item.id) || item.id !in c.pending
    requires Drained(c.(queue := c.queue[1..], pending := c.pending - {c.queue[0].id}), cache, c', notices)
    ensures var item := c.queue[0];
      Drained(c, cache, c', (if item.notify then [Notice(item.id, IsCached(cache, item.id))] else []) + notices)
  {
    var item := c.queue[0];
    var c1 := c.(queue := c.queue[1..], pending := c.pending - {item.id});
    assert c.queue[..|c.queue| - |c'.queue|] == [item] + c1.queue[..|c1.queue| - |c'.queue|];
    SubsequenceSkip(item, c'.active[|c.active|..], c1.queue[..|c1.queue| - |c'.queue|]);
  }

  /** Starting the queue head (pending and uncached) before draining the rest keeps `Drained`. */
  lemma StartedHead(c: Coordinator, cache: CacheDir, c': Coordinator, notices: seq<Notice>)
    requires |c.queue| > 0
    requires var item := c.queue[0];
      !IsCached(cache, item.id) && item.id in c.pending
    requires Drained(c.(queue := c.queue[1..], active := c.active + [c.queue[0]]), cache, c', notices)
    ensures Drained(c, cache, c', notices)
  {
    var item := c.queue[0];
    var c1 := c.(queue := c.queue[1..], active := c.active + [item]);
    assert c.queue[..|c.queue| - |c'.queue|] == [item] + c1.queue[..|c1.queue| - |c'.queue|];
    assert c'.active[|c.active|..] == [item] + c'.active[|c1.active|..];
    SubsequenceCons(item, c'.active[|c1.active|..], c1.queue[..|c1.queue| - |c'.queue|]);
  }

  /** Draining never stops a running download. */
  lemma DrainKeepsActive(c: Coordinator, cache: CacheDir, x: Item)
    requires c.Valid() && x in c.active
    ensures x in Drain(c, cache).0.active
  {
    DrainSpec(c, cache);
    var c' := Drain(c, cache).0;
    assert x in c'.active[..|c.active|];
  }

  /** Draining drops the pending mark only of items that were cached or already unmarked. */
  lemma {:induction false} DrainKeepsPending(c: Coordinator, cache: CacheDir, id: string)
    requires id in c.pending && !IsCached(cache, id)
    ensures id in Drain(c, cache).0.pending
    decreases |c.queue|
  {
    if |c.active| >= MaxConcurrentDownloads || |c.queue| == 0 {
    } else {
      var item := c.queue[0];
      if IsCached(cache, item.id) || item.id !in c.pending {
        DrainKeepsPending(c.(queue := c.queue[1..], pending := c.pending - {item.id}), cache, id);
      } else {
        DrainKeepsPending(c.(queue := c.queue[1..], active := c.active + [item]), cache, id);
      }
    }
  }

  /** The last queued item, if pending and uncached, ends up running or still last in the queue. */
  lemma {:induction false} DrainLast(c: Coordinator, cache: CacheDir, item: Item)
    requires c.Valid() && |c.queue| > 0 && c.queue[|c.queue| - 1] == item
    requires item.id in c.pending && !IsCached(cache, item.id)
    ensures var c' := Drain(c, cache).0;
      item in c'.active || (|c'.queue| > 0 && c'.queue[|c'.queue| - 1] == item)
    decreases |c.queue|
  {
    if |c.active| >= MaxConcurrentDownloads {
    } else {
      var head := c.queue[0];
      if IsCached(cache, head.id) || head.id !in c.pending {
        assert head != item;
        DrainLast(c.(queue := c.queue[1..], pending := c.pending - {head.id}), cache, item);
      } else if |c.queue| == 1 {
        DrainKeepsActive(c.(queue := c.queue[1..], active := c.active + [head]), cache, item);
      } else {
        DrainLast(c.(queue := c.queue[1..], active := c.active + [head]), cache, item);
      }
    }
  }

  /**
   * `startBackgroundDownload(url, id, onComplete)`: a no-op (and no callback) when
   * `id` is cached or already pending; otherwise `id` becomes pending and its one
   * new item is either running or waiting at the end of the queue.
   */
  function StartBackgroundDownload(c: Coordinator, cache: CacheDir, url: string, id: string, notify: bool)
    : (r: (Coordinator, seq<Notice>))
    requires c.Valid()
    ensures r.0.Valid()
    ensures IsCached(cache, id) || id in c.pending ==> r == (c, [])
    ensures !IsCached(cache, id) && id !in c.pending ==>
      var item := Item(url, id, notify);
      && id in r.0.pending
      && (item in r.0.active || (|r.0.queue| > 0 && r.0.queue[|r.0.queue| - 1] == item))
  {
    if IsCached(cache, id) || id in c.pending then (c, [])
    else
      var item := Item(url, id, notify);
      var c1 := c.(pending := c.pending + {id}, queue := c.queue + [item]);
      DrainSpec(c1, cache);
      DrainKeepsPending(c1, cache, id);
      DrainLast(c1, cache, item);
      Drain(c1, cache)
  }

  /** A request for another id never clears an existing pending mark of an uncached id. */
  lemma StartKeepsPending(c: Coordinator, cache: CacheDir, url: string, id: string, notify: bool, other: string)
    requires c.Valid() && other in c.pending && !IsCached(cache, other)
    ensures other in StartBackgroundDownload(c, cache, url, id, notify).0.pending
  {
    if !IsCached(cache, id) && id !in c.pending {
      var c1 := c.(pending := c.pending + {id}, queue := c.queue + [Item(url, id, notify)]);
      DrainKeepsPending(c1, cache, other);
    }
  }

  /** Asking again for an id that was just requested changes nothing: one fetch per id. */
  lemma StartTwice(c: Coordinator, cache: CacheDir, url: string, url2: string, id: string, notify: bool, notify2: bool)
    requires c.Valid()
    ensures var (c1, _) := StartBackgroundDownload(c, cache, url, id, notify);
      StartBackgroundDownload(c1, cache, url2, id, notify2) == (c1, [])
  {
  }

  /**
   * `startBackgroundDownload` for each item in order, as a loop over tracks does it.
   * The callbacks made by the drains along the way are not collected.
   */
  function StartEach(c: Coordinator, cache: CacheDir, items: seq<Item>): (r: Coordinator)
    requires c.Valid()
    ensures r.Valid()
    ensures forall x :: x in c.pending && !IsCached(cache, x) ==> x in r.pending
    ensures forall x :: x in items && !IsCached(cache, x.id) ==> x.id in r.pending
    ensures (forall x :: x in items ==> IsCached(cache, x.id) || x.id in c.pending) ==> r == c
    decreases |items|
  {
    if |items| == 0 then c
    else
      var x := items[0];
      var c1 := StartBackgroundDownload(c, cache, x.url, x.id, x.notify).0;
      forall y | y in c.pending && !IsCached(cache, y)
        ensures y in c1.pending
      {
        StartKeepsPending(c, cache, x.url, x.id, x.notify, y);
      }
      var r := StartEach(c1, cache, items[1..]);
      assert forall y :: y in items ==> y == x || y in items[1..];
      r
  }

  /** The outcome of a finished fetch: new coordinator state, cache directory and callbacks. */
  datatype Completion = Completion(coordinator: Coordinator, cache: CacheDir, notices: seq<Notice>)

  /**
   * A running download finishes (the `then`/`catch` and `finally` handlers): its
   * callback gets the outcome, a successful fetch lands in the cache as
   * `${id}.mp3`, the slot is released, the pending mark cleared, and the queue
   * drained again.
   */
  function CompleteDownload(c: Coordinator, cache: CacheDir, k: nat, success: bool, size: nat): (r: Completion)
    requires c.Valid() && k < |c.active|
    ensures r.coordinator.Valid()
    ensures |r.coordinator.active| == MaxConcurrentDownloads || r.coordinator.queue == []
    ensures c.active[k].id !in r.coordinator.pending
    ensures success ==> r.cache == cache[CacheFileName(c.active[k].id) := size]
    ensures !success ==> r.cache == cache
    ensures c.active[k].notify ==> |r.notices| > 0 && r.notices[0] == Notice(c.active[k].id, success)
    ensures forall x :: x in c.active[..k] + c.active[k + 1..] ==> x in r.coordinator.active
  {
    var item := c.active[k];
    var cache' := if success then cache[CacheFileName(item.id) := size] else cache;
    var c1 := c.(active := c.active[..k] + c.active[k + 1..], pending := c.pending - {item.id});
    DrainSpec(c1, cache');
    var (c2, notices) := Drain(c1, cache');
    assert forall x :: x in c1.active ==> x in c2.active by {
      forall x | x in c1.active {
        DrainKeepsActive(c1, cache', x);
      }
    }
    Completion(c2, cache', (if item.notify then [Notice(item.id, success)] else []) + notices)
  }

  /**
   * `cancelPendingDownload(id)`: every queued item for `id` and its pending mark go;
   * the running download, if any, is left alone.
   */
  function CancelPendingDownload(c: Coordinator, id: string): (r: Coordinator)
    ensures r.active == c.active
    ensures r.pending == c.pending - {id}
    ensures forall x :: x in r.queue ==> x.id != id
    ensures forall x :: x in r.queue <==> x in c.queue && x.id != id
    ensures Subsequence(r.queue, c.queue)
  {
    Coordinator(WithoutId(c.queue, id), c.pending - {id}, c.active)
  }

  /** `queue.filter(item => item.id !== id)`. */
  function WithoutId(q: seq<Item>, id: string): (r: seq<Item>)
    ensures forall x :: x in r <==> x in q && x.id != id
    ensures Subsequence(r, q)
  {
    if |q| == 0 then []
    else if q[0].id == id then
      var r := WithoutId(q[1..], id);
      assert q == [q[0]] + q[1..];
      SubsequenceSkip(q[0], r, q[1..]);
      r
    else
      var r := WithoutId(q[1..], id);
      assert q == [q[0]] + q[1..];
      SubsequenceCons(q[0], r, q[1..]);
      [q[0]] + r
  }
}

=== FILE: engine_dist.dfy ===
/**
 * The playback bookkeeping of the newer engine with the I/O stripped away: the
 * catalog and its cursor, the interrupt queue (appended to, drained first and in
 * order), the counter of consecutive unplayable tracks, `skipTo`, `removeTrack`
 * and the clamp of the cursor.
 */
module EngineDist {
  import opened Wrappers
  import opened Tracks
  import opened Cursor
  import CatalogDist

  /** A track that played for less than this many milliseconds counts as skipped. */
  const MinTrackDurationMs: nat := 100
  /** The pause after every catalog track in a row was skipped. */
  const AllSkipWaitMs: nat := 10000

  datatype Engine = Engine(
    tracks: seq<Track>,
    index: nat,
    interrupts: seq<Track>,
    streaming: bool,
    shuffle: bool,
    skips: nat)
  {
    /** The cursor points into the catalog, or is 0 over an empty one. */
    predicate Valid() {
      index < |tracks| || (|tracks| == 0 && index == 0)
    }
  }

  /** `startStreaming` entry: refused while already streaming or with an empty catalog. */
  function StartStreaming(e: Engine): (r: Engine)
    ensures r.tracks == e.tracks && r.index == e.index && r.interrupts == e.interrupts
    ensures r.streaming <==> e.streaming || |e.tracks| > 0
    ensures !e.streaming && |e.tracks| > 0 ==> r.skips == 0
    ensures e.streaming || |e.tracks| == 0 ==> r == e
  {
    if e.streaming || |e.tracks| == 0 then e else e.(streaming := true, skips := 0)
  }

  /** What the loop plays next: interrupts first, then the track under the cursor. */
  function Select(e: Engine): Selection
    requires e.Valid()
  {
    NextToPlay(e.interrupts, e.tracks, e.index)
  }

  /**
   * `playInterrupt`: plays queued interrupts one by one from the front until none
   * is left, then the loop resets the skip counter. Returns the tracks in playing order.
   */
  function PlayInterrupts(e: Engine): (r: (seq<Track>, Engine))
    ensures r.0 == e.interrupts
    ensures r.1.interrupts == []
    ensures r.1.tracks == e.tracks && r.1.index == e.index && r.1.skips == 0
    ensures r.1.streaming == e.streaming && r.1.shuffle == e.shuffle
    decreases |e.interrupts|
  {
    if |e.interrupts| == 0 then ([], e.(skips := 0))
    else
      var (rest, e') := PlayInterrupts(e.(interrupts := e.interrupts[1..]));
      ([e.interrupts[0]] + rest, e')
  }

  /**
   * Interrupts pre-empt the catalog: with a non-empty queue the loop plays the whole
   * queue in order, and afterwards resumes at the very track the cursor was on.
   */
  lemma InterruptsBeforeCatalog(e: Engine)
    requires e.Valid() && |e.interrupts| > 0 && |e.tracks| > 0
    ensures Select(e) == InterruptBatch(e.interrupts)
    ensures var (played, e') := PlayInterrupts(e);
      played == e.interrupts && e'.Valid() && Select(e') == CatalogTrack(e.tracks[e.index])
  {
  }

  /** The end of a catalog iteration and whether the loop paused for the all-skipped wait. */
  datatype Finished = Finished(engine: Engine, waited: bool)

  /**
   * After a catalog track: count it as skipped when it played too briefly (and pause,
   * resetting the count, once every track in a row was skipped), or reset the count;
   * advance the cursor with wrap-around and reshuffle on wrapping when shuffle is on.
   */
  function FinishCatalogTrack(e: Engine, short: bool, draws: seq<nat>): (r: Finished)
    requires e.Valid() && |e.tracks| > 0 && |draws| >= |e.tracks|
    ensures r.engine.Valid()
    ensures |r.engine.tracks| == |e.tracks| && multiset(r.engine.tracks) == multiset(e.tracks)
    ensures r.engine.index == Advance(e.index, |e.tracks|)
    ensures !e.shuffle || r.engine.index != 0 ==> r.engine.tracks == e.tracks
    ensures r.engine.interrupts == e.interrupts && r.engine.shuffle == e.shuffle && r.engine.streaming == e.streaming
    ensures !short ==> !r.waited && r.engine.skips == 0
    ensures short && e.skips < |e.tracks| ==>
      (r.waited <==> e.skips + 1 == |e.tracks|) && r.engine.skips == (if r.waited then 0 else e.skips + 1)
  {
    var n := |e.tracks|;
    var counted := if short then e.skips + 1 else 0;
    var waited := short && counted >= n;
    var skips := if waited then 0 else counted;
    var index := Advance(e.index, n);
    var tracks := if index == 0 && e.shuffle then CatalogDist.Shuffle(e.tracks, draws) else e.tracks;
    Finished(e.(tracks := tracks, index := index, skips := skips), waited)
  }

  /** A run of `k` catalog tracks that are all unplayable, with the pause flags in order. */
  function ShortRun(e: Engine, k: nat, draws: seq<nat>): (r: (Engine, seq<bool>))
    requires e.Valid() && |e.tracks| > 0 && |draws| >= |e.tracks|
    ensures |r.1| == k
    decreases k
  {
    if k == 0 then (e, [])
    else
      var f := FinishCatalogTrack(e, true, draws);
      var (e', waits) := ShortRun(f.engine, k - 1, draws);
      (e', [f.waited] + waits)
  }

  /**
   * The all-skipped guard: counted from the last reset, a run of unplayable tracks
   * makes the loop pause exactly at the n-th one, n being the catalog size, and not before.
   */
  lemma {:induction false} ShortRunWaits(e: Engine, k: nat, draws: seq<nat>)
    requires e.Valid() && |e.tracks| > 0 && |draws| >= |e.tracks|
    requires e.skips + k <= |e.tracks|
    ensures forall j :: 0 <= j < k ==> (ShortRun(e, k, draws).1[j] <==> e.skips + j + 1 == |e.tracks|)
    decreases k
  {
    if k > 0 {
      var n := |e.tracks|;
      var f := FinishCatalogTrack(e, true, draws);
      var waits := ShortRun(e, k, draws).1;
      var rest := ShortRun(f.engine, k - 1, draws).1;
      assert waits == [f.waited] + rest;
      assert waits[0] <==> e.skips + 1 == n;
      if k > 1 {
        assert !f.waited && f.engine.skips == e.skips + 1 && |f.engine.tracks| == n;
        ShortRunWaits(f.engine, k - 1, draws);
        forall j | 1 <= j < k
          ensures waits[j] <==> e.skips + j + 1 == n
        {
          assert waits[j] == rest[j - 1];
        }
      }
    }
  }

  /** Build every input or fail as a whole: the first failing input's error wins. */
  function BuildAll(inputs: seq<Entry>, ids: seq<string>, cache: CacheDir, env: CatalogDist.Env): (r: Result<seq<Track>>)
    requires |ids| >= |inputs|
    ensures r.Ok? <==> forall i :: 0 <= i < |inputs| ==> CatalogDist.BuildTrack(inputs[i], ids[i], cache, env).Ok?
    ensures r.Ok? ==> |r.value| == |inputs|
    ensures r.Ok? ==> forall i :: 0 <= i < |inputs| ==> r.value[i] == CatalogDist.BuildTrack(inputs[i], ids[i], cache, env).value
  {
    BuildEach(inputs, ids, (e, id) => CatalogDist.BuildTrack(e, id, cache, env))
  }

  /**
   * `interrupt(inputs)` of the newer engine: all inputs are built first (a failure
   * leaves the queue as it was) and then appended behind what is already queued.
   * `ids` are the UUIDs used for inputs without an id.
   */
  function Interrupt(e: Engine, inputs: seq<Entry>, ids: seq<string>, cache: CacheDir, env: CatalogDist.Env): (r: Result<Engine>)
    requires |ids| >= |inputs|
    ensures r.Ok? <==> BuildAll(inputs, ids, cache, env).Ok?
    ensures r.Ok? ==> r.value == e.(interrupts := e.interrupts + BuildAll(inputs, ids, cache, env).value)
    ensures r.Ok? ==> |r.value.interrupts| == |e.interrupts| + |inputs| && r.value.interrupts[..|e.interrupts|] == e.interrupts
  {
    match BuildAll(inputs, ids, cache, env)
    case Err(m) => Err(m)
    case Ok(ts) =>
      var r := e.(interrupts := e.interrupts + ts);
      assert r.interrupts[..|e.interrupts|] == e.interrupts;
      Ok(r)
  }

  /** `clearInterruptQueue` as declared: the queue becomes empty; the track playing is not cut. */
  function ClearInterruptQueue(e: Engine): (r: Engine)
    ensures r.interrupts == [] && r == e.(interrupts := [])
  {
    e.(interrupts := [])
  }

  /** The outcome of `skipTo`: whether the id was found, the new state, and whether a skip was signalled. */
  datatype SkipResult = SkipResult(found: bool, engine: Engine, skip: bool)

  /**
   * `skipTo(id)`: false on an empty catalog or an unknown id; otherwise the cursor
   * goes to just before the target, so that advancing lands on it, and the current
   * track is skipped.
   */
  function SkipTo(e: Engine, id: string): (r: SkipResult)
    requires e.Valid()
    ensures r.found <==> exists k :: 0 <= k < |e.tracks| && e.tracks[k].id == id
    ensures !r.found ==> r.engine == e && !r.skip
    ensures r.found ==> r.skip && r.engine.Valid() && r.engine == e.(index := r.engine.index)
    ensures r.found ==> |e.tracks| > 0 && e.tracks[Advance(r.engine.index, |e.tracks|)].id == id
  {
    if |e.tracks| == 0 then SkipResult(false, e, false)
    else
      match FindIndex(e.tracks, id)
      case None => SkipResult(false, e, false)
      case Some(k) => SkipResult(true, e.(index := SkipTarget(k, |e.tracks|)), true)
  }

  /**
   * `skipTo(id)` as the listener sees it: the aborted track finishes, the loop
   * advances, and with no interrupt waiting the next track played is the one asked
   * for -- unless the target is the first track and shuffling is on, when the wrap
   * reshuffles the catalog first.
   */
  lemma SkipToPlaysTarget(e: Engine, id: string, short: bool, draws: seq<nat>)
    requires e.Valid() && |e.interrupts| == 0 && |draws| >= |e.tracks|
    requires SkipTo(e, id).found
    ensures var e1 := SkipTo(e, id).engine;
      var e2 := FinishCatalogTrack(e1, short, draws).engine;
      !e.shuffle || FindIndex(e.tracks, id) != Some(0) ==> Select(e2) == CatalogTrack(e.tracks[FindIndex(e.tracks, id).value])
  {
  }

  /** What `removeTrack` leaves: new engine state, cache directory, and whether the current track is skipped. */
  datatype Removal = Removal(engine: Engine, cache: CacheDir, skip: bool)

  /**
   * `removeTrack(id)`: "Track not found" for an unknown id; otherwise the removal of
   * the first track with that id.
   */
  function RemoveTrack(e: Engine, id: string, cache: CacheDir, draws: seq<nat>): (r: Result<Removal>)
    requires e.Valid() && |draws| >= |e.tracks|
    ensures r.Err? <==> forall k :: 0 <= k < |e.tracks| ==> e.tracks[k].id != id
    ensures r.Ok? ==> r.value == RemoveTrackAt(e, FindIndex(e.tracks, id).value, cache, draws)
  {
    match FindIndex(e.tracks, id)
    case None => Err("Track not found: " + id)
    case Some(k) => Ok(RemoveTrackAt(e, k, cache, draws))
  }

  /** The catalog after the reload that follows a removal: reshuffled only when shuffle is on. */
  function ReloadedAfterRemoval(tracks: seq<Track>, k: nat, shuffle: bool, draws: seq<nat>): (r: seq<Track>)
    requires k < |tracks| && |draws| >= |tracks|
    ensures |r| == |tracks| - 1 && multiset(r) == multiset(RemoveAt(tracks, k))
    ensures !shuffle ==> r == RemoveAt(tracks, k)
  {
    var rest := RemoveAt(tracks, k);
    if shuffle && |rest| > 1 then CatalogDist.Shuffle(rest, draws) else rest
  }

  /**
   * The removal of the track at position `k`: a URL track's cache file is deleted at
   * once and the engine moves on as `EngineAfterRemoval` says.
   */
  function RemoveTrackAt(e: Engine, k: nat, cache: CacheDir, draws: seq<nat>): (r: Removal)
    requires e.Valid() && k < |e.tracks| && |draws| >= |e.tracks|
    ensures var rest := RemoveAt(e.tracks, k);
      && r.engine.Valid()
      && multiset(r.engine.tracks) == multiset(rest)
      && (!e.shuffle ==> r.engine.tracks == rest)
      && (r.skip <==> k == e.index)
      && r.engine.interrupts == e.interrupts
    ensures k < e.index ==> r.engine.index == e.index - 1
    ensures k > e.index ==> r.engine.index == e.index
    ensures k == e.index && |e.tracks| > 1 && !e.shuffle ==>
      r.engine.tracks[Advance(r.engine.index, |r.engine.tracks|)] == e.tracks[Advance(e.index, |e.tracks|)]
    ensures e.tracks[k].kind == Url ==> r.cache == DeleteCacheFile(cache, e.tracks[k].id)
    ensures e.tracks[k].kind == File ==> r.cache == cache
  {
    var cache' := if e.tracks[k].kind == Url then DeleteCacheFile(cache, e.tracks[k].id) else cache;
    Removal(EngineAfterRemoval(e, k, draws), cache', k == e.index)
  }

  /**
   * The engine after removing the track at position `k`: the cursor moves back when
   * the removed track was before it, and the catalog is reloaded (reshuffled when
   * shuffle is on) with the cursor clamped. Removing the current track puts the
   * cursor one before the track that followed it, so that without shuffle this track
   * plays next.
   */
  function EngineAfterRemoval(e: Engine, k: nat, draws: seq<nat>): (r: Engine)
    requires e.Valid() && k < |e.tracks| && |draws| >= |e.tracks|
    ensures var rest := RemoveAt(e.tracks, k);
      && r.Valid()
      && multiset(r.tracks) == multiset(rest)
      && (!e.shuffle ==> r.tracks == rest)
      && r == e.(tracks := r.tracks, index := r.index)
    ensures k < e.index ==> r.index == e.index - 1
    ensures k > e.index ==> r.index == e.index
    ensures k == e.index && |e.tracks| > 1 && !e.shuffle ==>
      r.tracks[Advance(r.index, |r.tracks|)] == e.tracks[Advance(e.index, |e.tracks|)]
  {
    var tracks := ReloadedAfterRemoval(e.tracks, k, e.shuffle, draws);
    var cursor := CursorAfterRemoval(e.index, k, |e.tracks|).0;
    if k == e.index && |e.tracks| > 1 && !e.shuffle then
      RemovalPlaysSuccessor(e.tracks, k);
      e.(tracks := tracks, index := cursor)
    else
      e.(tracks := tracks, index := cursor)
  }

  /** Without shuffle, removing a track other than the current one keeps the current track under the cursor. */
  lemma RemoveKeepsCurrentTrack(e: Engine, id: string, cache: CacheDir, draws: seq<nat>)
    requires e.Valid() && |draws| >= |e.tracks| && !e.shuffle
    requires RemoveTrack(e, id, cache, draws).Ok? && !RemoveTrack(e, id, cache, draws).value.skip
    ensures var e' := RemoveTrack(e, id, cache, draws).value.engine;
      e'.index < |e'.tracks| && e'.tracks[e'.index] == e.tracks[e.index]
  {
    var k := FindIndex(e.tracks, id).value;
    RemovalKeepsCurrent(e.tracks, e.index, k);
  }
}

=== FILE: engine_src.dfy ===
/**
 * The older engine's bookkeeping: the catalog cursor and the interrupt queue (which
 * an interrupt replaces, skipping the current track), listener connections with
 * their metadata interleavers, the 64 KiB burst buffer replayed to new listeners,
 * and the pause rule of its rate control.
 */
module EngineSrc {
  import opened Wrappers
  import opened Utf8
  import opened JsText
  import opened Tracks
  import opened Cursor
  import opened IcyFraming
  import IcySrc

  /** `burstSize`: how many of the most recent bytes a new listener is sent at once. */
  const BurstSize: nat := 65536
  /** `targetBitrate * 1000 / 8 * rateMultiplier` = 128 kbps at 1.05. */
  const BytesPerSecond: real := 16800.0
  /** The stream is paused only when it runs more than this many milliseconds ahead. */
  const PauseThresholdMs: real := 50.0

  /** The last `n` elements of `s` (all of it when shorter). */
  function Last(s: seq<byte>, n: nat): (r: seq<byte>)
    ensures |r| == if |s| > n then n else |s|
    ensures r == s[|s| - |r|..]
  {
    if |s| > n then s[|s| - n..] else s
  }

  /** The burst buffer after one broadcast: append, then keep at most `BurstSize` newest bytes. */
  function UpdateBurst(burst: seq<byte>, chunk: seq<byte>): (r: seq<byte>)
    ensures |r| <= BurstSize || |r| == |burst| + |chunk|
  {
    Last(burst + chunk, BurstSize)
  }

  /** Concatenation of a list of chunks. */
  function Concat(chunks: seq<seq<byte>>): seq<byte> {
    if |chunks| == 0 then [] else chunks[0] + Concat(chunks[1..])
  }

  lemma ConcatCons(burst: seq<byte>, chunks: seq<seq<byte>>)
    requires |chunks| > 0
    ensures burst + Concat(chunks) == (burst + chunks[0]) + Concat(chunks[1..])
  {
  }

  /** The burst buffer after a series of broadcasts. */
  function BurstAfter(burst: seq<byte>, chunks: seq<seq<byte>>): seq<byte>
    decreases |chunks|
  {
    if |chunks| == 0 then burst else BurstAfter(UpdateBurst(burst, chunks[0]), chunks[1..])
  }

  /** Trimming early and trimming late agree. */
  lemma LastOfLast(a: seq<byte>, b: seq<byte>, n: nat)
    ensures Last(Last(a, n) + b, n) == Last(a + b, n)
  {
    var la := Last(a, n);
    if |a| > n {
      assert la + b == (a + b)[|a| - n..];
      assert (a + b)[|a| - n..][|la + b| - |Last(la + b, n)|..] == (a + b)[|a + b| - |Last(la + b, n)|..];
    }
  }

  /**
   * Whatever was broadcast, the burst buffer holds exactly the most recent
   * min(65536, total) bytes of everything sent since it started out as `burst`.
   */
  lemma {:induction false} BurstKeepsNewest(burst: seq<byte>, chunks: seq<seq<byte>>)
    requires |burst| <= BurstSize
    ensures BurstAfter(burst, chunks) == Last(burst + Concat(chunks), BurstSize)
    decreases |chunks|
  {
    if |chunks| == 0 {
      assert burst + Concat(chunks) == burst;
    } else {
      var a := burst + chunks[0];
      var rest := Concat(chunks[1..]);
      BurstKeepsNewest(Last(a, BurstSize), chunks[1..]);
      LastOfLast(a, rest, BurstSize);
      ConcatCons(burst, chunks);
    }
  }

  /** A listener connection: metadata wanted, its interleaver, every byte written to it, and whether it is still open. */
  datatype Client = Client(wantsMetadata: bool, interleaver: Option<Interleaver>, received: seq<byte>, open: bool)
  {
    predicate Valid() {
      interleaver.Some? ==> interleaver.value.Valid()
    }
  }

  datatype Engine = Engine(
    tracks: seq<Track>,
    index: nat,
    interrupts: seq<Track>,
    streaming: bool,
    current: Option<Track>,
    burst: seq<byte>,
    clients: seq<Client>)
  {
    predicate Valid() {
      && (index < |tracks| || (|tracks| == 0 && index == 0))
      && |burst| <= BurstSize
      && forall k :: 0 <= k < |clients| ==> clients[k].Valid()
    }
  }

  /** One chunk to one open listener: through its interleaver when it wants metadata, raw otherwise. */
  function Feed(c: Client, chunk: seq<byte>): (r: Client)
    requires c.Valid()
    ensures r.Valid() && r.wantsMetadata == c.wantsMetadata && r.open == c.open
    ensures !c.open ==> r == c
    ensures c.open && !(c.wantsMetadata && c.interleaver.Some?) ==> r == c.(received := c.received + chunk)
  {
    if !c.open then c
    else if c.wantsMetadata && c.interleaver.Some? then
      var i := c.interleaver.value;
      c.(received := c.received + Frame(i.block, i.sinceMeta, chunk),
         interleaver := Some(i.(sinceMeta := NextPos(i.sinceMeta, |chunk|))))
    else c.(received := c.received + chunk)
  }

  /**
   * `broadcast(chunk)`: the burst buffer keeps the newest bytes, and every open
   * listener gets the chunk (framed for metadata listeners). Closed connections get
   * nothing.
   */
  function Broadcast(e: Engine, chunk: seq<byte>): (r: Engine)
    requires e.Valid()
    ensures r.Valid()
    ensures r.burst == Last(e.burst + chunk, BurstSize)
    ensures |r.clients| == |e.clients|
    ensures forall k :: 0 <= k < |e.clients| ==> r.clients[k] == Feed(e.clients[k], chunk)
    ensures r == e.(burst := r.burst, clients := r.clients)
  {
    e.(burst := UpdateBurst(e.burst, chunk),
       clients := seq(|e.clients|, k requires 0 <= k < |e.clients| => Feed(e.clients[k], chunk)))
  }

  /** A metadata listener has received exactly the framing of `audio`, and its counter agrees. */
  predicate InSync(c: Client, audio: seq<byte>) {
    && c.open && c.wantsMetadata && c.interleaver.Some? && c.interleaver.value.Valid()
    && c.interleaver.value.sinceMeta == NextPos(0, |audio|)
    && c.received == Frame(c.interleaver.value.block, 0, audio)
  }

  lemma NextPosAdd(a: nat, b: nat)
    ensures NextPos(NextPos(0, a), b) == NextPos(0, a + b)
  {
    var q := a / MetaInt;
    assert a == q * MetaInt + a % MetaInt;
    assert a + b == q * MetaInt + (a % MetaInt + b);
  }

  /**
   * A metadata listener in step with the audio stays in step through a broadcast
   * with an unchanged title: what it holds still decodes to all the audio sent.
   */
  lemma BroadcastKeepsSync(e: Engine, chunk: seq<byte>, k: nat, audio: seq<byte>)
    requires e.Valid() && k < |e.clients| && InSync(e.clients[k], audio)
    ensures InSync(Broadcast(e, chunk).clients[k], audio + chunk)
    ensures Unframe(|e.clients[k].interleaver.value.block|, 0, Broadcast(e, chunk).clients[k].received) == audio + chunk
  {
    var c := e.clients[k];
    var c' := Broadcast(e, chunk).clients[k];
    assert c' == Feed(c, chunk);
    FeedKeepsSync(c, audio, chunk);
    UnframeFrame(c.interleaver.value.block, 0, audio + chunk);
  }

  /** One chunk fed to a listener in step with `audio` leaves it in step with `audio + chunk`. */
  lemma FeedKeepsSync(c: Client, audio: seq<byte>, chunk: seq<byte>)
    requires InSync(c, audio)
    ensures InSync(Feed(c, chunk), audio + chunk)
  {
    var i := c.interleaver.value;
    var c' := Feed(c, chunk);
    assert c'.received == c.received + Frame(i.block, i.sinceMeta, chunk);
    assert c'.interleaver == Some(i.(sinceMeta := NextPos(i.sinceMeta, |chunk|)));
    FrameAppend(i.block, 0, audio, chunk);
    NextPosAdd(|audio|, |chunk|);
  }

  /**
   * `addClient` as written: a metadata listener's interleaver starts at position 0
   * with the current title, and then the raw burst buffer (when non-empty) is written
   * to it unframed, after the `icy-metaint` header went out. A failed write is ignored.
   */
  function AddClientAsWritten(e: Engine, wantsMetadata: bool, writeOk: bool): (r: Engine)
    requires e.Valid()
    ensures r.Valid()
    ensures |r.clients| == |e.clients| + 1 && r.clients[..|e.clients|] == e.clients
    ensures var c := r.clients[|e.clients|];
      && c.open && c.wantsMetadata == wantsMetadata
      && (c.interleaver.Some? <==> wantsMetadata)
      && (wantsMetadata ==> c.interleaver.value.sinceMeta == 0)
      && c.received == (if |e.burst| > 0 && writeOk then e.burst else [])
  {
    var i := if wantsMetadata then Some(IcySrc.NewInterleaver(CurrentTitle(e.current))) else None;
    var sent := if |e.burst| > 0 && writeOk then e.burst else [];
    e.(clients := e.clients + [Client(wantsMetadata, i, sent, true)])
  }

  /** A full interval of silence. */
  function Silence(): (z: seq<byte>)
    ensures |z| == MetaInt && forall i :: 0 <= i < |z| ==> z[i] == 0
  {
    seq(MetaInt, _ => 0)
  }

  /** What the correctly framed stream of one zero byte and a silent interval looks like. */
  lemma FramedLateSilence(block: seq<byte>)
    ensures Frame(block, 0, [0] + Silence()) == Silence() + block + [0]
  {
    var z := Silence();
    assert [0] + z == z + [0];
    FrameAppend(block, 0, z, [0]);
    FrameRun(block, 0, z);
    FrameRun(block, 0, [0]);
  }

  /** What the as-written late joiner receives: the raw burst byte, then the framed silence. */
  lemma LateJoinerReceives(e: Engine)
    requires e.Valid() && e.burst == [0]
    ensures var c := Broadcast(AddClientAsWritten(e, true, true), Silence()).clients[|e.clients|];
      c.received == [0] + Silence() + IcySrc.CreateIcyMetadataBlock(CurrentTitle(e.current))
  {
    var block := IcySrc.CreateIcyMetadataBlock(CurrentTitle(e.current));
    var e1 := AddClientAsWritten(e, true, true);
    var c1 := Client(true, Some(Interleaver(0, block)), [0], true);
    assert e1.clients[|e.clients|] == c1;
    assert Broadcast(e1, Silence()).clients[|e.clients|] == Feed(c1, Silence());
    FeedSilence(c1);
  }

  /** A fresh metadata listener holding one raw byte, fed a silent interval. */
  lemma FeedSilence(c: Client)
    requires c.open && c.wantsMetadata && c.interleaver.Some? && c.interleaver.value.sinceMeta == 0
    ensures Feed(c, Silence()).received == c.received + Silence() + c.interleaver.value.block
  {
    var block := c.interleaver.value.block;
    FrameRun(block, 0, Silence());
    assert Frame(block, 0, Silence()) == Silence() + block;
  }

  /** A non-empty title whose length byte fits has a non-zero length byte. */
  lemma LengthByteNonZero(title: string)
    requires title != ""
    requires Padded(|Encode(IcySrc.StreamText(title))|) / 16 <= 255
    ensures |IcySrc.CreateIcyMetadataBlock(title)| > 1 && IcySrc.CreateIcyMetadataBlock(title)[0] != 0
  {
    IcySrc.BlockLayout(title);
    IcySrc.LengthByte(title);
  }

  /**
   * The defect of the as-written `addClient`: one burst byte is enough to break the
   * metadata framing. A listener that joins with a one-byte burst and then receives a
   * full 8192-byte interval of silence finds an audio byte where the stream must
   * carry the metadata length byte.
   */
  lemma AddClientAsWrittenBreaksFraming(e: Engine)
    requires e.Valid() && e.burst == [0]
    requires CurrentTitle(e.current) != ""
    requires Padded(|Encode(IcySrc.StreamText(CurrentTitle(e.current)))|) / 16 <= 255
    ensures var c := Broadcast(AddClientAsWritten(e, true, true), Silence()).clients[|e.clients|];
      var good := Frame(IcySrc.CreateIcyMetadataBlock(CurrentTitle(e.current)), 0, e.burst + Silence());
      && |c.received| > MetaInt && |good| > MetaInt
      && c.received[MetaInt] == 0 && good[MetaInt] != 0
  {
    LateJoinerReceives(e);
    LengthByteNonZero(CurrentTitle(e.current));
    LengthByteMisplaced(IcySrc.CreateIcyMetadataBlock(CurrentTitle(e.current)));
  }

  /**
   * With one raw byte ahead of a silent interval, position 8192 holds the last silent
   * byte; in the framed stream it holds the block's non-zero length byte.
   */
  lemma LengthByteMisplaced(block: seq<byte>)
    requires |block| > 0 && block[0] != 0
    ensures var late := [0] + Silence() + block;
      var good := Frame(block, 0, [0] + Silence());
      && |late| > MetaInt && |good| > MetaInt
      && late[MetaInt] == 0 && good[MetaInt] != 0
  {
    FramedLateSilence(block);
    var late := [0] + Silence() + block;
    assert late[MetaInt] == Silence()[MetaInt - 1];
    var good := Silence() + block + [0];
    assert good[MetaInt] == block[0];
  }

  /**
   * `addClient` with the burst sent the way the `icy-metaint` header promises: through
   * the new listener's interleaver, so the listener starts in step with the audio.
   */
  function AddClient(e: Engine, wantsMetadata: bool, writeOk: bool): (r: Engine)
    requires e.Valid()
    ensures r.Valid()
    ensures |r.clients| == |e.clients| + 1 && r.clients[..|e.clients|] == e.clients
    ensures var c := r.clients[|e.clients|];
      var sent := if |e.burst| > 0 && writeOk then e.burst else [];
      && c.open && c.wantsMetadata == wantsMetadata
      && (wantsMetadata ==> InSync(c, sent))
      && (!wantsMetadata ==> c.received == sent && c.interleaver.None?)
  {
    var sent := if |e.burst| > 0 && writeOk then e.burst else [];
    if wantsMetadata then
      var i := IcySrc.NewInterleaver(CurrentTitle(e.current));
      e.(clients := e.clients + [Client(true, Some(i.(sinceMeta := NextPos(0, |sent|))), Frame(i.block, 0, sent), true)])
    else
      e.(clients := e.clients + [Client(false, None, sent, true)])
  }

  /**
   * With the corrected `addClient`, a listener that joins and then receives a
   * broadcast decodes exactly the burst followed by the chunk.
   */
  lemma AddClientThenBroadcast(e: Engine, chunk: seq<byte>)
    requires e.Valid() && |e.burst| > 0
    ensures var e2 := Broadcast(AddClient(e, true, true), chunk);
      var c := e2.clients[|e.clients|];
      c.interleaver.Some? && Unframe(|c.interleaver.value.block|, 0, c.received) == e.burst + chunk
  {
    var e1 := AddClient(e, true, true);
    BroadcastKeepsSync(e1, chunk, |e.clients|, e.burst);
  }

  /** `playTrack` bookkeeping: the track becomes current and every interleaver gets its display title. */
  function PlayTrack(e: Engine, t: Track): (r: Engine)
    requires e.Valid()
    ensures r.Valid() && r.current == Some(t) && |r.clients| == |e.clients|
    ensures forall k :: 0 <= k < |e.clients| && e.clients[k].interleaver.Some? ==>
      && r.clients[k].interleaver.Some?
      && r.clients[k].interleaver.value.sinceMeta == e.clients[k].interleaver.value.sinceMeta
      && r.clients[k].interleaver.value.block == IcySrc.CreateIcyMetadataBlock(CurrentTitle(Some(t)))
    ensures forall k :: 0 <= k < |e.clients| ==> r.clients[k].received == e.clients[k].received
  {
    var title := CurrentTitle(Some(t));
    e.(current := Some(t),
       clients := seq(|e.clients|, k requires 0 <= k < |e.clients| =>
         var c := e.clients[k];
         if c.interleaver.Some? then c.(interleaver := Some(IcySrc.UpdateTitle(c.interleaver.value, title))) else c))
  }

  /** `startStreaming` entry: refused while already streaming or with an empty catalog. */
  function StartStreaming(e: Engine): (r: Engine)
    ensures r.streaming <==> e.streaming || |e.tracks| > 0
    ensures r == e.(streaming := r.streaming)
  {
    if e.streaming || |e.tracks| == 0 then e else e.(streaming := true)
  }

  /** What the loop plays next: interrupts first, then the track under the cursor. */
  function Select(e: Engine): Selection
    requires e.Valid()
  {
    NextToPlay(e.interrupts, e.tracks, e.index)
  }

  /** `playInterrupt`: the queued interrupts in order, leaving the queue empty and the cursor alone. */
  function PlayInterrupts(e: Engine): (r: (seq<Track>, Engine))
    ensures r.0 == e.interrupts && r.1 == e.(interrupts := [])
    decreases |e.interrupts|
  {
    if |e.interrupts| == 0 then ([], e)
    else
      var (rest, e') := PlayInterrupts(e.(interrupts := e.interrupts[1..]));
      ([e.interrupts[0]] + rest, e')
  }

  /** The end of a catalog iteration: whether an interrupt cut the track short, and the state after it. */
  datatype Finished = Finished(interrupted: bool, engine: Engine)

  /**
   * The loop body after `playTrack(tracks[currentIndex])` returns. When interrupts
   * were queued meanwhile, the track was cut short: the cursor moves on and the loop
   * starts over, so that its head plays the queue. Otherwise the track ended by
   * itself and the cursor moves on. Either way the cursor advances with wrap-around.
   */
  function FinishCatalogTrack(e: Engine): (r: Finished)
    requires e.Valid() && |e.tracks| > 0
    ensures r.interrupted <==> |e.interrupts| > 0
    ensures r.engine.Valid() && r.engine == e.(index := r.engine.index)
    ensures e.index + 1 < |e.tracks| ==> r.engine.index == e.index + 1
    ensures e.index + 1 == |e.tracks| ==> r.engine.index == 0
  {
    if |e.interrupts| > 0 then
      Finished(true, e.(index := (e.index + 1) % |e.tracks|))
    else
      Finished(false, e.(index := (e.index + 1) % |e.tracks|))
  }

  /**
   * A track cut short by an interrupt is not played again: the loop plays the queued
   * interrupts next, and after them the catalog resumes at the following track --
   * the same track that follows when nothing interrupts.
   */
  lemma FinishThenSelect(e: Engine)
    requires e.Valid() && |e.tracks| > 0
    ensures var f := FinishCatalogTrack(e);
      var after := e.tracks[Advance(e.index, |e.tracks|)];
      && (f.interrupted ==>
            Select(f.engine) == InterruptBatch(e.interrupts) && Select(PlayInterrupts(f.engine).1) == CatalogTrack(after))
      && (!f.interrupted ==> Select(f.engine) == CatalogTrack(after))
  {
  }

  /** The older `buildTrackInfo`: no normalisation and no cache; URL tracks play from the network. */
  function BuildTrack(entry: Entry, newId: string, resolve: string -> string, tags: string -> Option<Tags>): (r: Result<Track>)
    ensures r.Ok? <==> entry.IsFileEntry() || entry.IsUrlEntry()
    ensures r.Ok? ==> r.value.id == Or(entry.id, newId)
    ensures entry.IsFileEntry() ==> r.Ok? && r.value.kind == File && r.value.filePath == Some(resolve(entry.path.value))
    ensures !entry.IsFileEntry() && r.Ok? ==> r.value.kind == Url && r.value.url == entry.url.value && r.value.filePath.None?
  {
    if entry.IsFileEntry() then
      var filePath := resolve(entry.path.value);
      var t := if !Truthy(entry.title) || !Truthy(entry.artist) then tags(filePath) else None;
      Ok(Track(Or(entry.id, newId), File, FileTitle(entry, filePath, t), FileArtist(entry, t), Some(filePath), ""))
    else if entry.IsUrlEntry() then
      Ok(Track(Or(entry.id, newId), Url, Or(entry.title, UnknownTitle), Or(entry.artist, UnknownArtist), None, entry.url.value))
    else Err("Invalid track: type with path (file) or url (url) required")
  }

  /** Build every input or fail as a whole. */
  function BuildAll(inputs: seq<Entry>, ids: seq<string>, resolve: string -> string, tags: string -> Option<Tags>): (r: Result<seq<Track>>)
    requires |ids| >= |inputs|
    ensures r.Ok? <==> forall i :: 0 <= i < |inputs| ==> BuildTrack(inputs[i], ids[i], resolve, tags).Ok?
    ensures r.Ok? ==> |r.value| == |inputs|
    ensures r.Ok? ==> forall i :: 0 <= i < |inputs| ==> r.value[i] == BuildTrack(inputs[i], ids[i], resolve, tags).value
  {
    BuildEach(inputs, ids, (e, id) => BuildTrack(e, id, resolve, tags))
  }

  /**
   * `interrupt(inputs)` of the older engine: when every input builds, the queue is
   * replaced (not extended) by the built tracks and the current track is skipped;
   * a failure changes nothing.
   */
  function Interrupt(e: Engine, inputs: seq<Entry>, ids: seq<string>, resolve: string -> string, tags: string -> Option<Tags>)
    : (r: Result<(Engine, bool)>)
    requires |ids| >= |inputs|
    ensures r.Ok? <==> BuildAll(inputs, ids, resolve, tags).Ok?
    ensures r.Ok? ==> r.value.1 && r.value.0 == e.(interrupts := BuildAll(inputs, ids, resolve, tags).value)
  {
    match BuildAll(inputs, ids, resolve, tags)
    case Err(m) => Err(m)
    case Ok(ts) => Ok((e.(interrupts := ts), true))
  }

  /** After an interrupt the loop plays exactly the new batch, whatever was queued before. */
  lemma InterruptReplaces(e: Engine, inputs: seq<Entry>, ids: seq<string>, resolve: string -> string, tags: string -> Option<Tags>)
    requires e.Valid() && |ids| >= |inputs| && |inputs| > 0
    requires Interrupt(e, inputs, ids, resolve, tags).Ok?
    ensures var e' := Interrupt(e, inputs, ids, resolve, tags).value.0;
      e'.Valid() && Select(e') == InterruptBatch(BuildAll(inputs, ids, resolve, tags).value)
  {
  }

  /**
   * `skipTo(id)`: false for an unknown id; otherwise the cursor goes to just before
   * the target, so that the loop's advance lands on it, and the current track is skipped.
   */
  function SkipTo(e: Engine, id: string): (r: (bool, Engine))
    requires e.Valid()
    ensures r.0 <==> exists k :: 0 <= k < |e.tracks| && e.tracks[k].id == id
    ensures !r.0 ==> r.1 == e
    ensures r.0 ==> r.1.Valid() && r.1 == e.(index := r.1.index)
    ensures r.0 ==> |e.tracks| > 0 && e.tracks[Advance(r.1.index, |e.tracks|)].id == id
  {
    match FindIndex(e.tracks, id)
    case None => (false, e)
    case Some(k) => (true, e.(index := SkipTarget(k, |e.tracks|)))
  }

  /** `skipTo` followed by the end of the skipped track: the next catalog track is the target. */
  lemma SkipToPlaysTarget(e: Engine, id: string)
    requires e.Valid() && |e.interrupts| == 0
    requires SkipTo(e, id).0
    ensures Select(FinishCatalogTrack(SkipTo(e, id).1).engine) == CatalogTrack(e.tracks[FindIndex(e.tracks, id).value])
  {
  }

  /**
   * `removeTrack(id)`: "Track not found" for an unknown id; otherwise the removal of
   * the first track with that id, and whether a skip is requested.
   */
  function RemoveTrack(e: Engine, id: string): (r: Result<(Engine, bool)>)
    requires e.Valid()
    ensures r.Err? <==> forall k :: 0 <= k < |e.tracks| ==> e.tracks[k].id != id
    ensures r.Ok? ==> var k := FindIndex(e.tracks, id).value;
      r.value == (RemoveTrackAt(e, k), k == e.index)
  {
    match FindIndex(e.tracks, id)
    case None => Err("Track not found: " + id)
    case Some(k) => Ok((RemoveTrackAt(e, k), k == e.index))
  }

  /**
   * The engine after removing the track at position `k`: the track is spliced out,
   * the cursor moves back when the removed track was before it, and the cursor is
   * clamped. Removing the current track puts the cursor one before the track that
   * followed it, so that this track plays next.
   */
  function RemoveTrackAt(e: Engine, k: nat): (r: Engine)
    requires e.Valid() && k < |e.tracks|
    ensures r.Valid()
    ensures r.tracks == RemoveAt(e.tracks, k)
    ensures r == e.(tracks := r.tracks, index := r.index)
    ensures k < e.index ==> r.index == e.index - 1
    ensures k > e.index ==> r.index == e.index
    ensures k == e.index && |e.tracks| > 1 ==>
      r.tracks[Advance(r.index, |r.tracks|)] == e.tracks[Advance(e.index, |e.tracks|)]
  {
    var cursor := CursorAfterRemoval(e.index, k, |e.tracks|).0;
    if k == e.index && |e.tracks| > 1 then
      RemovalPlaysSuccessor(e.tracks, k);
      e.(tracks := RemoveAt(e.tracks, k), index := cursor)
    else
      e.(tracks := RemoveAt(e.tracks, k), index := cursor)
  }

  /** When, in milliseconds after the track started, `total` bytes are due at the boosted rate. */
  function ExpectedMs(total: nat): (r: real)
    ensures r * 16.8 == total as real
  {
    (total as real / BytesPerSecond) * 1000.0
  }

  /** The effect of one data event of the older rate control. */
  datatype DataOutcome = DataOutcome(total: nat, pause: Option<real>, broadcast: bool)

  /**
   * A data chunk of `len` bytes at `elapsedMs`: ignored after abort; otherwise it is
   * counted and broadcast at once, and the source is paused for the full lag (no cap)
   * when it runs more than 50 ms ahead of schedule.
   */
  function OnData(total: nat, len: nat, elapsedMs: real, aborted: bool): (r: DataOutcome)
    ensures aborted ==> r == DataOutcome(total, None, false)
    ensures !aborted ==> r.broadcast && r.total == total + len
    ensures !aborted ==> (r.pause.Some? <==> ExpectedMs(total + len) - elapsedMs > PauseThresholdMs)
    ensures r.pause.Some? ==> r.pause.value > PauseThresholdMs && elapsedMs + r.pause.value == ExpectedMs(r.total)
  {
    if aborted then DataOutcome(total, None, false)
    else
      var t := total + len;
      var delay := ExpectedMs(t) - elapsedMs;
      DataOutcome(t, if delay > PauseThresholdMs then Some(delay) else None, true)
  }
}

=== FILE: icy_dist.dfy ===
/**
 * The newer metadata framer: titles are reduced to printable ASCII without
 * apostrophes and capped at 128 characters before they are framed.
 */
module IcyDist {
  import opened Utf8
  import opened Wrappers
  import opened IcyFraming
  import JsText

  const MaxTitleLength: nat := 128
  const Prefix: string := "StreamTitle='"
  const Suffix: string := "';"

  /** The characters `filter(t, p)` keeps, in order. */
  function Keep(t: string, p: char -> bool): (r: string)
    ensures |r| <= |t|
    ensures forall i :: 0 <= i < |r| ==> p(r[i])
    ensures forall i :: 0 <= i < |t| && p(t[i]) ==> t[i] in r
  {
    if |t| == 0 then [] else (if p(t[0]) then [t[0]] else []) + Keep(t[1..], p)
  }

  /** First pass: `replace(/'/g, '')`. */
  predicate NotQuote(c: char) { c != '\'' }

  /** Second pass: `replace(/[\x00-\x1F]/g, '')`. */
  predicate NotControl(c: char) { c as int > 0x1F }

  /** Third pass: `replace(/[^\x20-\x7E]/g, '')`. */
  predicate Printable(c: char) { 0x20 <= c as int <= 0x7E }

  /** What survives the first two passes. */
  predicate NoQuoteNoControl(c: char) { NotQuote(c) && NotControl(c) }

  /** What survives all three passes. */
  predicate Safe(c: char) { Printable(c) && c != '\'' }

  /** `sanitizeTitle`: the three removal passes, then `slice(0, 128)`. */
  function SanitizeTitle(title: string): string {
    var filtered := Keep(Keep(Keep(title, NotQuote), NotControl), Printable);
    if |filtered| <= MaxTitleLength then filtered else filtered[..MaxTitleLength]
  }

  /** Filtering twice keeps what passes both tests. */
  lemma {:induction false} KeepKeep(t: string, p: char -> bool, q: char -> bool, both: char -> bool)
    requires forall c :: both(c) == (p(c) && q(c))
    ensures Keep(Keep(t, p), q) == Keep(t, both)
  {
    if |t| > 0 {
      KeepKeep(t[1..], p, q, both);
      var head := if p(t[0]) then [t[0]] else [];
      assert Keep(t, p) == head + Keep(t[1..], p);
      KeepAppend(head, Keep(t[1..], p), q);
    }
  }

  /** Filtering distributes over concatenation. */
  lemma {:induction false} KeepAppend(a: string, b: string, p: char -> bool)
    ensures Keep(a + b, p) == Keep(a, p) + Keep(b, p)
  {
    if |a| == 0 {
      assert a + b == b;
    } else {
      assert (a + b)[1..] == a[1..] + b;
      KeepAppend(a[1..], b, p);
    }
  }

  /** Filtering text that already passes the test changes nothing. */
  lemma {:induction false} KeepAll(t: string, p: char -> bool)
    requires forall i :: 0 <= i < |t| ==> p(t[i])
    ensures Keep(t, p) == t
  {
    if |t| > 0 {
      KeepAll(t[1..], p);
    }
  }

  /** The three passes are one filter keeping printable ASCII other than the apostrophe. */
  lemma ThreePasses(title: string)
    ensures Keep(Keep(Keep(title, NotQuote), NotControl), Printable) == Keep(title, Safe)
  {
    KeepKeep(title, NotQuote, NotControl, NoQuoteNoControl);
    KeepKeep(title, NoQuoteNoControl, Printable, Safe);
  }

  /**
   * The sanitised title holds only printable ASCII without apostrophes, at most 128
   * characters, and it is the first 128 safe characters of the title, in order.
   */
  lemma SanitizeTitleSafe(title: string)
    ensures var r := SanitizeTitle(title);
      && |r| <= MaxTitleLength
      && (forall i :: 0 <= i < |r| ==> Printable(r[i]) && r[i] != '\'')
      && |r| <= |Keep(title, Safe)|
      && r == Keep(title, Safe)[..|r|]
      && |r| == (if |Keep(title, Safe)| < MaxTitleLength then |Keep(title, Safe)| else MaxTitleLength)
  {
    var k := Keep(title, Safe);
    ThreePasses(title);
    var r := if |k| <= MaxTitleLength then k else k[..MaxTitleLength];
    assert SanitizeTitle(title) == r;
    forall i | 0 <= i < |r|
      ensures Printable(r[i]) && r[i] != '\''
    {
      assert r[i] == k[i];
      assert Safe(k[i]);
    }
  }

  /** Sanitising is idempotent. */
  lemma SanitizeTitleIdempotent(title: string)
    ensures SanitizeTitle(SanitizeTitle(title)) == SanitizeTitle(title)
  {
    var r := SanitizeTitle(title);
    SanitizeTitleSafe(title);
    ThreePasses(r);
    KeepAll(r, Safe);
  }

  /** The visible payload, `StreamTitle='<safe>';`. */
  function StreamText(title: string): string {
    Prefix + SanitizeTitle(title) + Suffix
  }

  /** `createIcyMetadataBlock`. */
  function CreateIcyMetadataBlock(title: string): seq<byte> {
    if title == "" then [0]
    else
      var text := AsciiBytes(StreamText(title));
      var padded := Padded(|text|);
      Assemble(padded / 16, text, padded - |text|)
  }

  /**
   * The block layout: only the empty title gives the lone zero byte; otherwise the
   * length byte counts the 16-byte units of the zero-padded text, which is at most
   * 144 bytes long, so the length byte never exceeds 9.
   */
  lemma BlockLayout(title: string)
    ensures CreateIcyMetadataBlock(title) == [0] <==> title == ""
    ensures title != "" ==>
      var block := CreateIcyMetadataBlock(title);
      var text := AsciiBytes(StreamText(title));
      && |block| == 1 + 16 * ((|text| + 15) / 16)
      && (block[0] as int) * 16 == |block| - 1
      && 1 <= block[0] <= 9
      && block[1..1 + |text|] == text
      && (forall i :: 1 + |text| <= i < |block| ==> block[i] == 0)
  {
    if title != "" {
      SanitizeTitleSafe(title);
      var block := CreateIcyMetadataBlock(title);
      var text := AsciiBytes(StreamText(title));
      assert 15 <= |text| <= 143;
      assert block[1..1 + |text|] == text;
    }
  }

  /** A listener's reading of the title out of a block: the text between the quotes. */
  function ParseStreamTitle(block: seq<byte>): Option<string> {
    match Payload(block)
    case None => None
    case Some(p) => ParseText(BytesToChars(p))
  }

  /** The title between `StreamTitle='` and `';`, if the text has that shape. */
  function ParseText(s: string): Option<string> {
    if |s| >= |Prefix| + |Suffix| && JsText.StartsWith(s, Prefix) && JsText.EndsWith(s, Suffix)
    then Some(s[|Prefix|..|s| - |Suffix|])
    else None
  }

  lemma ParseTextOf(x: string)
    ensures ParseText(Prefix + x + Suffix) == Some(x)
  {
    var s := Prefix + x + Suffix;
    assert s[..|Prefix|] == Prefix;
    assert s[|s| - |Suffix|..] == Suffix;
    assert s[|Prefix|..|s| - |Suffix|] == x;
  }

  /** The listener's payload of a non-empty title's block is exactly the ASCII text. */
  lemma PayloadOfBlock(title: string)
    requires title != ""
    ensures Payload(CreateIcyMetadataBlock(title)) == Some(AsciiBytes(StreamText(title)))
  {
    var block := CreateIcyMetadataBlock(title);
    var st := StreamText(title);
    var text := AsciiBytes(st);
    var padded := Padded(|text|);
    BlockLayout(title);
    assert block[1..] == text + seq(padded - |text|, _ => 0);
    assert st[|st| - 1] == ';';
    assert text[|text| - 1] == ';' as int;
    PaddedPayload(text, padded - |text|);
  }

  /** Round trip: a listener reads back exactly the sanitised title; the empty block carries none. */
  lemma ParseCreate(title: string)
    ensures ParseStreamTitle(CreateIcyMetadataBlock(title))
         == if title == "" then None else Some(SanitizeTitle(title))
  {
    var block := CreateIcyMetadataBlock(title);
    if title == "" {
      assert Payload(block) == Some([]);
    } else {
      var st := StreamText(title);
      PayloadOfBlock(title);
      StreamTextAscii(title);
      AsciiRoundTrip(st);
      ParseTextOf(SanitizeTitle(title));
      assert ParseStreamTitle(block) == ParseText(BytesToChars(AsciiBytes(st)));
    }
  }

  /** Every character of the framed text fits in one byte. */
  lemma StreamTextAscii(title: string)
    ensures forall i :: 0 <= i < |StreamText(title)| ==> StreamText(title)[i] as int < 256
  {
    var r := SanitizeTitle(title);
    var st := StreamText(title);
    SanitizeTitleSafe(title);
    forall i | 0 <= i < |st|
      ensures st[i] as int < 256
    {
      if i < |Prefix| {
        assert st[i] == Prefix[i];
      } else if i < |Prefix| + |r| {
        assert st[i] == r[i - |Prefix|];
      } else {
        assert st[i] == Suffix[i - |Prefix| - |r|];
      }
    }
  }

  /** `new IcyInterleaver(initialTitle)`: position zero, block for the initial title. */
  function NewInterleaver(initialTitle: string): (i: Interleaver)
    ensures i.Valid() && i.sinceMeta == 0
    ensures initialTitle == "" ==> i.block == [0]
    ensures ParseStreamTitle(i.block) == if initialTitle == "" then None else Some(SanitizeTitle(initialTitle))
  {
    ParseCreate(initialTitle);
    Interleaver(0, CreateIcyMetadataBlock(initialTitle))
  }

  /** `updateTitle`: swaps the cached block; the position in the interval is kept. */
  function UpdateTitle(i: Interleaver, title: string): (r: Interleaver)
    requires i.Valid()
    ensures r.Valid() && r.sinceMeta == i.sinceMeta
    ensures ParseStreamTitle(r.block) == if title == "" then None else Some(SanitizeTitle(title))
  {
    ParseCreate(title);
    i.(block := CreateIcyMetadataBlock(title))
  }
}

=== FILE: icy_framing.dfy ===
/**
 * The ICY in-band metadata convention shared by both generations of the framer:
 * after every `MetaInt` audio bytes the client receives one metadata block, and
 * the position inside the current interval is per-client state that survives
 * between chunks.
 */
module IcyFraming {
  import opened Utf8
  import opened Wrappers

  /** Audio bytes between two metadata blocks (the `icy-metaint` header value). */
  const MetaInt: nat := 8192

  /** Smallest multiple of 16 that holds `n` bytes. */
  function Padded(n: nat): (p: nat)
    ensures p % 16 == 0 && n <= p < n + 16
  {
    ((n + 15) / 16) * 16
  }

  /**
   * Reference definition of the framed stream, one audio byte at a time: a client
   * that has already received `pos` bytes of the current interval gets each byte
   * of `audio`, followed by `block` whenever that byte completes an interval.
   */
  function Frame(block: seq<byte>, pos: nat, audio: seq<byte>): seq<byte>
    requires pos < MetaInt
    decreases |audio|
  {
    if |audio| == 0 then []
    else if pos + 1 == MetaInt then [audio[0]] + block + Frame(block, 0, audio[1..])
    else [audio[0]] + Frame(block, pos + 1, audio[1..])
  }

  /** Position after one more audio byte. */
  function Step(pos: nat): nat {
    if pos + 1 == MetaInt then 0 else pos + 1
  }

  /** Position inside the interval after `n` more audio bytes. */
  function NextPos(pos: nat, n: nat): (r: nat)
    ensures r < MetaInt
  {
    (pos + n) % MetaInt
  }

  /**
   * What a listener does with the framed stream: keep audio bytes and, at every
   * interval boundary, skip a block of `blockLen` bytes.
   */
  function Unframe(blockLen: nat, pos: nat, framed: seq<byte>): seq<byte>
    requires pos < MetaInt
    decreases |framed|
  {
    if |framed| == 0 then []
    else if pos + 1 == MetaInt then
      if |framed| - 1 < blockLen then [framed[0]]
      else [framed[0]] + Unframe(blockLen, 0, framed[1 + blockLen..])
    else [framed[0]] + Unframe(blockLen, pos + 1, framed[1..])
  }

  /** Stripping the blocks from the framed stream gives the audio back. */
  lemma {:induction false} UnframeFrame(block: seq<byte>, pos: nat, audio: seq<byte>)
    requires pos < MetaInt
    ensures Unframe(|block|, pos, Frame(block, pos, audio)) == audio
    decreases |audio|
  {
    if |audio| > 0 {
      var rest := Frame(block, Step(pos), audio[1..]);
      UnframeFrame(block, Step(pos), audio[1..]);
      if pos + 1 == MetaInt {
        var f := [audio[0]] + block + rest;
        assert Frame(block, pos, audio) == f;
        assert f[1 + |block|..] == rest;
      } else {
        var f := [audio[0]] + rest;
        assert Frame(block, pos, audio) == f;
        assert f[1..] == rest;
      }
    }
  }

  /** Exactly one block per interval boundary crossed: the length of the framed stream. */
  lemma {:induction false} FrameLength(block: seq<byte>, pos: nat, audio: seq<byte>)
    requires pos < MetaInt
    ensures |Frame(block, pos, audio)| == |audio| + ((pos + |audio|) / MetaInt) * |block|
    decreases |audio|
  {
    if |audio| > 0 {
      var n := |audio| - 1;
      FrameLength(block, Step(pos), audio[1..]);
      if pos + 1 == MetaInt {
        assert (pos + |audio|) / MetaInt == n / MetaInt + 1;
        assert (n / MetaInt + 1) * |block| == (n / MetaInt) * |block| + |block|;
      }
    }
  }

  /**
   * Feeding `a` then `b` to the framer produces the same bytes as feeding `a + b`
   * at once: the framer keeps no state besides the interval position.
   */
  lemma {:induction false} FrameAppend(block: seq<byte>, pos: nat, a: seq<byte>, b: seq<byte>)
    requires pos < MetaInt
    ensures Frame(block, pos, a + b) == Frame(block, pos, a) + Frame(block, NextPos(pos, |a|), b)
    decreases |a|
  {
    if |a| == 0 {
      assert a + b == b;
    } else {
      assert (a + b)[0] == a[0];
      assert (a + b)[1..] == a[1..] + b;
      FrameAppend(block, Step(pos), a[1..], b);
      NextPosStep(pos, |a| - 1);
    }
  }

  lemma NextPosStep(pos: nat, n: nat)
    requires pos < MetaInt
    ensures NextPos(Step(pos), n) == NextPos(pos, n + 1)
  {
    if pos + 1 == MetaInt {
      assert pos + n + 1 == n + MetaInt;
    }
  }

  /** A run that stays inside one interval passes through, plus the block if it ends the interval. */
  lemma {:induction false} FrameRun(block: seq<byte>, pos: nat, run: seq<byte>)
    requires pos + |run| <= MetaInt
    requires pos < MetaInt
    ensures Frame(block, pos, run) == run + (if |run| > 0 && pos + |run| == MetaInt then block else [])
    decreases |run|
  {
    if |run| > 0 {
      if pos + 1 == MetaInt {
        assert |run| == 1;
        assert run[1..] == [];
        assert run == [run[0]];
      } else {
        FrameRun(block, pos + 1, run[1..]);
        assert run == [run[0]] + run[1..];
      }
    }
  }

  /**
   * Framing the first `offset + n` bytes of `chunk` extends the framing of the first
   * `offset` by the next run of `n` bytes, plus the block when that run ends an interval.
   */
  lemma FrameNextRun(block: seq<byte>, pos: nat, chunk: seq<byte>, offset: nat, n: nat)
    requires pos < MetaInt && offset + n <= |chunk|
    requires NextPos(pos, offset) + n <= MetaInt
    ensures Frame(block, pos, chunk[..offset + n]) == Frame(block, pos, chunk[..offset]) + chunk[offset..offset + n]
      + (if n > 0 && NextPos(pos, offset) + n == MetaInt then block else [])
    ensures NextPos(pos, offset + n) == if NextPos(pos, offset) + n == MetaInt then 0 else NextPos(pos, offset) + n
  {
    var run := chunk[offset..offset + n];
    assert chunk[..offset + n] == chunk[..offset] + run;
    FrameAppend(block, pos, chunk[..offset], run);
    FrameRun(block, NextPos(pos, offset), run);
    NextPosRun(pos, offset, n);
  }

  /** Position arithmetic for a run that does not cross an interval boundary. */
  lemma NextPosRun(pos: nat, offset: nat, n: nat)
    requires NextPos(pos, offset) + n <= MetaInt
    ensures NextPos(pos, offset + n) == if NextPos(pos, offset) + n == MetaInt then 0 else NextPos(pos, offset) + n
  {
    var q := (pos + offset) / MetaInt;
    assert pos + offset == q * MetaInt + NextPos(pos, offset);
    if NextPos(pos, offset) + n == MetaInt {
      assert pos + offset + n == (q + 1) * MetaInt;
    } else {
      assert pos + offset + n == q * MetaInt + (NextPos(pos, offset) + n);
    }
  }

  /** The per-client framer: bytes sent since the last block, and the block it will insert next. */
  datatype Interleaver = Interleaver(sinceMeta: nat, block: seq<byte>) {
    predicate Valid() {
      sinceMeta < MetaInt
    }
  }

  /**
   * `IcyInterleaver.process`: copy the chunk in runs of at most the bytes left in the
   * current interval, appending the cached block each time an interval completes.
   */
  method Process(s: Interleaver, chunk: seq<byte>) returns (out: seq<byte>, s': Interleaver)
    requires s.Valid()
    ensures s'.Valid() && s'.block == s.block
    ensures s'.sinceMeta == (s.sinceMeta + |chunk|) % MetaInt
    ensures out == Frame(s.block, s.sinceMeta, chunk)
    ensures Unframe(|s.block|, s.sinceMeta, out) == chunk
    ensures |out| == |chunk| + ((s.sinceMeta + |chunk|) / MetaInt) * |s.block|
  {
    out := [];
    var offset := 0;
    var since := s.sinceMeta;
    while offset < |chunk|
      invariant 0 <= offset <= |chunk|
      invariant since < MetaInt
      invariant since == NextPos(s.sinceMeta, offset)
      invariant out == Frame(s.block, s.sinceMeta, chunk[..offset])
    {
      var remaining := MetaInt - since;
      var n := if remaining < |chunk| - offset then remaining else |chunk| - offset;
      var run := chunk[offset..offset + n];
      FrameNextRun(s.block, s.sinceMeta, chunk, offset, n);
      out := out + run;
      since := since + n;
      offset := offset + n;
      if since >= MetaInt {
        out := out + s.block;
        since := 0;
      }
    }
    assert chunk[..offset] == chunk;
    s' := s.(sinceMeta := since);
    UnframeFrame(s.block, s.sinceMeta, chunk);
    FrameLength(s.block, s.sinceMeta, chunk);
  }

  /** A block assembled from a length byte, a text and `pad` zero bytes. */
  function Assemble(lengthByte: byte, text: seq<byte>, pad: nat): seq<byte> {
    [lengthByte] + text + seq(pad, _ => 0)
  }

  lemma AssembleShape(lengthByte: byte, text: seq<byte>, pad: nat)
    ensures var b := Assemble(lengthByte, text, pad);
      && |b| == 1 + |text| + pad
      && b[0] == lengthByte
      && b[1..1 + |text|] == text
      && b[1..] == text + seq(pad, _ => 0)
      && (forall i :: 1 + |text| <= i < |b| ==> b[i] == 0)
  {
    var b := Assemble(lengthByte, text, pad);
    assert b[1..] == text + seq(pad, _ => 0);
  }

  /** Drops the zero padding at the end of a metadata payload. */
  function DropTrailingZeros(bs: seq<byte>): (r: seq<byte>)
    ensures |r| <= |bs| && r == bs[..|r|]
    ensures r == [] || r[|r| - 1] != 0
    ensures forall i :: |r| <= i < |bs| ==> bs[i] == 0
  {
    if |bs| == 0 || bs[|bs| - 1] != 0 then bs else DropTrailingZeros(bs[..|bs| - 1])
  }

  /**
   * A listener's reading of one metadata block: the length byte counts 16-byte
   * units, and the text is the payload without its zero padding.
   */
  function Payload(block: seq<byte>): Option<seq<byte>> {
    if |block| >= 1 && |block| == 1 + 16 * (block[0] as int) then Some(DropTrailingZeros(block[1..]))
    else None
  }

  /** Zero-padding a text that does not end in a zero byte is undone by the listener. */
  lemma PaddedPayload(text: seq<byte>, padding: nat)
    requires text == [] || text[|text| - 1] != 0
    ensures DropTrailingZeros(text + seq(padding, _ => 0)) == text
    decreases padding
  {
    var z := seq(padding, _ => 0);
    if padding > 0 {
      var z' := seq(padding - 1, _ => 0);
      assert (text + z)[..|text + z| - 1] == text + z';
      PaddedPayload(text, padding - 1);
    } else {
      assert text + z == text;
    }
  }
}

=== FILE: icy_src.dfy ===
/**
 * The older metadata framer: the title is embedded verbatim as UTF-8, with no
 * filtering and no length cap; the length byte is stored into a `Buffer`, which
 * keeps only its low eight bits.
 */
module IcySrc {
  import opened Utf8
  import opened Wrappers
  import opened IcyFraming

  const Prefix: string := "StreamTitle='"
  const Suffix: string := "';"

  function StreamText(title: string): string {
    Prefix + title + Suffix
  }

  /** `createIcyMetadataBlock`; `block[0] = n` on a `Buffer` stores `n` modulo 256. */
  function CreateIcyMetadataBlock(title: string): seq<byte> {
    if title == "" then [0] else BlockOf(Encode(StreamText(title)))
  }

  /** The block around an encoded text: wrapped length byte, text, zero padding. */
  function BlockOf(text: seq<byte>): seq<byte> {
    var padded := Padded(|text|);
    Assemble((padded / 16) % 256, text, padded - |text|)
  }

  /** The encoded text is the prefix, the title's own UTF-8 bytes and the suffix. */
  lemma EncodedText(title: string)
    ensures Encode(StreamText(title)) == Encode(Prefix) + Encode(title) + Encode(Suffix)
    ensures |Encode(StreamText(title))| >= 15
    ensures Encode(StreamText(title))[|Encode(StreamText(title))| - 1] == ';' as int
  {
    EncodeAppend(Prefix + title, Suffix);
    EncodeAppend(Prefix, title);
    assert Encode(Suffix) == [39, 59];
    assert |Encode(Prefix)| >= |Prefix|;
  }

  /**
   * Only the empty title yields the lone zero byte; any other title is embedded
   * verbatim as UTF-8 between the quotes, at offset 1, zero-padded to a multiple
   * of 16 bytes.
   */
  lemma BlockLayout(title: string)
    ensures CreateIcyMetadataBlock(title) == [0] <==> title == ""
    ensures title != "" ==>
      var block := CreateIcyMetadataBlock(title);
      var text := Encode(StreamText(title));
      && text == Encode(Prefix) + Encode(title) + Encode(Suffix)
      && |block| == 1 + 16 * ((|text| + 15) / 16)
      && block[1..1 + |text|] == text
      && (forall i :: 1 + |text| <= i < |block| ==> block[i] == 0)
  {
    if title != "" {
      EncodedText(title);
      BlockOfLayout(Encode(StreamText(title)));
    }
  }

  /** The block around a text: one length byte, the text, zero padding to a multiple of 16. */
  lemma BlockOfLayout(text: seq<byte>)
    ensures var block := BlockOf(text);
      && |block| == 1 + 16 * ((|text| + 15) / 16)
      && block[1..1 + |text|] == text
      && (forall i :: 1 + |text| <= i < |block| ==> block[i] == 0)
  {
    var padded := Padded(|text|);
    AssembleShape((padded / 16) % 256, text, padded - |text|);
  }

  /** A block whose unit count fits in a byte describes itself and gives its text back. */
  lemma BlockOfFits(text: seq<byte>)
    requires |text| > 0 && text[|text| - 1] != 0
    requires Padded(|text|) / 16 <= 255
    ensures (BlockOf(text)[0] as int) * 16 == |BlockOf(text)| - 1
    ensures Payload(BlockOf(text)) == Some(text)
  {
    var padded := Padded(|text|);
    var units := padded / 16;
    assert units % 256 == units;
    AssembleShape(units, text, padded - |text|);
    PaddedPayload(text, padded - |text|);
  }

  /** While the padded text is at most 255 units, the length byte describes the block. */
  lemma LengthByte(title: string)
    requires title != ""
    requires Padded(|Encode(StreamText(title))|) / 16 <= 255
    ensures var block := CreateIcyMetadataBlock(title);
      (block[0] as int) * 16 == |block| - 1
    ensures Payload(CreateIcyMetadataBlock(title)) == Some(Encode(StreamText(title)))
  {
    EncodedText(title);
    BlockOfFits(Encode(StreamText(title)));
  }

  /**
   * Past 255 units (a UTF-8 text over 4080 bytes) the stored length byte wraps, no
   * longer matches the block, and a listener cannot read the block.
   */
  lemma LengthByteWraps(title: string)
    requires title != ""
    requires Padded(|Encode(StreamText(title))|) / 16 > 255
    ensures var block := CreateIcyMetadataBlock(title);
      (block[0] as int) * 16 != |block| - 1 && Payload(block) == None
  {
    var text := Encode(StreamText(title));
    var units := Padded(|text|) / 16;
    assert units % 256 < units;
  }

  /** The padded text of a title's block is at most 255 units, so its length byte does not wrap. */
  predicate Fits(title: string) {
    Padded(|Encode(StreamText(title))|) / 16 <= 255
  }

  /**
   * What a listener reads from a title's block: nothing for the empty title, and
   * the embedded text for any other title whose block fits the length byte.
   */
  lemma TitleBlock(title: string)
    ensures title == "" <==> CreateIcyMetadataBlock(title) == [0]
    ensures title != "" && Fits(title) ==> Payload(CreateIcyMetadataBlock(title)) == Some(Encode(StreamText(title)))
  {
    BlockLayout(title);
    if title != "" && Fits(title) {
      LengthByte(title);
    }
  }

  /**
   * `new IcyInterleaver(initialTitle)`: position zero; the default empty title gives
   * the zero block, and any other title whose block fits the length byte is what a
   * listener reads back from the first block.
   */
  function NewInterleaver(initialTitle: string): (i: Interleaver)
    ensures i.Valid() && i.sinceMeta == 0
    ensures initialTitle == "" <==> i.block == [0]
    ensures initialTitle != "" && Fits(initialTitle) ==> Payload(i.block) == Some(Encode(StreamText(initialTitle)))
  {
    TitleBlock(initialTitle);
    Interleaver(0, CreateIcyMetadataBlock(initialTitle))
  }

  /** `updateTitle`: the block changes, the byte counter does not. */
  function UpdateTitle(i: Interleaver, title: string): (r: Interleaver)
    requires i.Valid()
    ensures r.Valid() && r.sinceMeta == i.sinceMeta
    ensures title == "" <==> r.block == [0]
    ensures title != "" && Fits(title) ==> Payload(r.block) == Some(Encode(StreamText(title)))
  {
    TitleBlock(title);
    i.(block := CreateIcyMetadataBlock(title))
  }

  /** `IcyInterleaver.process`, the same interval walk as the newer framer. */
  method Process(s: Interleaver, chunk: seq<byte>) returns (out: seq<byte>, s': Interleaver)
    requires s.Valid()
    ensures s'.Valid() && s'.block == s.block
    ensures s'.sinceMeta == (s.sinceMeta + |chunk|) % MetaInt
    ensures out == Frame(s.block, s.sinceMeta, chunk)
    ensures Unframe(|s.block|, s.sinceMeta, out) == chunk
    ensures |out| == |chunk| + ((s.sinceMeta + |chunk|) / MetaInt) * |s.block|
  {
    out, s' := IcyFraming.Process(s, chunk);
  }
}

=== FILE: interrupt_route.dfy ===
/**
 * The `POST /interrupt` route of the older server: the body is one track or a
 * list of tracks, every track is checked before any is played, and the whole
 * list goes to the engine's `interrupt` at once.
 */
module InterruptRoute {
  import opened Wrappers
  import opened JsText
  import opened Tracks
  import EngineSrc

  /** The JSON body: a single track object or an array of them. */
  datatype Body = One(entry: Entry) | Many(entries: seq<Entry>)

  /** `Array.isArray(body) ? body : [body]`. */
  function TracksOf(body: Body): (r: seq<Entry>)
    ensures body.One? ==> r == [body.entry]
    ensures body.Many? ==> r == body.entries
  {
    match body
    case One(e) => [e]
    case Many(es) => es
  }

  /** The route's check: no type, or a file without a path, or a URL without a URL. */
  predicate Invalid(t: Entry) {
    || !Truthy(t.kind)
    || (t.kind == Some("file") && !Truthy(t.path))
    || (t.kind == Some("url") && !Truthy(t.url))
  }

  /**
   * The route's check passes every track the engine can build, and otherwise only
   * tracks whose type is some other non-empty string.
   */
  lemma CheckVersusBuild(t: Entry, newId: string, resolve: string -> string, tags: string -> Option<Tags>)
    ensures EngineSrc.BuildTrack(t, newId, resolve, tags).Ok? ==> !Invalid(t)
    ensures !Invalid(t) && EngineSrc.BuildTrack(t, newId, resolve, tags).Err? ==>
      Truthy(t.kind) && t.kind != Some("file") && t.kind != Some("url")
  {
  }

  datatype Response = Started(trackCount: nat) | BadRequest(error: string) | ServerError(error: string)

  /** The response, the engine afterwards, and whether the current track was skipped. */
  datatype Handled = Handled(response: Response, engine: EngineSrc.Engine, skip: bool)

  /**
   * The handler: a 400 and no interrupt when any track fails the check; otherwise
   * one `interrupt` with the whole list, answered with the track count, or a 500
   * when the engine could not build a track.
   */
  function Handle(body: Body, e: EngineSrc.Engine, ids: seq<string>, resolve: string -> string, tags: string -> Option<Tags>)
    : (r: Handled)
    requires |ids| >= |TracksOf(body)|
    ensures r.response.BadRequest? <==> exists i :: 0 <= i < |TracksOf(body)| && Invalid(TracksOf(body)[i])
    ensures !r.response.Started? ==> r.engine == e && !r.skip
    ensures r.response.Started? ==>
      && r.response.trackCount == |TracksOf(body)|
      && EngineSrc.BuildAll(TracksOf(body), ids, resolve, tags).Ok?
      && r.engine == e.(interrupts := EngineSrc.BuildAll(TracksOf(body), ids, resolve, tags).value)
      && r.skip
  {
    var tracks := TracksOf(body);
    if exists i :: 0 <= i < |tracks| && Invalid(tracks[i]) then
      Handled(BadRequest("Invalid track: type with path (file) or url (url) required"), e, false)
    else
      match EngineSrc.Interrupt(e, tracks, ids, resolve, tags)
      case Ok(res) => Handled(Started(|tracks|), res.0, res.1)
      case Err(m) => Handled(ServerError(m), e, false)
  }

  /** A list of file and URL tracks is always started in full: one interrupt, every track queued. */
  lemma PlayableListStarts(body: Body, e: EngineSrc.Engine, ids: seq<string>, resolve: string -> string, tags: string -> Option<Tags>)
    requires |ids| >= |TracksOf(body)|
    requires forall i :: 0 <= i < |TracksOf(body)| ==> TracksOf(body)[i].IsFileEntry() || TracksOf(body)[i].IsUrlEntry()
    ensures Handle(body, e, ids, resolve, tags).response == Started(|TracksOf(body)|)
    ensures |Handle(body, e, ids, resolve, tags).engine.interrupts| == |TracksOf(body)|
  {
    var tracks := TracksOf(body);
    forall i | 0 <= i < |tracks|
      ensures !Invalid(tracks[i]) && EngineSrc.BuildTrack(tracks[i], ids[i], resolve, tags).Ok?
    {
      CheckVersusBuild(tracks[i], ids[i], resolve, tags);
    }
  }

  /**
   * A track with an unknown type passes the route's check but not the engine: the
   * request ends in a 500 and nothing is queued.
   */
  lemma UnknownTypeIsServerError(body: Body, e: EngineSrc.Engine, ids: seq<string>, resolve: string -> string, tags: string -> Option<Tags>, k: nat)
    requires |ids| >= |TracksOf(body)|
    requires forall i :: 0 <= i < |TracksOf(body)| ==> !Invalid(TracksOf(body)[i])
    requires k < |TracksOf(body)| && TracksOf(body)[k].kind !in {Some("file"), Some("url")}
    ensures Handle(body, e, ids, resolve, tags).response.ServerError?
    ensures Handle(body, e, ids, resolve, tags).engine == e
  {
    assert EngineSrc.BuildTrack(TracksOf(body)[k], ids[k], resolve, tags).Err?;
  }

  /** An empty list is accepted: one interrupt with no tracks, and the current track is skipped. */
  lemma EmptyListStarts(e: EngineSrc.Engine, ids: seq<string>, resolve: string -> string, tags: string -> Option<Tags>)
    ensures Handle(Many([]), e, ids, resolve, tags) == Handled(Started(0), e.(interrupts := []), true)
  {
  }
}

=== FILE: js_text.dfy ===
/**
 * The handful of JavaScript string semantics the server relies on: truthiness of
 * optional fields, `String.prototype.trim`, `split('\n')`, `indexOf`, ASCII
 * `toLowerCase`, `startsWith`/`endsWith` and `Number()` on decimal text.
 */
module JsText {
  import opened Wrappers

  /** `!!field` for an optional string field: present and not the empty string. */
  predicate Truthy(o: Option<string>) {
    o.Some? && o.value != ""
  }

  /** ECMAScript WhiteSpace and LineTerminator code points, the set `trim` removes. */
  const Spaces: set<char> := {
    '\t', '\n', '\U{000B}', '\U{000C}', '\r', ' ', '\U{00A0}', '\U{1680}',
    '\U{2000}', '\U{2001}', '\U{2002}', '\U{2003}', '\U{2004}', '\U{2005}',
    '\U{2006}', '\U{2007}', '\U{2008}', '\U{2009}', '\U{200A}',
    '\U{2028}', '\U{2029}', '\U{202F}', '\U{205F}', '\U{3000}', '\U{FEFF}'}

  predicate IsSpace(c: char) {
    c in Spaces
  }

  /** `s.trimStart()`: the longest suffix of `s` that does not start with white space. */
  function TrimStart(s: string): (r: string)
    ensures |r| <= |s| && r == s[|s| - |r|..]
    ensures forall i :: 0 <= i < |s| - |r| ==> IsSpace(s[i])
    ensures r == [] || !IsSpace(r[0])
  {
    if |s| == 0 || !IsSpace(s[0]) then s else TrimStart(s[1..])
  }

  /** `s.trimEnd()`: the longest prefix of `s` that does not end with white space. */
  function TrimEnd(s: string): (r: string)
    ensures |r| <= |s| && r == s[..|r|]
    ensures forall i :: |r| <= i < |s| ==> IsSpace(s[i])
    ensures r == [] || !IsSpace(r[|r| - 1])
  {
    if |s| == 0 || !IsSpace(s[|s| - 1]) then s else TrimEnd(s[..|s| - 1])
  }

  /** `s.trim()`. */
  function Trim(s: string): (r: string)
    ensures r == [] || (!IsSpace(r[0]) && !IsSpace(r[|r| - 1]))
    ensures |r| <= |s|
  {
    TrimEnd(TrimStart(s))
  }

  /** The trimmed text is the run of `s` that starts after the leading white space. */
  lemma TrimSlice(s: string)
    ensures var lead := |s| - |TrimStart(s)|;
      lead + |Trim(s)| <= |s| && Trim(s) == s[lead..lead + |Trim(s)|]
  {
    var t := TrimStart(s);
    var lead := |s| - |t|;
    var r := TrimEnd(t);
    assert Trim(s) == r;
    assert t == s[lead..];
    assert r == t[..|r|];
    assert s[lead..][..|r|] == s[lead..lead + |r|];
  }

  /** `c.toLowerCase()` restricted to the ASCII letters. */
  function LowerChar(c: char): char {
    if 'A' <= c <= 'Z' then (c as int + 32) as char else c
  }

  /** `s.toLowerCase()` restricted to the ASCII letters. */
  function Lower(s: string): (r: string)
    ensures |r| == |s|
    ensures forall i :: 0 <= i < |s| ==> r[i] == LowerChar(s[i])
  {
    seq(|s|, i requires 0 <= i < |s| => LowerChar(s[i]))
  }

  /** `s.indexOf(c)`: the first position of `c` in `s`, or `None` for -1. */
  function IndexOf(s: string, c: char): (r: Option<nat>)
    ensures r.None? <==> c !in s
    ensures r.Some? ==> r.value < |s| && s[r.value] == c && c !in s[..r.value]
  {
    if |s| == 0 then None
    else if s[0] == c then Some(0)
    else
      match IndexOf(s[1..], c)
      case None => None
      case Some(k) =>
        assert s[..k + 1] == [s[0]] + s[1..][..k];
        Some(k + 1)
  }

  /** `s.split(sep)` for a one-character separator: the pieces between separators, in order. */
  function Split(s: string, sep: char): (pieces: seq<string>)
    ensures |pieces| >= 1
    ensures forall i :: 0 <= i < |pieces| ==> sep !in pieces[i]
    decreases |s|
  {
    match IndexOf(s, sep)
    case None => [s]
    case Some(k) => [s[..k]] + Split(s[k + 1..], sep)
  }

  /** `pieces.join(sep)`. */
  function Join(pieces: seq<string>, sep: char): string
    requires |pieces| >= 1
  {
    if |pieces| == 1 then pieces[0] else pieces[0] + [sep] + Join(pieces[1..], sep)
  }

  /** Splitting and joining again on the same separator gives the text back. */
  lemma {:induction false} SplitJoin(s: string, sep: char)
    ensures Join(Split(s, sep), sep) == s
    decreases |s|
  {
    match IndexOf(s, sep)
    case None =>
    case Some(k) =>
      SplitJoin(s[k + 1..], sep);
      assert Split(s, sep) == [s[..k]] + Split(s[k + 1..], sep);
      assert s == s[..k] + [sep] + s[k + 1..];
  }

  /** Joining pieces free of the separator and splitting again gives the pieces back. */
  lemma {:induction false} JoinSplit(pieces: seq<string>, sep: char)
    requires |pieces| >= 1
    requires forall i :: 0 <= i < |pieces| ==> sep !in pieces[i]
    ensures Split(Join(pieces, sep), sep) == pieces
    decreases |pieces|
  {
    var s := Join(pieces, sep);
    if |pieces| == 1 {
      assert IndexOf(s, sep).None?;
    } else {
      var p := pieces[0];
      var t := Join(pieces[1..], sep);
      assert s == p + [sep] + t;
      IndexOfAfter(p, sep, t);
      assert s[|p| + 1..] == t;
      JoinSplit(pieces[1..], sep);
      assert Split(s, sep) == [p] + pieces[1..];
    }
  }

  /** The first `sep` after a separator-free prefix is the one right after it. */
  lemma IndexOfAfter(p: string, sep: char, t: string)
    requires sep !in p
    ensures IndexOf(p + [sep] + t, sep) == Some(|p|)
    ensures (p + [sep] + t)[..|p|] == p
  {
    var s := p + [sep] + t;
    assert s[|p|] == sep;
    assert s[..|p|] == p;
    assert s[..|p| + 1] == p + [sep];
  }

  /** Text with no white space at either end is its own `trim()`. */
  lemma TrimNoop(s: string)
    requires s == [] || (!IsSpace(s[0]) && !IsSpace(s[|s| - 1]))
    ensures Trim(s) == s
  {
  }

  /** `(" " + v).trim()` is `v` for a trimmed `v`. */
  lemma TrimAfterSpace(v: string)
    requires v == [] || (!IsSpace(v[0]) && !IsSpace(v[|v| - 1]))
    ensures Trim(" " + v) == v
  {
    var s := " " + v;
    assert s[0] == ' ' && IsSpace(' ');
    assert s[1..] == v;
    assert TrimStart(s) == TrimStart(v);
    TrimNoop(v);
  }

  predicate StartsWith(s: string, prefix: string) {
    |prefix| <= |s| && s[..|prefix|] == prefix
  }

  predicate EndsWith(s: string, suffix: string) {
    |suffix| <= |s| && s[|s| - |suffix|..] == suffix
  }

  predicate IsDigit(c: char) {
    '0' <= c <= '9'
  }

  /** The value of one decimal digit. */
  function DigitValue(c: char): nat
    requires IsDigit(c)
  {
    c as int - '0' as int
  }

  function Pow10(k: nat): nat {
    if k == 0 then 1 else 10 * Pow10(k - 1)
  }

  /**
   * The value of a run of decimal digits, read left to right: the leading digit
   * counts `10^(|s|-1)` times and the rest is read the same way, so the value has
   * no more than `|s|` digits.
   */
  function DecimalValue(s: string): (n: nat)
    requires forall i :: 0 <= i < |s| ==> IsDigit(s[i])
    ensures n < Pow10(|s|)
    ensures |s| > 0 ==> n == DigitValue(s[0]) * Pow10(|s| - 1) + DecimalValue(s[1..])
    decreases |s|
  {
    if |s| == 0 then 0
    else
      var init := s[..|s| - 1];
      assert IsDigit(s[|s| - 1]);
      var n := 10 * DecimalValue(init) + DigitValue(s[|s| - 1]);
      if |s| == 1 then n
      else
        assert init[1..] == s[1..][..|s| - 2];
        ShiftDigit(DigitValue(s[0]), Pow10(|s| - 2), DecimalValue(init[1..]), DigitValue(s[|s| - 1]));
        n
  }

  /** Appending a digit on the right multiplies the value so far by ten. */
  lemma ShiftDigit(lead: int, p: int, rest: int, last: int)
    ensures 10 * (lead * p + rest) + last == lead * (10 * p) + (10 * rest + last)
  {
  }

  /**
   * `Number(v)` for an optional field, on the forms the model covers: absent is NaN
   * (`None`), all-blank text is 0, trimmed decimal digits are their value, and
   * everything else is NaN.
   */
  function NumberOf(v: Option<string>): (r: Option<nat>)
    ensures v.None? ==> r.None?
    ensures v.Some? && Trim(v.value) == "" ==> r == Some(0)
  {
    match v
    case None => None
    case Some(s) =>
      var t := Trim(s);
      if t == "" then Some(0)
      else if forall i :: 0 <= i < |t| ==> IsDigit(t[i]) then Some(DecimalValue(t))
      else None
  }
}

=== FILE: pacing_dist.dfy ===
/**
 * Rate control of the newer engine's sender: the wait before each chunk (exact
 * arithmetic on reals, milliseconds) and the sender itself as a state machine
 * over data, delivery, abort and error events.
 */
module PacingDist {
  import opened Wrappers
  import opened Utf8
  import opened Sequences

  const BitrateKbps: nat := 128
  /** `(BITRATE_KBPS * 1000) / 8`. */
  const BytesPerSecond: real := 16000.0
  /** `MAX_RATE_DELAY_MS`: no single wait is longer than this. */
  const MaxRateDelayMs: real := 1000.0

  /** When, in milliseconds after the track started, `total` bytes are due. */
  function ExpectedMs(total: nat): (r: real)
    ensures r == total as real / 16.0
  {
    (total as real / BytesPerSecond) * 1000.0
  }

  /**
   * The wait before broadcasting a chunk that brings the running total to `total`,
   * `elapsedMs` after the start: nothing for the first chunk; otherwise the lag behind
   * schedule, capped at one second, and nothing when on or behind schedule.
   */
  function Delay(total: nat, elapsedMs: real, first: bool): (d: real)
    ensures 0.0 <= d <= MaxRateDelayMs
    ensures first ==> d == 0.0
    ensures !first && ExpectedMs(total) > elapsedMs ==> d > 0.0
    ensures d > 0.0 ==> elapsedMs + d <= ExpectedMs(total)
    ensures d > 0.0 && d < MaxRateDelayMs ==> elapsedMs + d == ExpectedMs(total)
  {
    var delay := ExpectedMs(total) - elapsedMs;
    if first then 0.0
    else if delay > 0.0 then (if delay < MaxRateDelayMs then delay else MaxRateDelayMs)
    else 0.0
  }

  /**
   * The sender of one track: queued chunks, the chunk being sent (at most one), the
   * running byte total, whether the first chunk is still to come, the abort flag,
   * what was broadcast, what arrived from the file, and the waits chosen.
   */
  datatype Sender = Sender(
    queue: seq<seq<byte>>,
    inFlight: Option<seq<byte>>,
    total: nat,
    first: bool,
    aborted: bool,
    broadcast: seq<seq<byte>>,
    arrived: seq<seq<byte>>,
    delays: seq<real>)
  {
    /** The chunks not dropped, in the order they will go out. */
    function Outgoing(): seq<seq<byte>> {
      broadcast + (if inFlight.Some? then [inFlight.value] else []) + queue
    }

    /**
     * Chunks go out in arrival order (some may be dropped), and the sender never idles
     * while chunks wait, unless the track was aborted.
     */
    predicate Valid() {
      && Subsequence(Outgoing(), arrived)
      && (inFlight.None? && |queue| > 0 ==> aborted)
      && (forall k :: 0 <= k < |delays| ==> 0.0 <= delays[k] <= MaxRateDelayMs)
    }
  }

  /** A new track's sender. */
  const Fresh: Sender := Sender([], None, 0, true, false, [], [], [])

  datatype Event = Data(chunk: seq<byte>) | Delivered | Abort | StreamError

  /** `sendNextChunk`: when idle, not aborted and something is queued, take the head and choose its wait. */
  function SendNext(s: Sender, now: real): (r: Sender)
    ensures r.broadcast == s.broadcast && r.arrived == s.arrived && r.aborted == s.aborted
    ensures r.Outgoing() == s.Outgoing()
    ensures s.inFlight.None? && |s.queue| > 0 && !s.aborted ==> r.inFlight == Some(s.queue[0])
    ensures s.inFlight.Some? || s.aborted || |s.queue| == 0 ==> r == s
    ensures |r.delays| >= |s.delays| && r.delays[..|s.delays|] == s.delays
    ensures forall k :: |s.delays| <= k < |r.delays| ==> 0.0 <= r.delays[k] <= MaxRateDelayMs
  {
    if s.inFlight.Some? || |s.queue| == 0 || s.aborted then s
    else
      var buf := s.queue[0];
      var total := s.total + |buf|;
      var r := s.(queue := s.queue[1..], inFlight := Some(buf), total := total, first := false,
                  delays := s.delays + [Delay(total, now, s.first)]);
      assert s.queue == [buf] + s.queue[1..];
      r
  }

  /**
   * One event at `now` ms after the track started: a data chunk is ignored after
   * abort and otherwise queued; a delivery broadcasts the chunk in flight unless
   * aborted meanwhile and moves on; a stream error drops everything queued.
   */
  function Step(s: Sender, ev: Event, now: real): (r: Sender)
  {
    match ev
    case Data(chunk) =>
      if s.aborted then s.(arrived := s.arrived + [chunk])
      else SendNext(s.(queue := s.queue + [chunk], arrived := s.arrived + [chunk]), now)
    case Delivered =>
      if s.inFlight.None? then s
      else
        var sent := if s.aborted then s.broadcast else s.broadcast + [s.inFlight.value];
        SendNext(s.(inFlight := None, broadcast := sent), now)
    case Abort => s.(aborted := true)
    case StreamError => s.(queue := [])
  }

  /** Every event keeps the sender valid, and after an abort nothing more is broadcast. */
  lemma StepValid(s: Sender, ev: Event, now: real)
    requires s.Valid()
    ensures Step(s, ev, now).Valid()
    ensures |Step(s, ev, now).broadcast| >= |s.broadcast|
    ensures Step(s, ev, now).broadcast[..|s.broadcast|] == s.broadcast
    ensures s.aborted ==> Step(s, ev, now).aborted && Step(s, ev, now).broadcast == s.broadcast
  {
    match ev
    case Data(chunk) => DataValid(s, chunk, now);
    case Delivered => DeliveredValid(s, now);
    case Abort =>
    case StreamError => ErrorValid(s);
  }

  /** A data chunk is recorded as arrived and, unless aborted, queued behind the rest. */
  lemma DataValid(s: Sender, chunk: seq<byte>, now: real)
    requires s.Valid()
    ensures Step(s, Data(chunk), now).Valid()
    ensures Step(s, Data(chunk), now).broadcast == s.broadcast
  {
    if s.aborted {
      SubsequenceExtend(s.Outgoing(), s.arrived, chunk);
    } else {
      var s1 := s.(queue := s.queue + [chunk], arrived := s.arrived + [chunk]);
      assert s1.Outgoing() == s.Outgoing() + [chunk];
      SubsequenceSnoc(s.Outgoing(), s.arrived, chunk);
    }
  }

  /** A delivery appends the chunk in flight to the broadcast, or drops it after an abort. */
  lemma DeliveredValid(s: Sender, now: real)
    requires s.Valid()
    ensures Step(s, Delivered, now).Valid()
    ensures |Step(s, Delivered, now).broadcast| >= |s.broadcast|
    ensures Step(s, Delivered, now).broadcast[..|s.broadcast|] == s.broadcast
    ensures s.aborted ==> Step(s, Delivered, now).broadcast == s.broadcast
  {
    if s.inFlight.Some? {
      var c := s.inFlight.value;
      var sent := if s.aborted then s.broadcast else s.broadcast + [c];
      var s1 := s.(inFlight := None, broadcast := sent);
      assert s.Outgoing() == s.broadcast + [c] + s.queue;
      if s.aborted {
        assert s1.Outgoing() == s.broadcast + s.queue;
        SubsequenceDrop(s.broadcast, c, s.queue, s.arrived);
      } else {
        assert s1.Outgoing() == s.Outgoing();
      }
    }
  }

  /** A stream error empties the queue; what remains is still in arrival order. */
  lemma ErrorValid(s: Sender)
    requires s.Valid()
    ensures Step(s, StreamError, 0.0).Valid()
  {
    var s1 := s.(queue := []);
    assert s1.Outgoing() + s.queue == s.Outgoing();
    SubsequencePrefix(s1.Outgoing(), s.queue, s.arrived);
  }

  /** Events applied in order, each with its time. */
  function Run(s: Sender, evs: seq<(Event, real)>): (r: Sender)
    decreases |evs|
  {
    if |evs| == 0 then s else Run(Step(s, evs[0].0, evs[0].1), evs[1..])
  }

  /**
   * Over any sequence of events the sender broadcasts a sub-sequence of the arrived
   * chunks in arrival order, never idles with work waiting unless aborted, waits at
   * most a second per chunk, and broadcasts nothing once aborted.
   */
  lemma {:induction false} RunValid(s: Sender, evs: seq<(Event, real)>)
    requires s.Valid()
    ensures Run(s, evs).Valid()
    ensures Subsequence(Run(s, evs).broadcast, Run(s, evs).arrived)
    ensures s.aborted ==> Run(s, evs).broadcast == s.broadcast
    decreases |evs|
  {
    if |evs| == 0 {
      var rest := (if s.inFlight.Some? then [s.inFlight.value] else []) + s.queue;
      assert s.broadcast + rest == s.Outgoing();
      SubsequencePrefix(s.broadcast, rest, s.arrived);
    } else {
      StepValid(s, evs[0].0, evs[0].1);
      RunValid(Step(s, evs[0].0, evs[0].1), evs[1..]);
    }
  }

  /** A fresh sender is valid, so every run from it keeps the guarantees above. */
  lemma FreshValid()
    ensures Fresh.Valid()
  {
    SubsequenceEmpty<seq<byte>>([]);
  }
}

=== FILE: schedule_dist.dfy ===
/**
 * The newer schedule store: programs that each carry a list of tracks, the
 * migration of the legacy single-`track` form on load, last-write-wins on an
 * identical cron expression, the per-program cron jobs, and the `cached` flags of
 * the programs' URL tracks. Cron validity is the uninterpreted predicate `valid`.
 */
module ScheduleDist {
  import opened Wrappers
  import opened JsText
  import opened Tracks
  import opened Downloads
  import CatalogDist
  import EngineDist
  import CronJobs
  import Sequences

  datatype Program = Program(id: string, name: string, cron: string, tracks: seq<Entry>, enabled: bool)

  /** The schedule: programs in file order and the ids that have a registered cron job. */
  datatype Schedule = Schedule(programs: seq<Program>, jobs: set<string>)

  /** `type === 'url' && url && id`: a URL track whose cache the store checks. */
  predicate Fetchable(t: Entry) {
    t.IsUrlEntry() && Truthy(t.id)
  }

  /** `type === 'url' && id`: a URL track whose cache the store deletes. */
  predicate HasUrlId(t: Entry) {
    t.kind == Some("url") && Truthy(t.id)
  }

  /** The outcome of `cacheUrlTracksBackground`: updated tracks, the downloads asked for, and the change flag. */
  datatype CacheCheck = CacheCheck(tracks: seq<Entry>, requests: seq<Item>, changed: bool)

  /** One track after the cache check: a fetchable track's flag records whether its file exists. */
  function Refresh(t: Entry, cache: CacheDir): Entry {
    if Fetchable(t) then t.(cached := Some(IsCached(cache, t.id.value))) else t
  }

  /**
   * `cacheUrlTracksBackground(tracks)`: every fetchable track's `cached` flag is set
   * to whether its cache file exists, an uncached one is handed to the download
   * coordinator with a completion callback, and the result says whether any flag
   * was not already exactly that boolean.
   */
  function CacheUrlTracks(tracks: seq<Entry>, cache: CacheDir): (r: CacheCheck)
    ensures |r.tracks| == |tracks|
    ensures forall i :: 0 <= i < |tracks| ==> r.tracks[i] == Refresh(tracks[i], cache)
    decreases |tracks|
  {
    if |tracks| == 0 then CacheCheck([], [], false)
    else
      var t := tracks[0];
      var rest := CacheUrlTracks(tracks[1..], cache);
      if Fetchable(t) then
        var hit := IsCached(cache, t.id.value);
        CacheCheck([t.(cached := Some(hit))] + rest.tracks,
          (if hit then [] else [Item(t.url.value, t.id.value, true)]) + rest.requests,
          t.cached != Some(hit) || rest.changed)
      else
        CacheCheck([t] + rest.tracks, rest.requests, rest.changed)
  }

  /** A fetchable track whose flag disagrees with the cache directory. */
  predicate Stale(t: Entry, cache: CacheDir) {
    Fetchable(t) && t.cached != Some(IsCached(cache, t.id.value))
  }

  /** A fetchable track without a cache file. */
  predicate Missing(t: Entry, cache: CacheDir) {
    Fetchable(t) && !IsCached(cache, t.id.value)
  }

  /**
   * The change flag is raised exactly when some flag was stale, and the downloads
   * asked for are exactly the uncached fetchable tracks, each once per occurrence.
   */
  lemma CacheUrlTracksReports(tracks: seq<Entry>, cache: CacheDir)
    ensures CacheUrlTracks(tracks, cache).changed <==> exists i :: 0 <= i < |tracks| && Stale(tracks[i], cache)
    ensures forall x :: x in CacheUrlTracks(tracks, cache).requests <==>
      exists i :: 0 <= i < |tracks| && Missing(tracks[i], cache) && x == Item(tracks[i].url.value, tracks[i].id.value, true)
  {
    CacheUrlTracksChanged(tracks, cache);
    CacheUrlTracksAsked(tracks, cache);
    CacheUrlTracksAskedAll(tracks, cache);
  }

  /** Every checked track that still lacks its cache file has its download asked for. */
  lemma CheckAsks(tracks: seq<Entry>, cache: CacheDir)
    ensures var check := CacheUrlTracks(tracks, cache);
      forall i :: 0 <= i < |check.tracks| && Missing(check.tracks[i], cache) ==>
        Item(check.tracks[i].url.value, check.tracks[i].id.value, true) in check.requests
  {
    var check := CacheUrlTracks(tracks, cache);
    CacheUrlTracksAskedAll(tracks, cache);
    forall i | 0 <= i < |check.tracks| && Missing(check.tracks[i], cache)
      ensures Item(check.tracks[i].url.value, check.tracks[i].id.value, true) in check.requests
    {
      assert check.tracks[i] == Refresh(tracks[i], cache);
    }
  }

  /** Every track lacking its cache file has its id pending in the coordinator. */
  predicate Submitted(tracks: seq<Entry>, cache: CacheDir, d: Coordinator) {
    forall i :: 0 <= i < |tracks| && Missing(tracks[i], cache) ==> tracks[i].id.value in d.pending
  }

  /** Handing the checked tracks' downloads to the coordinator submits every missing one. */
  lemma CheckSubmits(tracks: seq<Entry>, cache: CacheDir, d: Coordinator)
    requires d.Valid()
    ensures var check := CacheUrlTracks(tracks, cache);
      Submitted(check.tracks, cache, StartEach(d, cache, check.requests))
  {
    CheckAsks(tracks, cache);
  }

  lemma {:induction false} CacheUrlTracksChanged(tracks: seq<Entry>, cache: CacheDir)
    ensures CacheUrlTracks(tracks, cache).changed <==> exists i :: 0 <= i < |tracks| && Stale(tracks[i], cache)
    decreases |tracks|
  {
    if |tracks| > 0 {
      var rest := tracks[1..];
      CacheUrlTracksChanged(rest, cache);
      assert forall i :: 1 <= i < |tracks| ==> tracks[i] == rest[i - 1];
      if exists i :: 0 <= i < |tracks| && Stale(tracks[i], cache) {
        var i :| 0 <= i < |tracks| && Stale(tracks[i], cache);
        if i > 0 {
          assert Stale(rest[i - 1], cache);
        }
      }
    }
  }

  /** Every download asked for belongs to an uncached fetchable track. */
  lemma {:induction false} CacheUrlTracksAsked(tracks: seq<Entry>, cache: CacheDir)
    ensures forall x :: x in CacheUrlTracks(tracks, cache).requests ==>
      exists i :: 0 <= i < |tracks| && Missing(tracks[i], cache) && x == Item(tracks[i].url.value, tracks[i].id.value, true)
    decreases |tracks|
  {
    if |tracks| > 0 {
      var rest := tracks[1..];
      CacheUrlTracksAsked(rest, cache);
      forall x | x in CacheUrlTracks(tracks, cache).requests
        ensures exists i :: 0 <= i < |tracks| && Missing(tracks[i], cache) && x == Item(tracks[i].url.value, tracks[i].id.value, true)
      {
        if x !in CacheUrlTracks(rest, cache).requests {
          assert Missing(tracks[0], cache) && x == Item(tracks[0].url.value, tracks[0].id.value, true);
        } else {
          var i :| 0 <= i < |rest| && Missing(rest[i], cache) && x == Item(rest[i].url.value, rest[i].id.value, true);
          assert tracks[i + 1] == rest[i];
        }
      }
    }
  }

  /** Every uncached fetchable track has its download asked for. */
  lemma {:induction false} CacheUrlTracksAskedAll(tracks: seq<Entry>, cache: CacheDir)
    ensures forall i :: 0 <= i < |tracks| && Missing(tracks[i], cache) ==>
      Item(tracks[i].url.value, tracks[i].id.value, true) in CacheUrlTracks(tracks, cache).requests
    decreases |tracks|
  {
    if |tracks| > 0 {
      var rest := tracks[1..];
      CacheUrlTracksAskedAll(rest, cache);
      forall i | 0 <= i < |tracks| && Missing(tracks[i], cache)
        ensures Item(tracks[i].url.value, tracks[i].id.value, true) in CacheUrlTracks(tracks, cache).requests
      {
        if i > 0 {
          assert tracks[i] == rest[i - 1];
        }
      }
    }
  }

  /** Running the cache check a second time finds nothing to change. */
  lemma CacheUrlTracksSettles(tracks: seq<Entry>, cache: CacheDir)
    ensures !CacheUrlTracks(CacheUrlTracks(tracks, cache).tracks, cache).changed
  {
    var once := CacheUrlTracks(tracks, cache).tracks;
    CacheUrlTracksReports(once, cache);
    forall i | 0 <= i < |once|
      ensures !Stale(once[i], cache)
    {
      assert Fetchable(once[i]) <==> Fetchable(tracks[i]);
    }
  }

  /** The ids of the URL tracks whose caches `deleteCacheForTracks` clears. */
  function UrlIds(tracks: seq<Entry>): set<string>
    decreases |tracks|
  {
    if |tracks| == 0 then {}
    else (if HasUrlId(tracks[0]) then {tracks[0].id.value} else {}) + UrlIds(tracks[1..])
  }

  /** `f` is the cache file `${id}.mp3` of some id in `ids`. */
  predicate CacheFileOf(f: string, ids: set<string>) {
    |f| >= 4 && f[|f| - 4..] == ".mp3" && f[..|f| - 4] in ids
  }

  lemma CacheFileNameParts(f: string, id: string)
    ensures f == CacheFileName(id) <==> |f| >= 4 && f[|f| - 4..] == ".mp3" && f[..|f| - 4] == id
  {
    if |f| >= 4 && f[|f| - 4..] == ".mp3" && f[..|f| - 4] == id {
      assert f == f[..|f| - 4] + f[|f| - 4..];
    }
  }

  /** What `deleteCacheForTracks` leaves behind. */
  datatype Deletion = Deletion(tracks: seq<Entry>, cache: CacheDir, downloads: Coordinator)

  /**
   * `deleteCacheForTracks(tracks)`: for each URL track with an id, cancel its queued
   * download, delete its cache file and set `cached` to false. The running download
   * and every other file are left alone.
   */
  function DeleteCacheForTracks(tracks: seq<Entry>, cache: CacheDir, d: Coordinator): (r: Deletion)
    ensures |r.tracks| == |tracks|
    ensures forall i :: 0 <= i < |tracks| ==>
      r.tracks[i] == if HasUrlId(tracks[i]) then tracks[i].(cached := Some(false)) else tracks[i]
    ensures r.downloads.active == d.active
    decreases |tracks|
  {
    if |tracks| == 0 then Deletion([], cache, d)
    else
      var t := tracks[0];
      if HasUrlId(t) then
        var id := t.id.value;
        var c1 := DeleteCacheFile(cache, id);
        var rest := DeleteCacheForTracks(tracks[1..], c1, CancelPendingDownload(d, id));
        Deletion([t.(cached := Some(false))] + rest.tracks, rest.cache, rest.downloads)
      else
        var rest := DeleteCacheForTracks(tracks[1..], cache, d);
        Deletion([t] + rest.tracks, rest.cache, rest.downloads)
  }

  /**
   * Exactly the cache files `${id}.mp3` of the tracks' URL ids are deleted (other
   * files keep their sizes), and exactly those ids lose their pending mark and
   * their queued downloads.
   */
  lemma {:induction false} DeletionEffects(tracks: seq<Entry>, cache: CacheDir, d: Coordinator)
    ensures var r := DeleteCacheForTracks(tracks, cache, d);
      && (forall f :: f in r.cache <==> f in cache && !CacheFileOf(f, UrlIds(tracks)))
      && (forall f :: f in r.cache ==> r.cache[f] == cache[f])
      && r.downloads.pending == d.pending - UrlIds(tracks)
      && (forall x :: x in r.downloads.queue <==> x in d.queue && x.id !in UrlIds(tracks))
    decreases |tracks|
  {
    if |tracks| > 0 {
      var t := tracks[0];
      if HasUrlId(t) {
        var id := t.id.value;
        var c1 := DeleteCacheFile(cache, id);
        var d1 := CancelPendingDownload(d, id);
        DeletionEffects(tracks[1..], c1, d1);
        assert UrlIds(tracks) == {id} + UrlIds(tracks[1..]);
        forall f
          ensures f in DeleteCacheForTracks(tracks, cache, d).cache <==> f in cache && !CacheFileOf(f, UrlIds(tracks))
        {
          CacheFileNameParts(f, id);
        }
      } else {
        DeletionEffects(tracks[1..], cache, d);
      }
    }
  }

  /** After the deletion none of the tracks' ids is cached any more. */
  lemma DeletionUncaches(tracks: seq<Entry>, cache: CacheDir, d: Coordinator, i: nat)
    requires i < |tracks| && HasUrlId(tracks[i])
    ensures !IsCached(DeleteCacheForTracks(tracks, cache, d).cache, tracks[i].id.value)
    ensures tracks[i].id.value !in DeleteCacheForTracks(tracks, cache, d).downloads.pending
  {
    UrlIdsMember(tracks, i);
    DeletionEffects(tracks, cache, d);
    var id := tracks[i].id.value;
    CacheFileNameParts(CacheFileName(id), id);
  }

  lemma {:induction false} UrlIdsMember(tracks: seq<Entry>, i: nat)
    requires i < |tracks| && HasUrlId(tracks[i])
    ensures tracks[i].id.value in UrlIds(tracks)
    decreases i
  {
    if i > 0 {
      UrlIdsMember(tracks[1..], i - 1);
    }
  }

  /** `findIndex(p => p.cron === cron)`. */
  function FindCron(programs: seq<Program>, cron: string): (r: Option<nat>)
    ensures r.None? <==> forall k :: 0 <= k < |programs| ==> programs[k].cron != cron
    ensures r.Some? ==> (r.value < |programs| && programs[r.value].cron == cron
      && forall k :: 0 <= k < r.value ==> programs[k].cron != cron)
  {
    Sequences.FindFirst(programs, (p: Program) => p.cron == cron)
  }

  /** `findIndex(p => p.id === id)`. */
  function FindProgram(programs: seq<Program>, id: string): (r: Option<nat>)
    ensures r.None? <==> forall k :: 0 <= k < |programs| ==> programs[k].id != id
    ensures r.Some? ==> (r.value < |programs| && programs[r.value].id == id
      && forall k :: 0 <= k < r.value ==> programs[k].id != id)
  {
    Sequences.FindFirst(programs, (p: Program) => p.id == id)
  }

  /** `registerJob` creates a job only for an enabled program with a valid cron expression. */
  predicate Registers(p: Program, valid: string -> bool) {
    p.enabled && valid(p.cron)
  }

  function JobId(p: Program): string {
    p.id
  }

  function On(valid: string -> bool): Program -> bool {
    p => Registers(p, valid)
  }

  /** The ids that ought to have a job. */
  function ExpectedJobs(programs: seq<Program>, valid: string -> bool): set<string> {
    CronJobs.Expected(programs, JobId, On(valid))
  }

  function RegisterJob(jobs: set<string>, p: Program, valid: string -> bool): set<string> {
    CronJobs.Register(jobs, p, JobId, On(valid))
  }

  predicate UniqueIds(programs: seq<Program>) {
    CronJobs.UniqueIds(programs, JobId)
  }

  /** The store invariant: ids are unique and the jobs are exactly the expected ones. */
  predicate Consistent(s: Schedule, valid: string -> bool) {
    UniqueIds(s.programs) && s.jobs == ExpectedJobs(s.programs, valid)
  }

  /** The input of `addProgram`; `enabled` may be omitted. */
  datatype ProgramInput = ProgramInput(name: string, cron: string, tracks: seq<Entry>, enabled: Option<bool>)

  /**
   * The state after a successful change: schedule, cache directory, coordinator
   * (with the downloads asked for already handed to it) and those downloads.
   */
  datatype Change = Change(schedule: Schedule, cache: CacheDir, downloads: Coordinator, requests: seq<Item>)

  /**
   * `addProgram(input)`: an invalid cron expression is refused before anything
   * changes. Id-less tracks get ids. A program with the same cron expression is
   * overwritten in place, keeping its id (its URL caches are deleted and its job
   * replaced); otherwise a program with the fresh id `newId` is appended. `enabled`
   * defaults to true. The new tracks' missing cache files are handed to the
   * coordinator as background downloads.
   */
  function AddProgram(s: Schedule, input: ProgramInput, newId: string, trackIds: seq<string>,
                      cache: CacheDir, d: Coordinator, valid: string -> bool): (r: Result<Change>)
    requires |trackIds| >= MissingIds(input.tracks) && d.Valid()
    ensures r.Err? <==> !valid(input.cron)
    ensures r.Ok? ==> var ps := r.value.schedule.programs;
      var k := FindCron(s.programs, input.cron);
      && (k.Some? ==> (|ps| == |s.programs| && ps[k.value].id == s.programs[k.value].id
            && forall j :: 0 <= j < |ps| && j != k.value ==> ps[j] == s.programs[j]))
      && (k.None? ==> (|ps| == |s.programs| + 1 && ps[..|s.programs|] == s.programs && ps[|s.programs|].id == newId))
    ensures r.Ok? ==>
      var k := FindCron(s.programs, input.cron);
      var j := if k.Some? then k.value else |s.programs|;
      && j < |r.value.schedule.programs|
      && var p := r.value.schedule.programs[j];
      && p.name == input.name && p.cron == input.cron && p.enabled == input.enabled.GetOr(true)
      && |p.tracks| == |input.tracks|
      && (p.enabled ==> p.id in r.value.schedule.jobs)
      && (k.Some? && !p.enabled ==> p.id !in r.value.schedule.jobs)
      && (forall x :: x != p.id ==> (x in r.value.schedule.jobs <==> x in s.jobs))
    ensures r.Ok? ==>
      var k := FindCron(s.programs, input.cron);
      var j := if k.Some? then k.value else |s.programs|;
      var del := if k.Some? then DeleteCacheForTracks(s.programs[k.value].tracks, cache, d) else Deletion([], cache, d);
      var check := CacheUrlTracks(AssignIds(input.tracks, trackIds), del.cache);
      && j < |r.value.schedule.programs|
      && r.value.schedule.programs[j].tracks == check.tracks
      && r.value.cache == del.cache && r.value.downloads == StartEach(del.downloads, del.cache, check.requests)
      && r.value.requests == check.requests
    ensures r.Ok? ==>
      var k := FindCron(s.programs, input.cron);
      var j := if k.Some? then k.value else |s.programs|;
      && j < |r.value.schedule.programs|
      && var p := r.value.schedule.programs[j];
      && r.value.downloads.Valid()
      && Submitted(p.tracks, r.value.cache, r.value.downloads)
  {
    if !valid(input.cron) then Err("Invalid cron expression: " + input.cron)
    else
      var withIds := AssignIds(input.tracks, trackIds);
      var enabled := input.enabled.GetOr(true);
      match FindCron(s.programs, input.cron)
      case Some(k) =>
        var existing := s.programs[k];
        var del := DeleteCacheForTracks(existing.tracks, cache, d);
        var check := CacheUrlTracks(withIds, del.cache);
        CheckSubmits(withIds, del.cache, del.downloads);
        var p := Program(existing.id, input.name, input.cron, check.tracks, enabled);
        var jobs := RegisterJob(s.jobs - {existing.id}, p, valid);
        Ok(Change(Schedule(s.programs[k := p], jobs), del.cache, StartEach(del.downloads, del.cache, check.requests), check.requests))
      case None =>
        var check := CacheUrlTracks(withIds, cache);
        CheckSubmits(withIds, cache, d);
        var p := Program(newId, input.name, input.cron, check.tracks, enabled);
        var ps := s.programs + [p];
        assert ps[|s.programs|] == p;
        Ok(Change(Schedule(ps, RegisterJob(s.jobs, p, valid)), cache, StartEach(d, cache, check.requests), check.requests))
  }

  /**
   * `addProgram` keeps the store consistent: ids stay unique (given a fresh id not
   * yet in use) and the registered jobs remain exactly the enabled programs with
   * valid cron expressions.
   */
  lemma AddKeepsConsistent(s: Schedule, input: ProgramInput, newId: string, trackIds: seq<string>,
                           cache: CacheDir, d: Coordinator, valid: string -> bool)
    requires |trackIds| >= MissingIds(input.tracks) && d.Valid()
    requires Consistent(s, valid) && forall q :: q in s.programs ==> q.id != newId
    requires AddProgram(s, input, newId, trackIds, cache, d, valid).Ok?
    ensures Consistent(AddProgram(s, input, newId, trackIds, cache, d, valid).value.schedule, valid)
  {
    var r := AddProgram(s, input, newId, trackIds, cache, d, valid).value.schedule;
    match FindCron(s.programs, input.cron)
    case Some(k) =>
      CronJobs.Replace(s.programs, k, r.programs[k], JobId, On(valid));
      assert r.programs == s.programs[k := r.programs[k]];
    case None =>
      var p := r.programs[|s.programs|];
      CronJobs.Append(s.programs, p, JobId, On(valid));
      assert r.programs == s.programs + [p];
  }

  /**
   * Last write wins: adding a second program with the same cron expression as the
   * first leaves one program for that expression, with the second one's name.
   */
  lemma AddSameCronOverwrites(s: Schedule, a: ProgramInput, b: ProgramInput, idA: string, idB: string,
                              ids: seq<string>, cache: CacheDir, d: Coordinator, valid: string -> bool)
    requires |ids| >= MissingIds(a.tracks) && |ids| >= MissingIds(b.tracks) && d.Valid()
    requires a.cron == b.cron && valid(a.cron)
    ensures var r1 := AddProgram(s, a, idA, ids, cache, d, valid).value;
      var r2 := AddProgram(r1.schedule, b, idB, ids, r1.cache, r1.downloads, valid).value;
      && |r2.schedule.programs| == |r1.schedule.programs|
      && FindCron(r2.schedule.programs, b.cron) == FindCron(r1.schedule.programs, a.cron)
      && r2.schedule.programs[FindCron(r2.schedule.programs, b.cron).value].name == b.name
  {
    var r1 := AddProgram(s, a, idA, ids, cache, d, valid).value;
    var j1 := AddedSlot(s.programs, a.cron, r1.schedule.programs);
    var r2 := AddProgram(r1.schedule, b, idB, ids, r1.cache, r1.downloads, valid).value;
    var j2 := AddedSlot(r1.schedule.programs, b.cron, r2.schedule.programs);
  }

  /**
   * After a program with `cron` is written over the first slot holding `cron`, or
   * appended when there is none, `FindCron` finds it in that slot.
   */
  lemma AddedSlot(before: seq<Program>, cron: string, after: seq<Program>) returns (j: nat)
    requires var k := FindCron(before, cron);
      && (k.Some? ==> |after| == |before| && forall i :: 0 <= i < |after| && i != k.value ==> after[i] == before[i])
      && (k.None? ==> |after| == |before| + 1 && after[..|before|] == before)
    requires var k := FindCron(before, cron);
      var j := if k.Some? then k.value else |before|;
      j < |after| && after[j].cron == cron
    ensures j == (if FindCron(before, cron).Some? then FindCron(before, cron).value else |before|)
    ensures FindCron(after, cron) == Some(j)
  {
    var k := FindCron(before, cron);
    j := if k.Some? then k.value else |before|;
    assert forall i :: 0 <= i < j ==> after[i] == before[i];
    FindCronFirst(after, cron, j);
  }

  /** The first program with a cron expression is the one `FindCron` reports. */
  lemma FindCronFirst(programs: seq<Program>, cron: string, j: nat)
    requires j < |programs| && programs[j].cron == cron
    requires forall k :: 0 <= k < j ==> programs[k].cron != cron
    ensures FindCron(programs, cron) == Some(j)
  {
    var r := FindCron(programs, cron);
    assert r.Some?;
  }

  /**
   * The input of `updateProgram`: every field optional. The request body is passed
   * through unchecked, so it may carry an `id` too, although the declared type
   * leaves it out.
   */
  datatype ProgramPatch = ProgramPatch(id: Option<string>, name: Option<string>, cron: Option<string>,
                                       tracks: Option<seq<Entry>>, enabled: Option<bool>)

  /** `{ ...old, ...patch }`: every field the patch carries wins, the id included. */
  function Merge(prior: Program, patch: ProgramPatch, tracks: seq<Entry>): (p: Program)
    ensures p.id == patch.id.GetOr(prior.id)
    ensures p.name == patch.name.GetOr(prior.name) && p.cron == patch.cron.GetOr(prior.cron)
    ensures p.enabled == patch.enabled.GetOr(prior.enabled)
  {
    Program(patch.id.GetOr(prior.id), patch.name.GetOr(prior.name), patch.cron.GetOr(prior.cron), tracks, patch.enabled.GetOr(prior.enabled))
  }

  /**
   * `updateProgram(id, patch)`: unknown ids and a supplied, non-empty invalid cron
   * expression are refused. New tracks get ids, the old tracks' caches are deleted
   * and the new ones checked, their missing cache files handed to the coordinator
   * as background downloads. The merged program replaces the old one at the same
   * index; the job under the old id is unregistered and one is registered under the
   * merged program's id, which is a new one when the patch carries an id. Cron
   * uniqueness is not enforced here.
   */
  function UpdateProgram(s: Schedule, id: string, patch: ProgramPatch, trackIds: seq<string>,
                         cache: CacheDir, d: Coordinator, valid: string -> bool): (r: Result<Change>)
    requires patch.tracks.Some? ==> |trackIds| >= MissingIds(patch.tracks.value)
    requires d.Valid()
    ensures r.Err? <==> FindProgram(s.programs, id).None? || (Truthy(patch.cron) && !valid(patch.cron.value))
    ensures r.Ok? ==> var k := FindProgram(s.programs, id).value;
      var ps := r.value.schedule.programs;
      && |ps| == |s.programs|
      && (forall j :: 0 <= j < |ps| && j != k ==> ps[j] == s.programs[j])
      && ps[k].id == patch.id.GetOr(id)
      && ps[k].name == patch.name.GetOr(s.programs[k].name)
      && ps[k].cron == patch.cron.GetOr(s.programs[k].cron)
      && ps[k].enabled == patch.enabled.GetOr(s.programs[k].enabled)
      && (patch.tracks.None? ==> ps[k].tracks == s.programs[k].tracks && r.value.cache == cache && r.value.downloads == d)
      && (patch.tracks.Some? ==> |ps[k].tracks| == |patch.tracks.value|)
      && (forall x :: x in r.value.schedule.jobs <==>
            (x in s.jobs && x != id) || (x == ps[k].id && Registers(ps[k], valid)))
    ensures r.Ok? && patch.tracks.Some? ==>
      var k := FindProgram(s.programs, id).value;
      var del := DeleteCacheForTracks(s.programs[k].tracks, cache, d);
      var check := CacheUrlTracks(AssignIds(patch.tracks.value, trackIds), del.cache);
      && r.value.schedule.programs[k].tracks == check.tracks
      && r.value.cache == del.cache && r.value.downloads == StartEach(del.downloads, del.cache, check.requests)
      && r.value.requests == check.requests
    ensures r.Ok? ==> var p := r.value.schedule.programs[FindProgram(s.programs, id).value];
      && r.value.downloads.Valid()
      && (patch.tracks.Some? ==> Submitted(p.tracks, r.value.cache, r.value.downloads))
  {
    match FindProgram(s.programs, id)
    case None => Err("Program not found: " + id)
    case Some(k) =>
      if Truthy(patch.cron) && !valid(patch.cron.value) then Err("Invalid cron expression: " + patch.cron.value)
      else
        var prior := s.programs[k];
        var (tracks, cache', d', requests) :=
          if patch.tracks.Some? then
            var withIds := AssignIds(patch.tracks.value, trackIds);
            var del := DeleteCacheForTracks(prior.tracks, cache, d);
            var check := CacheUrlTracks(withIds, del.cache);
            CheckSubmits(withIds, del.cache, del.downloads);
            (check.tracks, del.cache, StartEach(del.downloads, del.cache, check.requests), check.requests)
          else (prior.tracks, cache, d, []);
        var p := Merge(prior, patch, tracks);
        Ok(Change(Schedule(s.programs[k := p], RegisterJob(s.jobs - {id}, p, valid)), cache', d', requests))
  }

  /**
   * `updateProgram` keeps the store consistent when the patch leaves the id alone
   * or re-keys the program to an id no other program has.
   */
  lemma UpdateKeepsConsistent(s: Schedule, id: string, patch: ProgramPatch, trackIds: seq<string>,
                              cache: CacheDir, d: Coordinator, valid: string -> bool)
    requires patch.tracks.Some? ==> |trackIds| >= MissingIds(patch.tracks.value)
    requires d.Valid() && Consistent(s, valid)
    requires UpdateProgram(s, id, patch, trackIds, cache, d, valid).Ok?
    requires patch.id.Some? ==> patch.id.value == id || forall q :: q in s.programs ==> q.id != patch.id.value
    ensures Consistent(UpdateProgram(s, id, patch, trackIds, cache, d, valid).value.schedule, valid)
  {
    var r := UpdateProgram(s, id, patch, trackIds, cache, d, valid).value.schedule;
    var k := FindProgram(s.programs, id).value;
    forall j | 0 <= j < |s.programs| && j != k
      ensures s.programs[j].id != r.programs[k].id
    {
      if r.programs[k].id == id {
        assert JobId(s.programs[j]) != JobId(s.programs[k]);
      } else {
        assert s.programs[j] in s.programs;
      }
    }
    CronJobs.Replace(s.programs, k, r.programs[k], JobId, On(valid));
    assert r.programs == s.programs[k := r.programs[k]];
  }

  /**
   * A patch whose id belongs to another program leaves two programs with that id;
   * the job registered for the patched program then takes that id's slot in the
   * registry, and the other program's task is no longer reachable by id.
   */
  lemma UpdateRekeyCollides(s: Schedule, id: string, patch: ProgramPatch, trackIds: seq<string>,
                            cache: CacheDir, d: Coordinator, valid: string -> bool, j: nat)
    requires patch.tracks.Some? ==> |trackIds| >= MissingIds(patch.tracks.value)
    requires d.Valid()
    requires UpdateProgram(s, id, patch, trackIds, cache, d, valid).Ok?
    requires j < |s.programs| && s.programs[j].id != id && patch.id == Some(s.programs[j].id)
    ensures !UniqueIds(UpdateProgram(s, id, patch, trackIds, cache, d, valid).value.schedule.programs)
  {
    var r := UpdateProgram(s, id, patch, trackIds, cache, d, valid).value.schedule;
    var k := FindProgram(s.programs, id).value;
    assert r.programs == s.programs[k := r.programs[k]];
    CronJobs.ReplaceCollides(s.programs, k, r.programs[k], j, JobId);
  }

  /**
   * `deleteProgram(id)`: unknown ids are refused; otherwise exactly that program is
   * removed, its URL caches are deleted and queued downloads cancelled, and its job
   * is unregistered.
   */
  function DeleteProgram(s: Schedule, id: string, cache: CacheDir, d: Coordinator): (r: Result<Change>)
    ensures r.Err? <==> forall k :: 0 <= k < |s.programs| ==> s.programs[k].id != id
    ensures r.Ok? ==> var k := FindProgram(s.programs, id).value;
      && r.value.schedule.programs == s.programs[..k] + s.programs[k + 1..]
      && r.value.schedule.jobs == s.jobs - {id}
      && r.value.downloads == DeleteCacheForTracks(s.programs[k].tracks, cache, d).downloads
      && r.value.cache == DeleteCacheForTracks(s.programs[k].tracks, cache, d).cache
  {
    match FindProgram(s.programs, id)
    case None => Err("Program not found: " + id)
    case Some(k) =>
      var del := DeleteCacheForTracks(s.programs[k].tracks, cache, d);
      Ok(Change(Schedule(s.programs[..k] + s.programs[k + 1..], s.jobs - {id}), del.cache, del.downloads, []))
  }

  /** `deleteProgram` keeps the store consistent, and the id is gone. */
  lemma DeleteKeepsConsistent(s: Schedule, id: string, cache: CacheDir, d: Coordinator, valid: string -> bool)
    requires Consistent(s, valid) && DeleteProgram(s, id, cache, d).Ok?
    ensures var s' := DeleteProgram(s, id, cache, d).value.schedule;
      Consistent(s', valid) && forall q :: q in s'.programs ==> q.id != id
  {
    CronJobs.Remove(s.programs, FindProgram(s.programs, id).value, JobId, On(valid));
  }

  /** `unregisterJob(id)` removes that id only; `stopAll` removes every job. */
  function UnregisterJob(s: Schedule, id: string): (r: Schedule)
    ensures id !in r.jobs && r.programs == s.programs
    ensures forall x :: x != id ==> (x in r.jobs <==> x in s.jobs)
  {
    s.(jobs := s.jobs - {id})
  }

  function StopAll(s: Schedule): (r: Schedule)
    ensures r.jobs == {} && r.programs == s.programs
  {
    s.(jobs := {})
  }

  /**
   * A job firing as intended: the declared `clearInterruptQueue` and then
   * `interrupt(program.tracks)`. The queue ends up holding exactly the program's
   * tracks -- or nothing, if one of them fails to build, since the clear has
   * already happened.
   */
  function Fire(e: EngineDist.Engine, p: Program, ids: seq<string>, cache: CacheDir, env: CatalogDist.Env): (r: EngineDist.Engine)
    requires |ids| >= |p.tracks|
    ensures EngineDist.BuildAll(p.tracks, ids, cache, env).Ok? ==> r.interrupts == EngineDist.BuildAll(p.tracks, ids, cache, env).value
    ensures EngineDist.BuildAll(p.tracks, ids, cache, env).Err? ==> r.interrupts == []
    ensures r == e.(interrupts := r.interrupts)
  {
    var cleared := EngineDist.ClearInterruptQueue(e);
    match EngineDist.Interrupt(cleared, p.tracks, ids, cache, env)
    case Ok(e') => e'
    case Err(_) => cleared
  }

  /** The outcome of a job firing whose callback may throw: the engine afterwards and the error, if any. */
  datatype Firing = Firing(engine: EngineDist.Engine, error: Option<string>)

  /**
   * A job firing as the compiled scheduler has it. The compiled stream manager defines
   * no `clearInterruptQueue` (only its declaration file does), so the callback throws a
   * TypeError on its first statement: `interrupt` is never reached and the engine is
   * left exactly as it was, on every firing.
   */
  function FireAsWritten(e: EngineDist.Engine, p: Program): (r: Firing)
    ensures r.error.Some? && r.engine == e
  {
    Firing(e, Some("TypeError: this.streamManager.clearInterruptQueue is not a function"))
  }

  /**
   * The discrepancy: whenever the program's tracks build into a queue other than the
   * one already waiting, the intended firing changes the engine and the compiled one
   * does not -- scheduled programs never play.
   */
  lemma FireAsWrittenNeverInterrupts(e: EngineDist.Engine, p: Program, ids: seq<string>, cache: CacheDir, env: CatalogDist.Env)
    requires |ids| >= |p.tracks|
    requires EngineDist.BuildAll(p.tracks, ids, cache, env).Ok?
    requires EngineDist.BuildAll(p.tracks, ids, cache, env).value != e.interrupts
    ensures FireAsWritten(e, p).error.Some?
    ensures FireAsWritten(e, p).engine != Fire(e, p, ids, cache, env)
    ensures Fire(e, p, ids, cache, env).interrupts == EngineDist.BuildAll(p.tracks, ids, cache, env).value
  {
  }

  /** A program as stored in the file: `track` is the legacy single-track field. */
  datatype RawProgram = RawProgram(id: string, name: string, cron: string, enabled: bool,
                                   track: Option<Entry>, tracks: Option<seq<Entry>>)

  /** The schedule file: absent, not JSON, or parsed (with or without a `programs` array). */
  datatype ScheduleFile = Absent | Unparseable | Parsed(programs: Option<seq<RawProgram>>)

  /** `p.track && !p.tracks`. */
  predicate Legacy(p: RawProgram) {
    p.track.Some? && p.tracks.None?
  }

  /** The track list after the legacy migration, before ids are assigned. */
  function MigratedTracks(p: RawProgram): Option<seq<Entry>> {
    if Legacy(p) then Some([p.track.value]) else p.tracks
  }

  /** UUIDs the migration needs for a program. */
  function Need(p: RawProgram): nat {
    if MigratedTracks(p).Some? then MissingIds(MigratedTracks(p).value) else 0
  }

  function TotalNeed(raws: seq<RawProgram>): nat {
    if |raws| == 0 then 0 else Need(raws[0]) + TotalNeed(raws[1..])
  }

  /** A program the migration rewrites. */
  predicate Migrates(p: RawProgram) {
    Legacy(p) || Need(p) > 0
  }

  /** One program after the migration; `None` when it has neither `track` nor `tracks`. */
  function Migrate(p: RawProgram, supply: seq<string>): (r: Option<Program>)
    requires |supply| >= Need(p)
    ensures r.Some? <==> MigratedTracks(p).Some?
    ensures r.Some? ==> (r.value.id == p.id && r.value.name == p.name && r.value.cron == p.cron
      && r.value.enabled == p.enabled && |r.value.tracks| == |MigratedTracks(p).value|)
  {
    match MigratedTracks(p)
    case None => None
    case Some(ts) => Some(Program(p.id, p.name, p.cron, AssignIds(ts, supply), p.enabled))
  }

  /** The migration over the file's programs, drawing UUIDs from `supply` in order. */
  function MigrateAll(raws: seq<RawProgram>, supply: seq<string>): (r: (seq<Option<Program>>, bool))
    requires |supply| >= TotalNeed(raws)
    ensures |r.0| == |raws|
    ensures forall k :: 0 <= k < |raws| ==> (r.0[k].Some? <==> MigratedTracks(raws[k]).Some?)
    ensures forall k :: 0 <= k < |raws| && r.0[k].Some? ==>
      var p := r.0[k].value;
      p.id == raws[k].id && p.name == raws[k].name && p.cron == raws[k].cron && p.enabled == raws[k].enabled
    decreases |raws|
  {
    if |raws| == 0 then ([], false)
    else
      var p := raws[0];
      var (rest, changed) := MigrateAll(raws[1..], supply[Need(p)..]);
      ([Migrate(p, supply)] + rest, Migrates(p) || changed)
  }

  /** The migration flag is raised exactly when some program is legacy or lacks a track id. */
  lemma {:induction false} MigrateAllFlag(raws: seq<RawProgram>, supply: seq<string>)
    requires |supply| >= TotalNeed(raws)
    ensures MigrateAll(raws, supply).1 <==> exists k :: 0 <= k < |raws| && Migrates(raws[k])
    ensures !MigrateAll(raws, supply).1 ==> forall k :: 0 <= k < |raws| ==>
      MigrateAll(raws, supply).0[k] ==
        if raws[k].tracks.Some? then Some(Program(raws[k].id, raws[k].name, raws[k].cron, raws[k].tracks.value, raws[k].enabled)) else None
    decreases |raws|
  {
    if |raws| > 0 {
      var p := raws[0];
      MigrateAllFlag(raws[1..], supply[Need(p)..]);
      assert forall k :: 1 <= k < |raws| ==> raws[k] == raws[1..][k - 1];
      if !Migrates(p) && p.tracks.Some? {
        AssignIdsNoop(p.tracks.value, supply);
      }
    }
  }

  function Values(ps: seq<Option<Program>>): (r: seq<Program>)
    requires forall k :: 0 <= k < |ps| ==> ps[k].Some?
    ensures |r| == |ps| && forall k :: 0 <= k < |ps| ==> r[k] == ps[k].value
  {
    seq(|ps|, k requires 0 <= k < |ps| => ps[k].value)
  }

  /** The cache check over every program. */
  function CacheAll(ps: seq<Program>, cache: CacheDir): (r: (seq<Program>, seq<Item>, bool))
    ensures |r.0| == |ps|
    decreases |ps|
  {
    if |ps| == 0 then ([], [], false)
    else
      var check := CacheUrlTracks(ps[0].tracks, cache);
      var (rest, requests, changed) := CacheAll(ps[1..], cache);
      ([ps[0].(tracks := check.tracks)] + rest, check.requests + requests, check.changed || changed)
  }

  /** Each program comes out of the cache check with its tracks checked and nothing else changed. */
  lemma {:induction false} CacheAllPrograms(ps: seq<Program>, cache: CacheDir, k: nat)
    requires k < |ps|
    ensures CacheAll(ps, cache).0[k] == ps[k].(tracks := CacheUrlTracks(ps[k].tracks, cache).tracks)
    decreases k
  {
    if k > 0 {
      CacheAllPrograms(ps[1..], cache, k - 1);
      assert CacheAll(ps, cache).0[k] == CacheAll(ps[1..], cache).0[k - 1];
    }
  }

  /** The store-wide change flag is raised exactly when some program's check raised it. */
  lemma {:induction false} CacheAllChanged(ps: seq<Program>, cache: CacheDir)
    ensures CacheAll(ps, cache).2 <==> exists k :: 0 <= k < |ps| && CacheUrlTracks(ps[k].tracks, cache).changed
    decreases |ps|
  {
    if |ps| > 0 {
      CacheAllChanged(ps[1..], cache);
      assert forall k :: 1 <= k < |ps| ==> ps[k] == ps[1..][k - 1];
    }
  }

  /** Every download a program's check asks for is among those the store-wide check asks for. */
  lemma {:induction false} CacheAllRequests(ps: seq<Program>, cache: CacheDir, k: nat)
    requires k < |ps|
    ensures forall x :: x in CacheUrlTracks(ps[k].tracks, cache).requests ==> x in CacheAll(ps, cache).1
    decreases k
  {
    if k > 0 {
      CacheAllRequests(ps[1..], cache, k - 1);
      assert ps[1..][k - 1] == ps[k];
    }
  }

  /**
   * The loaded store, the downloads asked for, the coordinator they were handed to,
   * and whether the file was rewritten.
   */
  datatype Loaded = Loaded(schedule: Schedule, requests: seq<Item>, downloads: Coordinator, saved: bool)

  function RawPrograms(file: ScheduleFile): seq<RawProgram> {
    if file.Parsed? && file.programs.Some? then file.programs.value else []
  }

  /**
   * `load()`: an absent or unparseable file (or one without `programs`) gives an
   * empty store. Otherwise legacy programs are migrated and missing track ids
   * assigned; a program left with no track list makes the cache check throw. Then
   * the URL tracks' `cached` flags are reconciled and the missing cache files handed
   * to the coordinator as background downloads, the file is rewritten if either
   * step changed anything, and the jobs are registered afresh.
   */
  function Load(file: ScheduleFile, supply: seq<string>, cache: CacheDir, d: Coordinator, valid: string -> bool): (r: Result<Loaded>)
    requires |supply| >= TotalNeed(RawPrograms(file)) && d.Valid()
    ensures r.Err? <==> exists k :: 0 <= k < |RawPrograms(file)| && MigratedTracks(RawPrograms(file)[k]).None?
    ensures !file.Parsed? ==> r == Ok(Loaded(Schedule([], {}), [], d, false))
    ensures r.Ok? ==> |r.value.schedule.programs| == |RawPrograms(file)|
    ensures r.Ok? ==> r.value.schedule.jobs == ExpectedJobs(r.value.schedule.programs, valid)
    ensures r.Ok? ==> r.value.downloads == StartEach(d, cache, r.value.requests)
  {
    var raws := RawPrograms(file);
    var (migrated, needsSave) := MigrateAll(raws, supply);
    if exists k :: 0 <= k < |migrated| && migrated[k].None? then Err("program.tracks is not iterable")
    else
      var (programs, requests, changed) := CacheAll(Values(migrated), cache);
      Ok(Loaded(Schedule(programs, CronJobs.RegisterAll(programs, JobId, On(valid))), requests, StartEach(d, cache, requests), needsSave || changed))
  }

  /**
   * After the load every program's tracks carry ids, a legacy program has its
   * single track as its only track, and each program keeps its id, name, cron
   * expression and enabled flag.
   */
  lemma LoadMigrates(file: ScheduleFile, supply: seq<string>, cache: CacheDir, d: Coordinator, valid: string -> bool, k: nat)
    requires |supply| >= TotalNeed(RawPrograms(file)) && d.Valid()
    requires Load(file, supply, cache, d, valid).Ok? && k < |RawPrograms(file)|
    ensures var p := Load(file, supply, cache, d, valid).value.schedule.programs[k];
      var raw := RawPrograms(file)[k];
      && p.id == raw.id && p.name == raw.name && p.cron == raw.cron && p.enabled == raw.enabled
      && (Legacy(raw) ==> |p.tracks| == 1)
      && (!Legacy(raw) ==> |p.tracks| == |raw.tracks.value|)
      && (forall j :: 0 <= j < |p.tracks| ==> p.tracks[j].id.Some?)
  {
    var raws := RawPrograms(file);
    var migrated := MigrateAll(raws, supply).0;
    var programs := CacheAll(Values(migrated), cache).0;
    CacheAllPrograms(Values(migrated), cache, k);
    assert programs[k] == migrated[k].value.(tracks := CacheUrlTracks(migrated[k].value.tracks, cache).tracks);
    MigrateAllIds(raws, supply, k);
  }

  /**
   * After the load every URL track still lacking its cache file has its id pending
   * in the coordinator, and the downloads already pending stay pending.
   */
  lemma LoadDownloads(file: ScheduleFile, supply: seq<string>, cache: CacheDir, d: Coordinator, valid: string -> bool, k: nat)
    requires |supply| >= TotalNeed(RawPrograms(file)) && d.Valid()
    requires Load(file, supply, cache, d, valid).Ok? && k < |RawPrograms(file)|
    ensures var l := Load(file, supply, cache, d, valid).value;
      var p := l.schedule.programs[k];
      && Submitted(p.tracks, cache, l.downloads)
      && (forall x :: x in d.pending && !IsCached(cache, x) ==> x in l.downloads.pending)
  {
    var ps := Values(MigrateAll(RawPrograms(file), supply).0);
    CacheAllPrograms(ps, cache, k);
    CacheAllRequests(ps, cache, k);
    CheckAsks(ps[k].tracks, cache);
  }

  lemma {:induction false} MigrateAllIds(raws: seq<RawProgram>, supply: seq<string>, k: nat)
    requires |supply| >= TotalNeed(raws) && k < |raws|
    ensures var m := MigrateAll(raws, supply).0[k];
      m.Some? ==> (
        && (Legacy(raws[k]) ==> |m.value.tracks| == 1)
        && (!Legacy(raws[k]) ==> |m.value.tracks| == |raws[k].tracks.value|)
        && forall j :: 0 <= j < |m.value.tracks| ==> m.value.tracks[j].id.Some?)
    decreases k
  {
    if k > 0 {
      MigrateAllIds(raws[1..], supply[Need(raws[0])..], k - 1);
    }
  }

  /**
   * The file is rewritten exactly when it was not already in normal form: some
   * program was legacy or lacked a track id, or some URL track's flag disagreed
   * with the cache directory.
   */
  lemma LoadSaves(file: ScheduleFile, supply: seq<string>, cache: CacheDir, d: Coordinator, valid: string -> bool)
    requires |supply| >= TotalNeed(RawPrograms(file)) && d.Valid()
    requires Load(file, supply, cache, d, valid).Ok?
    ensures var raws := RawPrograms(file);
      Load(file, supply, cache, d, valid).value.saved <==>
        exists k :: 0 <= k < |raws| && (Migrates(raws[k]) || exists i :: 0 <= i < |raws[k].tracks.value| && Stale(raws[k].tracks.value[i], cache))
  {
    var raws := RawPrograms(file);
    var (migrated, needsSave) := MigrateAll(raws, supply);
    var programs := Values(migrated);
    MigrateAllFlag(raws, supply);
    CacheAllChanged(programs, cache);
    forall k | 0 <= k < |programs|
      ensures CacheUrlTracks(programs[k].tracks, cache).changed <==>
        exists i :: 0 <= i < |programs[k].tracks| && Stale(programs[k].tracks[i], cache)
    {
      CacheUrlTracksReports(programs[k].tracks, cache);
    }
    if !needsSave {
      assert forall k :: 0 <= k < |raws| ==> programs[k].tracks == raws[k].tracks.value;
    }
  }
}

=== FILE: schedule_src.dfy ===
/**
 * The older schedule store: each program interrupts with one track, programs are
 * only ever appended (no cron de-duplication), nothing is migrated on load, and
 * the jobs are keyed by program id. Cron validity is the predicate `valid`.
 */
module ScheduleSrc {
  import opened Wrappers
  import opened JsText
  import opened Tracks
  import CronJobs
  import Sequences
  import EngineSrc

  datatype Program = Program(id: string, name: string, cron: string, track: Entry, enabled: bool)

  datatype Schedule = Schedule(programs: seq<Program>, jobs: set<string>)

  predicate Registers(p: Program, valid: string -> bool) {
    p.enabled && valid(p.cron)
  }

  function JobId(p: Program): string {
    p.id
  }

  function On(valid: string -> bool): Program -> bool {
    p => Registers(p, valid)
  }

  /** The ids that ought to have a job. */
  function ExpectedJobs(programs: seq<Program>, valid: string -> bool): set<string> {
    CronJobs.Expected(programs, JobId, On(valid))
  }

  /** The store invariant: ids are unique and the jobs are exactly the expected ones. */
  predicate Consistent(s: Schedule, valid: string -> bool) {
    CronJobs.UniqueIds(s.programs, JobId) && s.jobs == ExpectedJobs(s.programs, valid)
  }

  /** The schedule file: absent, not JSON, or parsed (with or without `programs`). */
  datatype ScheduleFile = Absent | Unparseable | Parsed(programs: Option<seq<Program>>)

  /**
   * `load()`: the stored programs as they are, or none when the file is absent,
   * unparseable or has no `programs`; the jobs are registered afresh.
   */
  function Load(file: ScheduleFile, valid: string -> bool): (r: Schedule)
    ensures !(file.Parsed? && file.programs.Some?) ==> r == Schedule([], {})
    ensures file.Parsed? && file.programs.Some? ==> r.programs == file.programs.value
    ensures r.jobs == ExpectedJobs(r.programs, valid)
  {
    var programs := if file.Parsed? && file.programs.Some? then file.programs.value else [];
    Schedule(programs, CronJobs.RegisterAll(programs, JobId, On(valid)))
  }

  /** The input of `addProgram`; `enabled` may be omitted. */
  datatype ProgramInput = ProgramInput(name: string, cron: string, track: Entry, enabled: Option<bool>)

  /**
   * `addProgram(input)`: an invalid cron expression is refused with nothing
   * changed; otherwise a program with the fresh id `newId` is appended (even when
   * another program has the same cron expression) and registered if enabled.
   */
  function AddProgram(s: Schedule, input: ProgramInput, newId: string, valid: string -> bool): (r: Result<Schedule>)
    ensures r.Err? <==> !valid(input.cron)
    ensures r.Ok? ==> r.value.programs == s.programs + [Program(newId, input.name, input.cron, input.track, input.enabled.GetOr(true))]
    ensures r.Ok? ==> (newId in r.value.jobs <==> input.enabled.GetOr(true) || newId in s.jobs)
    ensures r.Ok? ==> forall x :: x != newId ==> (x in r.value.jobs <==> x in s.jobs)
  {
    if !valid(input.cron) then Err("Invalid cron expression: " + input.cron)
    else
      var p := Program(newId, input.name, input.cron, input.track, input.enabled.GetOr(true));
      Ok(Schedule(s.programs + [p], CronJobs.Register(s.jobs, p, JobId, On(valid))))
  }

  /** With a fresh id, `addProgram` keeps the store consistent. */
  lemma AddKeepsConsistent(s: Schedule, input: ProgramInput, newId: string, valid: string -> bool)
    requires Consistent(s, valid) && forall q :: q in s.programs ==> q.id != newId
    requires valid(input.cron)
    ensures Consistent(AddProgram(s, input, newId, valid).value, valid)
  {
    var p := Program(newId, input.name, input.cron, input.track, input.enabled.GetOr(true));
    CronJobs.Append(s.programs, p, JobId, On(valid));
  }

  /** Adding twice with the same cron expression keeps both programs: no last-write-wins here. */
  lemma AddSameCronKeepsBoth(s: Schedule, a: ProgramInput, b: ProgramInput, idA: string, idB: string, valid: string -> bool)
    requires a.cron == b.cron && valid(a.cron)
    ensures var s1 := AddProgram(s, a, idA, valid).value;
      var s2 := AddProgram(s1, b, idB, valid).value;
      |s2.programs| == |s.programs| + 2 && s2.programs[|s.programs|].cron == s2.programs[|s.programs| + 1].cron
  {
  }

  /** `findIndex(p => p.id === id)`. */
  function FindProgram(programs: seq<Program>, id: string): (r: Option<nat>)
    ensures r.None? <==> forall k :: 0 <= k < |programs| ==> programs[k].id != id
    ensures r.Some? ==> (r.value < |programs| && programs[r.value].id == id
      && forall k :: 0 <= k < r.value ==> programs[k].id != id)
  {
    Sequences.FindFirst(programs, (p: Program) => p.id == id)
  }

  /**
   * The input of `updateProgram`: every field optional. The request body is passed
   * through unchecked, so it may carry an `id` too, although the declared type
   * leaves it out.
   */
  datatype ProgramPatch = ProgramPatch(id: Option<string>, name: Option<string>, cron: Option<string>,
                                       track: Option<Entry>, enabled: Option<bool>)

  /**
   * `updateProgram(id, patch)`: unknown ids and a supplied, non-empty invalid cron
   * expression are refused; otherwise the patch is merged over the program at the
   * same index (every field it carries wins, the id included), the job under the old
   * id is unregistered and one is registered under the merged program's id.
   */
  function UpdateProgram(s: Schedule, id: string, patch: ProgramPatch, valid: string -> bool): (r: Result<Schedule>)
    ensures r.Err? <==> FindProgram(s.programs, id).None? || (Truthy(patch.cron) && !valid(patch.cron.value))
    ensures r.Ok? ==> var k := FindProgram(s.programs, id).value;
      var prior := s.programs[k];
      && |r.value.programs| == |s.programs|
      && (forall j :: 0 <= j < |s.programs| && j != k ==> r.value.programs[j] == s.programs[j])
      && r.value.programs[k] == Program(patch.id.GetOr(id), patch.name.GetOr(prior.name), patch.cron.GetOr(prior.cron),
           patch.track.GetOr(prior.track), patch.enabled.GetOr(prior.enabled))
      && (forall x :: x in r.value.jobs <==>
            (x in s.jobs && x != id) || (x == r.value.programs[k].id && Registers(r.value.programs[k], valid)))
  {
    match FindProgram(s.programs, id)
    case None => Err("Program not found: " + id)
    case Some(k) =>
      if Truthy(patch.cron) && !valid(patch.cron.value) then Err("Invalid cron expression: " + patch.cron.value)
      else
        var prior := s.programs[k];
        var p := Program(patch.id.GetOr(prior.id), patch.name.GetOr(prior.name), patch.cron.GetOr(prior.cron),
                         patch.track.GetOr(prior.track), patch.enabled.GetOr(prior.enabled));
        Ok(Schedule(s.programs[k := p], CronJobs.Register(s.jobs - {id}, p, JobId, On(valid))))
  }

  /**
   * `updateProgram` keeps the store consistent when the patch leaves the id alone
   * or re-keys the program to an id no other program has.
   */
  lemma UpdateKeepsConsistent(s: Schedule, id: string, patch: ProgramPatch, valid: string -> bool)
    requires Consistent(s, valid) && UpdateProgram(s, id, patch, valid).Ok?
    requires patch.id.Some? ==> patch.id.value == id || forall q :: q in s.programs ==> q.id != patch.id.value
    ensures Consistent(UpdateProgram(s, id, patch, valid).value, valid)
  {
    var k := FindProgram(s.programs, id).value;
    var r := UpdateProgram(s, id, patch, valid).value;
    forall j | 0 <= j < |s.programs| && j != k
      ensures s.programs[j].id != r.programs[k].id
    {
      if r.programs[k].id == id {
        assert JobId(s.programs[j]) != JobId(s.programs[k]);
      } else {
        assert s.programs[j] in s.programs;
      }
    }
    CronJobs.Replace(s.programs, k, r.programs[k], JobId, On(valid));
    assert r.programs == s.programs[k := r.programs[k]];
  }

  /** A patch whose id belongs to another program leaves two programs with that id. */
  lemma UpdateRekeyCollides(s: Schedule, id: string, patch: ProgramPatch, valid: string -> bool, j: nat)
    requires UpdateProgram(s, id, patch, valid).Ok?
    requires j < |s.programs| && s.programs[j].id != id && patch.id == Some(s.programs[j].id)
    ensures !CronJobs.UniqueIds(UpdateProgram(s, id, patch, valid).value.programs, JobId)
  {
    var k := FindProgram(s.programs, id).value;
    var r := UpdateProgram(s, id, patch, valid).value;
    assert r.programs == s.programs[k := r.programs[k]];
    CronJobs.ReplaceCollides(s.programs, k, r.programs[k], j, JobId);
  }

  /** `deleteProgram(id)`: unknown ids are refused; otherwise exactly that program and its job go. */
  function DeleteProgram(s: Schedule, id: string): (r: Result<Schedule>)
    ensures r.Err? <==> forall k :: 0 <= k < |s.programs| ==> s.programs[k].id != id
    ensures r.Ok? ==> var k := FindProgram(s.programs, id).value;
      r.value == Schedule(s.programs[..k] + s.programs[k + 1..], s.jobs - {id})
  {
    match FindProgram(s.programs, id)
    case None => Err("Program not found: " + id)
    case Some(k) => Ok(Schedule(s.programs[..k] + s.programs[k + 1..], s.jobs - {id}))
  }

  /** `deleteProgram` keeps the store consistent, and the id is gone. */
  lemma DeleteKeepsConsistent(s: Schedule, id: string, valid: string -> bool)
    requires Consistent(s, valid) && DeleteProgram(s, id).Ok?
    ensures Consistent(DeleteProgram(s, id).value, valid)
    ensures forall q :: q in DeleteProgram(s, id).value.programs ==> q.id != id
  {
    CronJobs.Remove(s.programs, FindProgram(s.programs, id).value, JobId, On(valid));
  }

  /** `stopAll`: every job is stopped and forgotten. */
  function StopAll(s: Schedule): (r: Schedule)
    ensures r.jobs == {} && r.programs == s.programs
  {
    s.(jobs := {})
  }

  /** `unregisterJob(id)`: only that id loses its job. */
  function UnregisterJob(s: Schedule, id: string): (r: Schedule)
    ensures id !in r.jobs && r.programs == s.programs
    ensures forall x :: x != id ==> (x in r.jobs <==> x in s.jobs)
  {
    s.(jobs := s.jobs - {id})
  }

  /**
   * A job firing: `interrupt(program.track)`, one track, which replaces the engine's
   * interrupt queue and skips the current track. No clear happens first, so a failed
   * build leaves the queue as it was.
   */
  function Fire(e: EngineSrc.Engine, p: Program, newId: string, resolve: string -> string, tags: string -> Option<Tags>)
    : (r: (EngineSrc.Engine, bool))
    ensures EngineSrc.BuildTrack(p.track, newId, resolve, tags).Ok? ==>
      r.1 && r.0 == e.(interrupts := [EngineSrc.BuildTrack(p.track, newId, resolve, tags).value])
    ensures EngineSrc.BuildTrack(p.track, newId, resolve, tags).Err? ==> r == (e, false)
  {
    match EngineSrc.Interrupt(e, [p.track], [newId], resolve, tags)
    case Ok(res) => res
    case Err(_) => (e, false)
  }
}

=== FILE: seqs.dfy ===
/** Sequence helpers: `Array.prototype.findIndex`, and order-preserving sub-sequences for the FIFO guarantees of queues. */
module Sequences {
  import opened Wrappers

  /** `xs.findIndex(p)`: the first position whose element satisfies `p`, or `None` for -1. */
  function FindFirst<T>(xs: seq<T>, p: T -> bool): (r: Option<nat>)
    ensures r.None? <==> forall k :: 0 <= k < |xs| ==> !p(xs[k])
    ensures r.Some? ==> r.value < |xs| && p(xs[r.value]) && forall k :: 0 <= k < r.value ==> !p(xs[k])
  {
    if |xs| == 0 then None
    else if p(xs[0]) then Some(0)
    else
      match FindFirst(xs[1..], p)
      case None => None
      case Some(k) => Some(k + 1)
  }

  /** `xs` occurs in `ys` in the same relative order (possibly with gaps). */
  predicate Subsequence<T(==)>(xs: seq<T>, ys: seq<T>)
    decreases |ys|
  {
    if |ys| == 0 then |xs| == 0
    else Subsequence(xs, ys[1..]) || (|xs| > 0 && xs[0] == ys[0] && Subsequence(xs[1..], ys[1..]))
  }

  lemma SubsequenceCons<T>(x: T, xs: seq<T>, ys: seq<T>)
    requires Subsequence(xs, ys)
    ensures Subsequence([x] + xs, [x] + ys)
  {
    assert ([x] + xs)[1..] == xs;
    assert ([x] + ys)[1..] == ys;
  }

  lemma SubsequenceSkip<T>(y: T, xs: seq<T>, ys: seq<T>)
    requires Subsequence(xs, ys)
    ensures Subsequence(xs, [y] + ys)
  {
    assert ([y] + ys)[1..] == ys;
  }

  lemma {:induction false} SubsequenceRefl<T>(xs: seq<T>)
    ensures Subsequence(xs, xs)
    decreases |xs|
  {
    if |xs| > 0 {
      SubsequenceRefl(xs[1..]);
    }
  }

  lemma {:induction false} SubsequenceEmpty<T>(ys: seq<T>)
    ensures Subsequence([], ys)
    decreases |ys|
  {
    if |ys| > 0 {
      SubsequenceEmpty(ys[1..]);
    }
  }

  /** Appending the same element to both sides keeps the relation. */
  lemma {:induction false} SubsequenceSnoc<T>(xs: seq<T>, ys: seq<T>, x: T)
    requires Subsequence(xs, ys)
    ensures Subsequence(xs + [x], ys + [x])
    decreases |ys|
  {
    if |ys| == 0 {
      assert xs + [x] == [x];
      SubsequenceRefl([x]);
    } else {
      assert (ys + [x])[1..] == ys[1..] + [x];
      if Subsequence(xs, ys[1..]) {
        SubsequenceSnoc(xs, ys[1..], x);
      } else {
        SubsequenceSnoc(xs[1..], ys[1..], x);
        assert (xs + [x])[1..] == xs[1..] + [x];
      }
    }
  }

  /** An element appended only on the right is skipped. */
  lemma {:induction false} SubsequenceExtend<T>(xs: seq<T>, ys: seq<T>, y: T)
    requires Subsequence(xs, ys)
    ensures Subsequence(xs, ys + [y])
    decreases |ys|
  {
    if |ys| == 0 {
      assert xs == [];
      SubsequenceEmpty([y]);
    } else {
      assert (ys + [y])[1..] == ys[1..] + [y];
      if Subsequence(xs, ys[1..]) {
        SubsequenceExtend(xs, ys[1..], y);
      } else {
        SubsequenceExtend(xs[1..], ys[1..], y);
      }
    }
  }

  /** Dropping a suffix on the left keeps the relation. */
  lemma {:induction false} SubsequencePrefix<T>(xs: seq<T>, zs: seq<T>, ys: seq<T>)
    requires Subsequence(xs + zs, ys)
    ensures Subsequence(xs, ys)
    decreases |ys|
  {
    if |ys| == 0 {
    } else if Subsequence(xs + zs, ys[1..]) {
      SubsequencePrefix(xs, zs, ys[1..]);
      SubsequenceSkip(ys[0], xs, ys[1..]);
      assert ys == [ys[0]] + ys[1..];
    } else if |xs| == 0 {
      SubsequenceEmpty(ys);
    } else {
      assert (xs + zs)[1..] == xs[1..] + zs;
      SubsequencePrefix(xs[1..], zs, ys[1..]);
    }
  }

  /** Dropping one element in the middle of the left side keeps the relation. */
  lemma {:induction false} SubsequenceDrop<T>(xs: seq<T>, x: T, zs: seq<T>, ys: seq<T>)
    requires Subsequence(xs + [x] + zs, ys)
    ensures Subsequence(xs + zs, ys)
    decreases |ys|
  {
    if |ys| == 0 {
    } else if Subsequence(xs + [x] + zs, ys[1..]) {
      SubsequenceDrop(xs, x, zs, ys[1..]);
    } else if |xs| == 0 {
      assert (xs + [x] + zs)[1..] == zs;
      assert xs + zs == zs;
      SubsequenceSkip(ys[0], zs, ys[1..]);
      assert ys == [ys[0]] + ys[1..];
    } else {
      assert (xs + [x] + zs)[1..] == xs[1..] + [x] + zs;
      assert (xs + zs)[1..] == xs[1..] + zs;
      SubsequenceDrop(xs[1..], x, zs, ys[1..]);
    }
  }
}

=== FILE: tracks.dfy ===
/**
 * Track descriptors shared by the catalog, the interrupt queue and the schedule:
 * the JSON entry form (every field optional), the resolved track, the on-disk
 * cache directory, and the "now playing" title.
 */
module Tracks {
  import opened Wrappers
  import opened JsText

  /** A playlist / schedule / request entry as it arrives in JSON; `None` is an absent field. */
  datatype Entry = Entry(
    id: Option<string>,
    kind: Option<string>,
    path: Option<string>,
    url: Option<string>,
    title: Option<string>,
    artist: Option<string>,
    cached: Option<bool>)
  {
    /** `entry.type === 'file' && entry.path`. */
    predicate IsFileEntry() {
      kind == Some("file") && Truthy(path)
    }

    /** `entry.type === 'url' && entry.url`. */
    predicate IsUrlEntry() {
      kind == Some("url") && Truthy(url)
    }
  }

  datatype Kind = File | Url

  /** A resolved, playable-or-not track (`TrackInfo`); `filePath` is what the player reads. */
  datatype Track = Track(
    id: string,
    kind: Kind,
    title: string,
    artist: string,
    filePath: Option<string>,
    url: string)

  /** Title and artist as read from a file's tags by the metadata reader. */
  datatype Tags = Tags(title: Option<string>, artist: Option<string>)

  /** The artist a track without one is given; the display title omits it. */
  const UnknownArtist: string := "Unknown"

  /** The title a URL track without one is given. */
  const UnknownTitle: string := "Unknown"

  /** The cache directory: file name to size in bytes. */
  type CacheDir = map<string, nat>

  /** `${id}.mp3`, the cache file of a URL track. */
  function CacheFileName(id: string): string {
    id + ".mp3"
  }

  /** `isCached(id)`: the cache file of `id` exists. */
  predicate IsCached(cache: CacheDir, id: string) {
    CacheFileName(id) in cache
  }

  /** `deleteCacheFile(id)`. */
  function DeleteCacheFile(cache: CacheDir, id: string): (r: CacheDir)
    ensures !IsCached(r, id)
    ensures forall f :: f in r <==> f in cache && f != CacheFileName(id)
    ensures forall f :: f in r ==> r[f] == cache[f]
  {
    cache - {CacheFileName(id)}
  }

  /** `getCurrentTitle`: "artist - title", or the bare title when the artist is unknown. */
  function CurrentTitle(current: Option<Track>): string {
    match current
    case None => ""
    case Some(t) => if t.artist != UnknownArtist then t.artist + " - " + t.title else t.title
  }

  /**
   * The display title is empty with no current track, always ends with the track's
   * title, and starts with "<artist> - " exactly when the artist is known.
   */
  lemma CurrentTitleShape(current: Option<Track>)
    ensures current.None? ==> CurrentTitle(current) == ""
    ensures current.Some? ==>
      var t := current.value;
      var r := CurrentTitle(current);
      && EndsWith(r, t.title)
      && (t.artist != UnknownArtist <==> (|r| == |t.artist| + 3 + |t.title| && StartsWith(r, t.artist + " - ")))
  {
    if current.Some? {
      var t := current.value;
      var r := CurrentTitle(current);
      if t.artist != UnknownArtist {
        assert r[|r| - |t.title|..] == t.title;
        assert r[..|t.artist + " - "|] == t.artist + " - ";
      } else {
        assert r[|r| - |t.title|..] == t.title;
      }
    }
  }

  /**
   * `path.basename(p)`: the last `/`-separated component. Node's `basename` drops
   * trailing separators first (`a/b/` gives `b`); this gives `""` there instead.
   */
  function FileName(p: string): (r: string)
    ensures forall k :: 0 <= k < |r| ==> r[k] != '/'
  {
    var pieces := Split(p, '/');
    pieces[|pieces| - 1]
  }

  /** `path.basename(f, '.mp3')` on a bare file name. */
  function Stem(f: string): (r: string)
    ensures EndsWith(f, ".mp3") ==> r + ".mp3" == f
    ensures !EndsWith(f, ".mp3") ==> r == f
  {
    if EndsWith(f, ".mp3") then f[..|f| - 4] else f
  }

  /** `a || b` on optional strings: the first when truthy, else the second. */
  function Or(a: Option<string>, b: string): string {
    if Truthy(a) then a.value else b
  }

  /**
   * Title of a local file track: the entry's, else the tag's (when read), else the
   * file name without `.mp3`.
   */
  function FileTitle(e: Entry, filePath: string, tags: Option<Tags>): (r: string)
    ensures Truthy(e.title) ==> r == e.title.value
    ensures !Truthy(e.title) && tags.Some? && Truthy(tags.value.title) ==> r == tags.value.title.value
    ensures !Truthy(e.title) && (tags.None? || !Truthy(tags.value.title)) ==> r == Stem(FileName(filePath))
  {
    if !Truthy(e.title) && tags.Some? && Truthy(tags.value.title) then tags.value.title.value
    else Or(e.title, Stem(FileName(filePath)))
  }

  /** Artist of a local file track: the entry's, else the tag's (when read), else "Unknown". */
  function FileArtist(e: Entry, tags: Option<Tags>): (r: string)
    ensures Truthy(e.artist) ==> r == e.artist.value
    ensures !Truthy(e.artist) && tags.Some? && Truthy(tags.value.artist) ==> r == tags.value.artist.value
    ensures !Truthy(e.artist) && (tags.None? || !Truthy(tags.value.artist)) ==> r == UnknownArtist
  {
    if !Truthy(e.artist) && tags.Some? && Truthy(tags.value.artist) then tags.value.artist.value
    else Or(e.artist, UnknownArtist)
  }

  /**
   * Building a list of entries all or nothing, with `ids[i]` as the fresh id for
   * entry `i`: the first entry that fails to build decides the error; otherwise the
   * built values in order.
   */
  function BuildEach<T>(inputs: seq<Entry>, ids: seq<string>, build: (Entry, string) -> Result<T>): (r: Result<seq<T>>)
    requires |ids| >= |inputs|
    ensures r.Ok? <==> forall i :: 0 <= i < |inputs| ==> build(inputs[i], ids[i]).Ok?
    ensures r.Ok? ==> |r.value| == |inputs|
    ensures r.Ok? ==> forall i :: 0 <= i < |inputs| ==> r.value[i] == build(inputs[i], ids[i]).value
  {
    if |inputs| == 0 then Ok([])
    else
      match build(inputs[0], ids[0])
      case Err(m) => Err(m)
      case Ok(t) =>
        match BuildEach(inputs[1..], ids[1..], build)
        case Err(m) => Err(m)
        case Ok(ts) =>
          assert forall i :: 1 <= i < |inputs| ==> inputs[1..][i - 1] == inputs[i] && ids[1..][i - 1] == ids[i];
          Ok([t] + ts)
  }

  /** Number of entries with no usable id. */
  function MissingIds(entries: seq<Entry>): nat {
    if |entries| == 0 then 0
    else (if Truthy(entries[0].id) then 0 else 1) + MissingIds(entries[1..])
  }

  /**
   * `if (!entry.id) entry.id = crypto.randomUUID()` over a list, drawing fresh ids
   * from `supply` in order: entries that had an id keep it, the others get the next
   * fresh one, and nothing else changes.
   */
  function AssignIds(entries: seq<Entry>, supply: seq<string>): (r: seq<Entry>)
    requires |supply| >= MissingIds(entries)
    ensures |r| == |entries|
    ensures forall i :: 0 <= i < |r| ==> r[i] == entries[i].(id := r[i].id) && r[i].id.Some?
    ensures forall i :: 0 <= i < |r| && Truthy(entries[i].id) ==> r[i] == entries[i]
    ensures forall i :: 0 <= i < |r| && !Truthy(entries[i].id) ==> r[i].id.value in supply[..MissingIds(entries)]
  {
    if |entries| == 0 then []
    else if Truthy(entries[0].id) then [entries[0]] + AssignIds(entries[1..], supply)
    else [entries[0].(id := Some(supply[0]))] + AssignIds(entries[1..], supply[1..])
  }

  /** Entries that already carry ids are left exactly as they are. */
  lemma {:induction false} AssignIdsNoop(entries: seq<Entry>, supply: seq<string>)
    requires MissingIds(entries) == 0
    ensures AssignIds(entries, supply) == entries
  {
    if |entries| > 0 {
      AssignIdsNoop(entries[1..], supply);
    }
  }
}

=== FILE: utf8.dfy ===
/** Byte strings and the two text encodings the metadata framer uses. */
module Utf8 {

  /** One octet of a Node `Buffer`. */
  type byte = b: int | 0 <= b < 256

  /** Number of bytes a UTF-8 sequence occupies, read off its lead byte. */
  function LeadLength(b: byte): nat {
    if b < 0x80 then 1
    else if 0xC0 <= b < 0xE0 then 2
    else if 0xE0 <= b < 0xF0 then 3
    else if 0xF0 <= b < 0xF8 then 4
    else 0
  }

  predicate IsContinuation(b: byte) {
    0x80 <= b < 0xC0
  }

  /** The UTF-8 encoding of one Unicode scalar value. */
  function EncodeChar(c: char): (r: seq<byte>)
    ensures 1 <= |r| <= 4
    ensures LeadLength(r[0]) == |r|
    ensures forall i :: 1 <= i < |r| ==> IsContinuation(r[i])
    ensures (c as int < 0x80) <==> |r| == 1
    ensures c as int < 0x80 ==> r == [c as int]
  {
    var n := c as int;
    if n < 0x80 then [n]
    else if n < 0x800 then [0xC0 + n / 64, 0x80 + n % 64]
    else if n < 0x10000 then [0xE0 + n / 4096, 0x80 + (n / 64) % 64, 0x80 + n % 64]
    else [0xF0 + n / 262144, 0x80 + (n / 4096) % 64, 0x80 + (n / 64) % 64, 0x80 + n % 64]
  }

  /** `Buffer.from(s, 'utf-8')` for a string of Unicode scalar values. */
  function Encode(s: string): (r: seq<byte>)
    ensures |s| <= |r| <= 4 * |s|
    ensures (forall i :: 0 <= i < |s| ==> s[i] as int < 0x80) ==> |r| == |s|
  {
    if |s| == 0 then [] else EncodeChar(s[0]) + Encode(s[1..])
  }

  /** UTF-8 encoding distributes over concatenation. */
  lemma {:induction false} EncodeAppend(a: string, b: string)
    ensures Encode(a + b) == Encode(a) + Encode(b)
  {
    if |a| == 0 {
      assert a + b == b;
    } else {
      assert (a + b)[1..] == a[1..] + b;
      EncodeAppend(a[1..], b);
    }
  }

  /** `Buffer.from(s, 'ascii')`: Node keeps the low byte of every code unit. */
  function AsciiBytes(s: string): (r: seq<byte>)
    ensures |r| == |s|
    ensures forall i :: 0 <= i < |s| && s[i] as int < 256 ==> r[i] == s[i] as int
  {
    seq(|s|, i requires 0 <= i < |s| => (s[i] as int) % 256)
  }

  /** Reading bytes back as the characters of the same code (Latin-1). */
  function BytesToChars(bs: seq<byte>): (s: string)
    ensures |s| == |bs|
    ensures forall i :: 0 <= i < |bs| ==> s[i] as int == bs[i]
  {
    seq(|bs|, i requires 0 <= i < |bs| => bs[i] as char)
  }

  /** On text whose code points fit in a byte, reading the ASCII bytes back is the identity. */
  lemma AsciiRoundTrip(s: string)
    requires forall i :: 0 <= i < |s| ==> s[i] as int < 256
    ensures BytesToChars(AsciiBytes(s)) == s
  {
  }
}

=== FILE: wrappers.dfy ===
/** Failure-compatible wrappers shared by every module of the model. */
module Wrappers {

  /** An optional value: `None` stands for a JavaScript `undefined` / `null` field. */
  datatype Option<+T> = None | Some(value: T) {

    /** The contained value, or `default` when there is none. */
    function GetOr(default: T): T {
      match this
      case Some(v) => v
      case None => default
    }
  }

  /** The outcome of an operation that may throw: `Err` carries the error message. */
  datatype Result<+T> = Ok(value: T) | Err(message: string) {

    predicate IsFailure() {
      Err?
    }
  }
}

=== FILE: yellow_pages.dfy ===
/**
 * The directory (Yellow Pages) client of the older server: the parser of the
 * directory's `icy-key: value` replies, and the register / touch / remove state
 * machine with its touch timer. The directory's replies are an input: the text of
 * each answer goes through `Parse` (see `Received`) before the state machine looks
 * at it; a request that failed or timed out is `Failure`.
 */
module YellowPages {
  import opened Wrappers
  import opened JsText

  /** A reply to one request: the fields of an answer, or `Failure` for a request that failed. */
  datatype Reply = Answer(fields: Fields) | Failure

  /** The parsed reply: lower-cased keys to trimmed values. */
  type Fields = map<string, string>

  /** One line: the key before the first colon (trimmed, lower-cased) and the trimmed rest. */
  function ParseLine(line: string): (r: Option<(string, string)>)
    ensures r.Some? ==> r.value.0 != "" && ':' !in r.value.0
    ensures r.Some? ==> ':' in line
  {
    match IndexOf(line, ':')
    case None => None
    case Some(k) =>
      var key := KeyOf(line[..k]);
      if key == "" then None else Some((key, Trim(line[k + 1..])))
  }

  /** The key of a line: the text before the colon, trimmed and lower-cased. */
  function KeyOf(prefix: string): (key: string)
    requires ':' !in prefix
    ensures ':' !in key
  {
    KeyOfNoColon(prefix);
    Lower(Trim(prefix))
  }

  lemma KeyOfNoColon(prefix: string)
    requires ':' !in prefix
    ensures ':' !in Lower(Trim(prefix))
  {
    var t := Trim(prefix);
    var lead := |prefix| - |TrimStart(prefix)|;
    TrimSlice(prefix);
    forall i | 0 <= i < |t|
      ensures Lower(t)[i] != ':'
    {
      assert t[i] == prefix[lead + i];
      assert LowerChar(t[i]) != ':';
    }
    assert forall i :: 0 <= i < |t| ==> Lower(t)[i] != ':';
  }

  /** The parse of each line, in order. */
  function ParsedLines(lines: seq<string>): (r: seq<Option<(string, string)>>)
    ensures |r| == |lines| && forall i :: 0 <= i < |lines| ==> r[i] == ParseLine(lines[i])
  {
    seq(|lines|, i requires 0 <= i < |lines| => ParseLine(lines[i]))
  }

  /** The loop of `parseYPResponse`: each parsed line sets its key, in order. */
  function Apply(m: Fields, kvs: seq<Option<(string, string)>>): Fields
    decreases |kvs|
  {
    if |kvs| == 0 then m
    else Apply(if kvs[0].Some? then m[kvs[0].value.0 := kvs[0].value.1] else m, kvs[1..])
  }

  /** `parseYPResponse(raw)`. */
  function Parse(raw: string): Fields {
    Apply(map[], ParsedLines(Split(raw, '\n')))
  }

  /** What a request hands the state machine: the parsed answer, or `Failure` when there was none. */
  function Received(raw: Option<string>): Reply {
    match raw
    case Some(text) => Answer(Parse(text))
    case None => Failure
  }

  /** A parsed line that sets `key`. */
  predicate Defines(kv: Option<(string, string)>, key: string) {
    kv.Some? && kv.value.0 == key
  }

  /** A key is present exactly when some line defines it or it was there before. */
  lemma {:induction false} ApplyKeys(m: Fields, kvs: seq<Option<(string, string)>>, key: string)
    ensures key in Apply(m, kvs) <==> key in m || exists j :: 0 <= j < |kvs| && Defines(kvs[j], key)
    decreases |kvs|
  {
    if |kvs| > 0 {
      var m' := if kvs[0].Some? then m[kvs[0].value.0 := kvs[0].value.1] else m;
      ApplyKeys(m', kvs[1..], key);
      if exists j :: 0 <= j < |kvs| && Defines(kvs[j], key) {
        var j :| 0 <= j < |kvs| && Defines(kvs[j], key);
        if j > 0 {
          assert Defines(kvs[1..][j - 1], key);
        }
      }
      if exists j :: 0 <= j < |kvs[1..]| && Defines(kvs[1..][j], key) {
        var j :| 0 <= j < |kvs[1..]| && Defines(kvs[1..][j], key);
        assert Defines(kvs[j + 1], key);
      }
    }
  }

  /** A key no line defines keeps its earlier value. */
  lemma {:induction false} ApplyKeeps(m: Fields, kvs: seq<Option<(string, string)>>, key: string)
    requires key in m && forall j :: 0 <= j < |kvs| ==> !Defines(kvs[j], key)
    ensures key in Apply(m, kvs) && Apply(m, kvs)[key] == m[key]
    decreases |kvs|
  {
    if |kvs| > 0 {
      var m' := if kvs[0].Some? then m[kvs[0].value.0 := kvs[0].value.1] else m;
      assert forall j :: 0 <= j < |kvs[1..]| ==> kvs[1..][j] == kvs[j + 1];
      ApplyKeeps(m', kvs[1..], key);
    }
  }

  /** The last line that defines a key decides its value: a later duplicate wins. */
  lemma {:induction false} ApplyLastWins(m: Fields, kvs: seq<Option<(string, string)>>, key: string, j: nat)
    requires j < |kvs| && Defines(kvs[j], key)
    requires forall j' :: j < j' < |kvs| ==> !Defines(kvs[j'], key)
    ensures key in Apply(m, kvs) && Apply(m, kvs)[key] == kvs[j].value.1
    decreases |kvs|
  {
    var m' := if kvs[0].Some? then m[kvs[0].value.0 := kvs[0].value.1] else m;
    var rest := kvs[1..];
    assert forall i :: 0 <= i < |rest| ==> rest[i] == kvs[i + 1];
    if j == 0 {
      ApplyKeeps(m', rest, key);
    } else {
      ApplyLastWins(m', rest, key, j - 1);
    }
  }

  /** Every key of a parsed reply is non-empty and free of colons. */
  lemma ParsedKeys(m: Fields, lines: seq<string>)
    requires forall key :: key in m ==> key != "" && ':' !in key
    ensures forall key :: key in Apply(m, ParsedLines(lines)) ==> key != "" && ':' !in key
  {
    var kvs := ParsedLines(lines);
    forall key | key in Apply(m, kvs)
      ensures key != "" && ':' !in key
    {
      ApplyKeys(m, kvs, key);
      if key !in m {
        var j :| 0 <= j < |kvs| && Defines(kvs[j], key);
        assert kvs[j] == ParseLine(lines[j]);
      }
    }
  }

  /** A key a directory can send: non-empty, lower-case, trimmed, no colon or newline. */
  predicate WellFormedKey(k: string) {
    && k != "" && ':' !in k && '\n' !in k
    && !IsSpace(k[0]) && !IsSpace(k[|k| - 1])
    && forall i :: 0 <= i < |k| ==> !('A' <= k[i] <= 'Z')
  }

  /** A value a directory can send: trimmed, no newline. */
  predicate WellFormedValue(v: string) {
    '\n' !in v && (v == [] || (!IsSpace(v[0]) && !IsSpace(v[|v| - 1])))
  }

  /** The reply text a directory sends for a list of fields, one `key: value` line each. */
  function Render(pairs: seq<(string, string)>): string {
    if |pairs| == 0 then "" else Join(Lines(pairs), '\n')
  }

  function Lines(pairs: seq<(string, string)>): (r: seq<string>)
    ensures |r| == |pairs|
  {
    seq(|pairs|, i requires 0 <= i < |pairs| => pairs[i].0 + ": " + pairs[i].1)
  }

  /** The reference: the fields set in order, a later pair overriding an earlier one. */
  function FieldsOf(m: Fields, pairs: seq<(string, string)>): Fields
    decreases |pairs|
  {
    if |pairs| == 0 then m else FieldsOf(m[pairs[0].0 := pairs[0].1], pairs[1..])
  }

  lemma ParseRenderedLine(k: string, v: string)
    requires WellFormedKey(k) && WellFormedValue(v)
    ensures ParseLine(k + ": " + v) == Some((k, v))
  {
    var t := " " + v;
    var line := k + ": " + v;
    assert line == k + [':'] + t;
    IndexOfAfter(k, ':', t);
    assert IndexOf(line, ':') == Some(|k|);
    assert line[..|k|] == k;
    assert line[|k| + 1..] == t;
    TrimNoop(k);
    LowerNoop(k);
    assert KeyOf(k) == k;
    TrimAfterSpace(v);
  }

  lemma LowerNoop(k: string)
    requires forall i :: 0 <= i < |k| ==> !('A' <= k[i] <= 'Z')
    ensures Lower(k) == k
  {
  }

  lemma {:induction false} ParseLinesRendered(m: Fields, pairs: seq<(string, string)>)
    requires forall i :: 0 <= i < |pairs| ==> WellFormedKey(pairs[i].0) && WellFormedValue(pairs[i].1)
    ensures Apply(m, ParsedLines(Lines(pairs))) == FieldsOf(m, pairs)
    decreases |pairs|
  {
    if |pairs| > 0 {
      var kvs := ParsedLines(Lines(pairs));
      var m' := m[pairs[0].0 := pairs[0].1];
      FirstLineParsed(pairs);
      LinesTail(pairs);
      assert Apply(m, kvs) == Apply(m', kvs[1..]);
      ParseLinesRendered(m', pairs[1..]);
    }
  }

  lemma FirstLineParsed(pairs: seq<(string, string)>)
    requires |pairs| > 0 && WellFormedKey(pairs[0].0) && WellFormedValue(pairs[0].1)
    ensures ParsedLines(Lines(pairs))[0] == Some(pairs[0])
  {
    assert Lines(pairs)[0] == pairs[0].0 + ": " + pairs[0].1;
    ParseRenderedLine(pairs[0].0, pairs[0].1);
  }

  lemma LinesTail(pairs: seq<(string, string)>)
    requires |pairs| > 0
    ensures ParsedLines(Lines(pairs))[1..] == ParsedLines(Lines(pairs[1..]))
  {
    assert Lines(pairs)[1..] == Lines(pairs[1..]);
  }

  /** Parsing what a directory renders gives back exactly its fields. */
  lemma ParseRender(pairs: seq<(string, string)>)
    requires forall i :: 0 <= i < |pairs| ==> WellFormedKey(pairs[i].0) && WellFormedValue(pairs[i].1)
    ensures Parse(Render(pairs)) == FieldsOf(map[], pairs)
  {
    if |pairs| == 0 {
      assert Split("", '\n') == [""];
    } else {
      var ls := Lines(pairs);
      forall i | 0 <= i < |ls|
        ensures '\n' !in ls[i]
      {
        assert ls[i] == pairs[i].0 + ": " + pairs[i].1;
      }
      JoinSplit(ls, '\n');
      ParseLinesRendered(map[], pairs);
    }
  }

  /** `res[key]`, absent as `None`. */
  function Get(m: Fields, key: string): Option<string> {
    if key in m then Some(m[key]) else None
  }

  /** `res['icy-response'] === 'ack'`. */
  predicate Ack(m: Fields) {
    Get(m, "icy-response") == Some("ack")
  }

  /** A reply that registers: acknowledged, with a non-empty `icy-id`. */
  predicate Accepts(r: Reply) {
    r.Answer? && Ack(r.fields) && Truthy(Get(r.fields, "icy-id"))
  }

  const DefaultTouchMinutes: nat := 5
  const MaxRetries: nat := 3

  /** `Number(res['icy-tchfrq']) || 5`: the advertised minutes when a non-zero number, else 5. */
  function TouchFreq(m: Fields): (r: nat)
    ensures r > 0
    ensures r != DefaultTouchMinutes ==> NumberOf(Get(m, "icy-tchfrq")) == Some(r)
  {
    match NumberOf(Get(m, "icy-tchfrq"))
    case Some(n) => if n != 0 then n else DefaultTouchMinutes
    case None => DefaultTouchMinutes
  }

  /**
   * The client: whether it is registered, the station id the directory issued, the
   * touch interval in minutes, and the interval of the running touch timer.
   */
  datatype Client = Client(registered: bool, ypId: Option<string>, touchFreq: nat, timer: Option<nat>) {
    /**
     * Registered exactly when an id is held, and that id is non-empty; the touch
     * interval is positive, and a running timer fires at the current interval.
     */
    predicate Valid() {
      && (registered <==> ypId.Some?)
      && (ypId.Some? ==> ypId.value != "")
      && touchFreq > 0
      && (timer.Some? ==> timer.value == touchFreq)
    }
  }

  const Initial: Client := Client(false, None, DefaultTouchMinutes, None)

  /** `startTouching`: any running timer is stopped first, so exactly one runs, at the current interval. */
  function StartTouching(c: Client): (r: Client)
    ensures r == c.(timer := Some(c.touchFreq))
  {
    StopTouching(c).(timer := Some(c.touchFreq))
  }

  /** `stopTouching`. */
  function StopTouching(c: Client): (r: Client)
    ensures r.timer.None? && r == c.(timer := None)
  {
    c.(timer := None)
  }

  /** The outcome of `register()`: the client, the result, the attempts made and the waits between them. */
  datatype Registration = Registration(client: Client, ok: bool, attempts: nat, waits: nat)

  /** The reply to attempt `a` (counting from 0); a missing reply counts as a failure. */
  function ReplyAt(replies: seq<Reply>, a: nat): Reply {
    if a < |replies| then replies[a] else Failure
  }

  /** The client after an accepting reply: registered under its id, its interval, and a timer at that interval. */
  function Accepted(m: Fields): (r: Client)
    ensures r.registered && r.ypId == Get(m, "icy-id") && r.touchFreq == TouchFreq(m) && r.timer == Some(r.touchFreq)
  {
    StartTouching(Client(true, Get(m, "icy-id"), TouchFreq(m), None))
  }

  /** The retry loop from attempt `a` on: the first attempt whose reply accepts, if any. */
  function FirstAccepting(replies: seq<Reply>, a: nat): Option<nat>
    requires a <= MaxRetries
    decreases MaxRetries - a
  {
    if a == MaxRetries then None
    else if Accepts(ReplyAt(replies, a)) then Some(a)
    else FirstAccepting(replies, a + 1)
  }

  /** The loop finds an accepting reply exactly when there is one, and it finds the first. */
  lemma {:induction false} FirstAcceptingSpec(replies: seq<Reply>, a: nat)
    requires a <= MaxRetries
    ensures var r := FirstAccepting(replies, a);
      && (r.None? <==> forall b :: a <= b < MaxRetries ==> !Accepts(ReplyAt(replies, b)))
      && (r.Some? ==> a <= r.value < MaxRetries && Accepts(ReplyAt(replies, r.value)))
      && (r.Some? ==> forall b :: a <= b < r.value ==> !Accepts(ReplyAt(replies, b)))
    decreases MaxRetries - a
  {
    if a < MaxRetries && !Accepts(ReplyAt(replies, a)) {
      FirstAcceptingSpec(replies, a + 1);
    }
  }

  /**
   * `register()`: up to three attempts, waiting only between attempts. The first
   * accepting reply registers the client under its id, with the advertised touch
   * interval (5 when absent or zero), and starts the timer; after three rejected or
   * failed attempts the result is false and the client is unchanged.
   */
  function Register(c: Client, replies: seq<Reply>): (r: Registration)
    ensures r.attempts <= MaxRetries && r.waits + 1 == r.attempts
    ensures r.ok <==> exists a :: 0 <= a < MaxRetries && Accepts(ReplyAt(replies, a))
    ensures !r.ok ==> r.client == c && r.attempts == MaxRetries
    ensures r.ok ==> (Accepts(ReplyAt(replies, r.attempts - 1))
      && forall a :: 0 <= a < r.attempts - 1 ==> !Accepts(ReplyAt(replies, a)))
    ensures r.ok ==> r.client == Accepted(ReplyAt(replies, r.attempts - 1).fields)
  {
    FirstAcceptingSpec(replies, 0);
    match FirstAccepting(replies, 0)
    case Some(a) => Registration(Accepted(ReplyAt(replies, a).fields), true, a + 1, a)
    case None => Registration(c, false, MaxRetries, MaxRetries - 1)
  }

  /** `register()` keeps the client valid. */
  lemma RegisterValid(c: Client, replies: seq<Reply>)
    requires c.Valid()
    ensures Register(c, replies).client.Valid()
  {
  }

  /**
   * `touch()` given the directory's reply and, for a rejection, the replies the
   * re-registration gets: a no-op when unregistered or the request fails; on an
   * acknowledgement the interval changes (and the timer restarts) only for a
   * different non-zero number; on a rejection the client is unregistered, the timer
   * stopped, and `register()` runs again.
   */
  function Touch(c: Client, reply: Reply, again: seq<Reply>): (r: Client)
    ensures !c.registered || !Truthy(c.ypId) || reply.Failure? ==> r == c
    ensures c.registered && Truthy(c.ypId) && reply.Answer? && Ack(reply.fields) ==>
      var n := NumberOf(Get(reply.fields, "icy-tchfrq"));
      if n.Some? && n.value != 0 && n.value != c.touchFreq
      then r == c.(touchFreq := n.value, timer := Some(n.value))
      else r == c
    ensures c.registered && Truthy(c.ypId) && reply.Answer? && !Ack(reply.fields) ==>
      r == Register(Client(false, None, c.touchFreq, None), again).client
  {
    if !c.registered || !Truthy(c.ypId) then c
    else match reply
      case Failure => c
      case Answer(fields) =>
        var m := fields;
        if Ack(m) then
          var n := NumberOf(Get(m, "icy-tchfrq"));
          if n.Some? && n.value != 0 && n.value != c.touchFreq then StartTouching(c.(touchFreq := n.value)) else c
        else
          Register(StopTouching(c.(registered := false, ypId := None)), again).client
  }

  /** `touch()` keeps the client valid. */
  lemma TouchValid(c: Client, reply: Reply, again: seq<Reply>)
    requires c.Valid()
    ensures Touch(c, reply, again).Valid()
  {
  }

  /** A rejected touch whose re-registration also fails leaves the client unregistered with no timer. */
  lemma TouchRejectedThenFails(c: Client, reply: Reply, again: seq<Reply>)
    requires c.registered && Truthy(c.ypId) && reply.Answer? && !Ack(reply.fields)
    requires forall a :: 0 <= a < MaxRetries ==> !Accepts(ReplyAt(again, a))
    ensures var r := Touch(c, reply, again); !r.registered && r.ypId.None? && r.timer.None?
  {
  }

  /**
   * `remove()`: when registered, the client ends unregistered with no id whether or
   * not the request succeeds; otherwise nothing happens. The timer is left alone.
   */
  function Remove(c: Client): (r: Client)
    ensures !c.registered || !Truthy(c.ypId) ==> r == c
    ensures c.registered && Truthy(c.ypId) ==> r == c.(registered := false, ypId := None)
  {
    if !c.registered || !Truthy(c.ypId) then c else c.(registered := false, ypId := None)
  }

  /** `stop()`: stop the timer, then `remove()`. */
  function Stop(c: Client): (r: Client)
    requires c.Valid()
    ensures r.Valid() && !r.registered && r.ypId.None? && r.timer.None?
    ensures r.touchFreq == c.touchFreq
  {
    Remove(StopTouching(c))
  }
}
